=== FILE: README.md ===
# DSA study site and bot, modelled in Dafny

DSA Study Bot is a study aid for data structures and algorithms in two parts.

- **The study site** (a Next.js app) has:
  - a problem catalogue with filters, search, related problems and a problem of the day;
  - a topic table;
  - quizzes and flashcards;
  - an algorithm visualizer that plays back the snapshots of step-by-step sorting and searching generators;
  - progress tracking: attempts, completions, hint levels, day streaks and daily activity, with a dashboard and streak calendar over it;
  - a three-way theme toggle.
- **The Discord bot** offers:
  - a problem of the day and random problems;
  - a hint ladder for each user and problem;
  - one-question quizzes answered with buttons;
  - AI explanations, split into embed-sized chunks.

This project models the logic of both parts in Dafny and proves what that logic promises. Each source file of the core gets its own module:

| module | file |
|---|---|
| `Algorithms` | `src/components/visualizer/algorithms.ts` |
| `VisualizerTypes` | `src/components/visualizer/types.ts` |
| `ArrayVisualizer` | `src/components/visualizer/ArrayVisualizer.tsx` |
| `Progress` | `src/lib/progress.ts` |
| `Catalogue` | `src/data/index.ts` |
| `Topics` | `src/data/topics.ts` |
| `Quizzes` | `src/data/quizzes.ts` |
| `Flashcards` | `src/data/flashcards.ts` |
| `FlashcardDeck` | `src/components/flashcards/FlashcardDeck.tsx` |
| `QuizModal` | `src/components/quiz/QuizModal.tsx` |
| `QuizCard` | `src/components/quiz/QuizCard.tsx` |
| `QuizResults` | `src/components/quiz/QuizResults.tsx` |
| `Dashboard` | `src/app/dashboard/page.tsx` |
| `StreakCalendar` | `src/components/progress/StreakCalendar.tsx` |
| `ThemeToggle` | `src/components/theme-toggle.tsx` |
| `BotProblems` | `discord-bot/src/data/problems.ts` |
| `BotQuizzes` | `discord-bot/src/data/quizzes.ts` |
| `BotHint` | `discord-bot/src/commands/hint.ts` |
| `BotQuiz` | `discord-bot/src/commands/quiz.ts` |
| `Explain` | `discord-bot/src/commands/explain.ts` |

`Common` (common.dfy) holds the shared vocabulary: options, ordering predicates, the rounded percentage, ASCII lower-casing, substring search, decimal strings, filtering and subsequences, a stable descending sort by key, and JavaScript's `slice` and random pick. The sort is stable because `Array.prototype.sort` is required to be stable since ECMAScript 2019 (section 23.1.3.30 of ECMA-262), so every ranking of the program keeps input order among equal keys; `TiesFirst` states that for a ranking cut short.

## How the model is built

- **Code that changes state** is imperative Dafny.
  - The sort and search generators are methods over `array<int>`.
    - Each copies its input. The input array has no `modifies` clause, so it is provably untouched.
    - Each sorts or searches the copy in place and returns the snapshots it yields, in order.
  - These are classes whose methods change their fields:
    - the progress object;
    - the hint counters of the bot;
    - the flashcard deck;
    - the quiz dialog and the quiz card;
    - the visualizer;
    - the theme button.
  - Loops that push results are methods with loop invariants:
    - message chunking;
    - the streak calendar;
    - the topic counters.
- **Filters, lookups, scores and classifications** are functions. Each is paired with the lemmas that relate it to its specification.
- **Randomness is a parameter.**
  - `Math.random()` becomes a draw in [0, 1).
  - The `sort(() => Math.random() - 0.5)` shuffle becomes the shuffled copy itself, required only to be a permutation of the pool.
- **The clock is a parameter.** A `YYYY-MM-DD` date is the day number it names, and an empty date string is `None`.
- **`Math.round(100 * c / t)` is rounded half up** on integers: `(200c + t) div 2t`.

## Model

| member | source | states |
|---|---|---|
| Algorithms.Copy | src/components/visualizer/algorithms.ts:4 | a fresh array holding the input's values |
| Algorithms.Swap | src/components/visualizer/algorithms.ts:18 | the two positions exchange their values, the rest stays, the multiset is kept |
| Algorithms.BubbleCompare | src/components/visualizer/algorithms.ts:9-25 | one comparison of neighbours keeps the values a permutation, keeps the settled suffix final and moves the largest value seen so far to position j + 1 |
| Algorithms.BubblePass | src/components/visualizer/algorithms.ts:9-27 | one pass makes position `last` final as well, and every snapshot marks only final positions sorted |
| Algorithms.BubbleSort | src/components/visualizer/algorithms.ts:3-36 | the last snapshot is the ascending permutation of the input with every index marked sorted; every snapshot is a permutation whose marked suffix is final and which highlights only neighbours outside it |
| Algorithms.SelectionScan | src/components/visualizer/algorithms.ts:44-57 | the index found holds the first smallest value of the unsettled part |
| Algorithms.SelectionPass | src/components/visualizer/algorithms.ts:43-69 | one pass makes position i final and keeps the values a permutation |
| Algorithms.SelectionSort | src/components/visualizer/algorithms.ts:38-78 | the last snapshot is the ascending permutation of the input; every snapshot is a permutation whose marked prefix is final, comparing only unsettled positions and swapping into the first of them |
| Algorithms.InsertionShift | src/components/visualizer/algorithms.ts:97-111 | one shift moves the hole left past a larger value, keeping the shifted block above the key |
| Algorithms.InsertionShifts | src/components/visualizer/algorithms.ts:96-112 | the inner loop stops at the first position from the right holding a value no larger than the key, or before the start |
| Algorithms.InsertionPass | src/components/visualizer/algorithms.ts:85-115 | one pass inserts the key: the prefix through i is in order and a permutation of the old prefix, and the rest is untouched |
| Algorithms.PlaceKey | src/components/visualizer/algorithms.ts:114 | writing the key into the hole gives an ordered prefix through i and a permutation of the input |
| Algorithms.PassFacts | src/components/visualizer/algorithms.ts:114 | the key placed into the hole restores a permutation and extends the ordered prefix |
| Algorithms.KeyPlaced | src/components/visualizer/algorithms.ts:114 | the key written after the last value no larger than it leaves the prefix through i in order |
| Algorithms.InsertionSort | src/components/visualizer/algorithms.ts:80-123 | the last snapshot is the ascending permutation of the input; every snapshot marks an ordered prefix sorted and highlights only indices in or just past it |
| Algorithms.PartitionCompare | src/components/visualizer/algorithms.ts:139-158 | one comparison with the pivot grows the smaller-than-pivot block by the compared value when it is smaller, keeping a permutation inside the range |
| Algorithms.Partition | src/components/visualizer/algorithms.ts:128-170 | the pivot lands at the returned index with smaller values before it and no smaller values after it, within the range, as a permutation |
| Algorithms.PlacePivot | src/components/visualizer/algorithms.ts:161 | the swap puts the pivot just after the smaller values |
| Algorithms.QuickSortHelper | src/components/visualizer/algorithms.ts:172-181 | the range comes out in order, as a permutation, with everything outside it untouched |
| Algorithms.QuickSort | src/components/visualizer/algorithms.ts:125-190 | with the default range, the last snapshot is the ascending permutation of the input and every snapshot is a permutation |
| Algorithms.MergeRuns | src/components/visualizer/algorithms.ts:219-247 | the merged run is as long as both runs together |
| Algorithms.MergeRunsPermutes | src/components/visualizer/algorithms.ts:219-247 | the merged run is a permutation of the two runs |
| Algorithms.MergeRunsSorted | src/components/visualizer/algorithms.ts:219-247 | merging two ascending runs gives an ascending run |
| Algorithms.MergeTakesLeft | src/components/visualizer/algorithms.ts:227-229 | when the left head is no larger, it is the next value of the merge |
| Algorithms.MergeTakesRight | src/components/visualizer/algorithms.ts:230-233 | when the right head is smaller, it is the next value of the merge |
| Algorithms.MergeHeads | src/components/visualizer/algorithms.ts:219-235 | the head loop writes a prefix of the merge and stops when one run is exhausted |
| Algorithms.TakeHead | src/components/visualizer/algorithms.ts:227-234 | one step writes the next value of the merge and advances exactly one run |
| Algorithms.CopyRun | src/components/visualizer/algorithms.ts:237-247 | the tail loops copy the remaining run after the written prefix |
| Algorithms.Merge | src/components/visualizer/algorithms.ts:206-254 | the range holds the merge of its two halves, and nothing outside it changes |
| Algorithms.MergedRange | src/components/visualizer/algorithms.ts:206-254 | merging two ordered halves leaves the range in order and the array a permutation |
| Algorithms.MergedRangeMultiset | src/components/visualizer/algorithms.ts:206-254 | writing the merge back leaves the array a permutation |
| Algorithms.MergeSortHelper | src/components/visualizer/algorithms.ts:197-204 | the range comes out in order, as a permutation, with everything outside it untouched |
| Algorithms.MergeHalves | src/components/visualizer/algorithms.ts:202 | merging two ordered halves orders the range |
| Algorithms.MergeSort | src/components/visualizer/algorithms.ts:192-263 | the last snapshot is the ascending permutation of the input; every earlier one highlights indices in range |
| Algorithms.InsertAscending | src/components/visualizer/algorithms.ts:266 | inserting into an ascending run gives an ascending run with one more value |
| Algorithms.SortAscending | src/components/visualizer/algorithms.ts:266 | the ascending permutation of the input |
| Algorithms.SortAscendingMembers | src/components/visualizer/algorithms.ts:266 | sorting keeps exactly the values present |
| Algorithms.BinaryProbe | src/components/visualizer/algorithms.ts:277-312 | one probe either finds the target at the middle or narrows the window, having ruled out every index it drops |
| Algorithms.BinarySearchSorted | src/components/visualizer/algorithms.ts:267-319 | on an ascending array, the last snapshot reports an index holding the target exactly when the target is present, and "not found" otherwise; no earlier snapshot reports a find |
| Algorithms.BinarySearch | src/components/visualizer/algorithms.ts:265-320 | every snapshot shows the sorted copy; the last reports an index of the sorted copy holding the target exactly when the target is in the input, and no earlier one reports a find |
| Algorithms.LinearSearch | src/components/visualizer/algorithms.ts:322-351 | the last snapshot reports the first index holding the target, or "not found" exactly when no index does; no earlier snapshot reports a find |
| VisualizerTypes.FindAlgorithm | src/components/visualizer/ArrayVisualizer.tsx:53 | an entry of the table with the id when there is one; nothing exactly when no entry has it |
| VisualizerTypes.AlgorithmTableShape | src/components/visualizer/types.ts:44-108 | seven entries with distinct ids, five sorts then two searches |
| VisualizerTypes.GenerateRandomArray | src/components/visualizer/types.ts:110-112 | `size` values, each within [min, max] when min ≤ max |
| VisualizerTypes.RandomValueInBounds | src/components/visualizer/types.ts:111 | a draw in [0, 1) gives a value in [min, max] |
| ArrayVisualizer.BarColourOf | src/components/visualizer/ArrayVisualizer.tsx:142-150 | default with no snapshot; otherwise found, pivot, swapping, comparing and sorted take precedence in that order, each exactly when the earlier marks are absent |
| ArrayVisualizer.UnmarkedBarIsDefault | src/components/visualizer/ArrayVisualizer.tsx:149 | a bar with no mark has the default colour |
| ArrayVisualizer.Delay | src/components/visualizer/ArrayVisualizer.tsx:106 | the delay is `500 - 5·speed` but never below 10 ms |
| ArrayVisualizer.DelayBounds | src/components/visualizer/ArrayVisualizer.tsx:106 | for slider speeds 1-100 the delay lies in 10-495 ms and a faster speed never waits longer |
| ArrayVisualizer.GeneratorPerAlgorithm | src/components/visualizer/ArrayVisualizer.tsx:63-82 | every table entry gets a generator of its own, a sort exactly for the sorting entries |
| ArrayVisualizer.TableGenerators | src/components/visualizer/ArrayVisualizer.tsx:64-78 | each table id selects its own generator |
| ArrayVisualizer.UnknownIdBubbleSort | src/components/visualizer/ArrayVisualizer.tsx:79-80 | an id outside the table falls back to bubble sort |
| ArrayVisualizer.SearchAlgorithmsSearch | src/components/visualizer/ArrayVisualizer.tsx:152-153 | an algorithm is a search algorithm exactly when its generator is not a sort |
| ArrayVisualizer.TargetFor | src/components/visualizer/ArrayVisualizer.tsx:76-78 | the search target unless it is missing or 0, and then the first value |
| ArrayVisualizer.TargetForFromValues | src/components/visualizer/ArrayVisualizer.tsx:55-78 | a target picked from the values, or the fallback, is one of the values |
| ArrayVisualizer.SortedOutcomeInBounds | src/components/visualizer/algorithms.ts:31-35 | the closing sorted snapshot highlights only indices in range |
| ArrayVisualizer.ArrayOf | src/components/visualizer/ArrayVisualizer.tsx:66 | a fresh array holding the values |
| ArrayVisualizer.RunSort | src/components/visualizer/ArrayVisualizer.tsx:65-74 | a sort generator's snapshots stay in range and end on the ascending permutation of the values |
| ArrayVisualizer.RunSearch | src/components/visualizer/ArrayVisualizer.tsx:75-78 | a search generator's snapshots stay in range and the last one reports a find exactly when the target is present |
| ArrayVisualizer.RunGenerator | src/components/visualizer/ArrayVisualizer.tsx:63-82 | the snapshots of the selected generator have the outcome its kind promises |
| ArrayVisualizer.Visualizer.ShownStepInBounds | src/components/visualizer/ArrayVisualizer.tsx:97-98 | the snapshot on show highlights only bars that exist |
| ArrayVisualizer.Visualizer.constructor | src/components/visualizer/ArrayVisualizer.tsx:31-41 | no values, no snapshot, stopped, speed 50, bubble sort, size 20, no target and no generator |
| ArrayVisualizer.Visualizer.GenerateArray | src/components/visualizer/ArrayVisualizer.tsx:43-57 | a fresh random array, no snapshot, stopped, no generator; a search algorithm also picks a target from the new values |
| ArrayVisualizer.Visualizer.GetGenerator | src/components/visualizer/ArrayVisualizer.tsx:63-82 | the snapshots of the selected generator on the current values and target |
| ArrayVisualizer.Visualizer.EnsureGenerator | src/components/visualizer/ArrayVisualizer.tsx:85-87 | a generator is made from the current values only when none exists |
| ArrayVisualizer.Visualizer.RunStep | src/components/visualizer/ArrayVisualizer.tsx:84-99 | the next snapshot is shown and its array becomes the values; an exhausted generator stops and clears the pause |
| ArrayVisualizer.Visualizer.StopPlayback | src/components/visualizer/ArrayVisualizer.tsx:91-94 | an exhausted generator stops playback and clears the pause |
| ArrayVisualizer.Visualizer.TakeNext | src/components/visualizer/ArrayVisualizer.tsx:97-98 | the generator's next snapshot is shown and consumed |
| ArrayVisualizer.Visualizer.HandleStart | src/components/visualizer/ArrayVisualizer.tsx:119-125 | running and not paused, with a generator made only when none exists |
| ArrayVisualizer.Visualizer.HandlePause | src/components/visualizer/ArrayVisualizer.tsx:127-129 | paused, and nothing else changes |
| ArrayVisualizer.Visualizer.HandleStep | src/components/visualizer/ArrayVisualizer.tsx:135-140 | one more snapshot is consumed unless the generator is exhausted |
| ArrayVisualizer.Visualizer.Tick | src/components/visualizer/ArrayVisualizer.tsx:101-108 | nothing happens unless running and not paused; otherwise one step, and a request for a timeout of `Delay(speed)` |
| ArrayVisualizer.Visualizer.PlayToEnd | src/components/visualizer/ArrayVisualizer.tsx:101-117 | playing through ends stopped on the last snapshot: sorted values that permute the generated ones for a sort, and a find exactly when the target is present for a search, always found on a non-empty array |
| ArrayVisualizer.Visualizer.SetSpeed | src/components/visualizer/ArrayVisualizer.tsx:214-220 | the speed is set and the delay stays within 10-495 ms |
| ArrayVisualizer.Visualizer.SetAlgorithm | src/components/visualizer/ArrayVisualizer.tsx:36-61 | re-choosing the algorithm in force changes nothing (React drops a same-value update, so the effect does not re-run); a different algorithm regenerates the array and resets playback, and a search algorithm picks a new target |
| ArrayVisualizer.Visualizer.SetArraySize | src/components/visualizer/ArrayVisualizer.tsx:37-61 | the size already in force changes nothing; a different size in 5-50 regenerates an array of that size and resets playback |
| Progress.NewEntryUsesOnlyStatusAttemptsHints | src/lib/progress.ts:79-86 | the old record contributes only its status, attempts and hint levels: old records that agree on those give the same new record |
| Progress.NewEntryFields | src/lib/progress.ts:79-97 | supplied fields win; without an old record the status is in progress, attempts 0 and hints empty; the last attempt defaults to today; old notes are dropped; a first completion is dated today |
| Progress.BumpTopicsEffect | src/lib/progress.ts:100-110 | every listed topic gets an entry whose counters rise by its number of occurrences in the list, under the attempt and completion conditions; every other topic keeps its entry |
| Progress.BumpTopicsAt | src/lib/progress.ts:100-110 | for one topic: it has an entry afterwards exactly when it had one or is listed, and its counters rise by its number of occurrences |
| Progress.ConsecutiveDaysExtendStreak | src/lib/progress.ts:130-152 | activity on k consecutive days after a streak s that ended the day before gives s + k |
| Progress.FreshConsecutiveDays | src/lib/progress.ts:130-152 | from a fresh record, activity on k >= 1 consecutive days gives a streak of k |
| Progress.SameDayIdempotent | src/lib/progress.ts:142-143 | further activity on the same day leaves the streak as it is |
| Progress.LexTotal | src/lib/progress.ts:125 | the default string order compares any two strings |
| Progress.InsertDecimal | src/lib/progress.ts:125 | inserting into levels in string order keeps string order and adds exactly that level |
| Progress.SortDecimal | src/lib/progress.ts:125 | `sort()` with no comparator: the levels in the order of their decimal strings, same multiset |
| Progress.SingleDigitsAscend | src/lib/progress.ts:125 | for levels below 10 the string order is the numeric order |
| Progress.NoRepeatsAfterAdding | src/lib/progress.ts:123-125 | a level not yet recorded, added to levels without repeats and sorted, leaves no repeats |
| Progress.UserProgress.constructor | src/lib/progress.ts:31-38 | the default record: no streak, no active day, zero counters, no problem or topic entries, and the record invariant holds |
| Progress.UserProgress.ProblemProgressOf | src/lib/progress.ts:62-65 | the stored record for the id, absent exactly when there is none |
| Progress.UserProgress.UpdateStreak | src/lib/progress.ts:130-152 | the streak becomes `NextStreak` of the old streak and day (1 with no day, unchanged on the same day, one more on the next day, 1 otherwise), today becomes the active day, nothing else changes, and the invariant is kept |
| Progress.UserProgress.UpdateProblemProgress | src/lib/progress.ts:67-117 | returns the first-attempt and first-completion conditions; stores the new record, raises each counter by one under its condition, bumps the listed topics, updates the streak, and keeps the invariant (one attempt per record, at least one completion per completed record) |
| Progress.UserProgress.RecordProblem | src/lib/progress.ts:75-97 | the record and counter part of the update, with the same conditions, keeping the invariant |
| Progress.UserProgress.BumpTopicsFor | src/lib/progress.ts:100-110 | the topic loop leaves exactly `BumpTopics` of the old topic counters |
| Progress.UserProgress.MarkHintUsed | src/lib/progress.ts:119-128 | with no record, or the level already recorded, nothing changes; otherwise only that record's levels change, to the old ones plus the level in string order |
| Progress.CompletedAfterUpdate | src/lib/progress.ts:94-97 | an update changes the set of completed records only at its own key, so the completed count keeps up with the records |
| Progress.CompletedTwiceAttemptedOnce | src/lib/progress.ts:77 | completing, reopening and completing one problem counts one attempt and two completions |
| Progress.FindDate | src/lib/progress.ts:172 | the index of the first entry for the date, absent exactly when there is none |
| Progress.ActivityLog.constructor | src/lib/progress.ts:154-164 | an empty log |
| Progress.ActivityLog.UpdateDailyActivity | src/lib/progress.ts:166-181 | today's entry (found, or appended with zero counters) has each counter raised by one under its flag; every other entry stays; one entry per date is kept; an entry for today exists afterwards |
| Progress.CompletedOnDistinct | src/lib/progress.ts:196-207 | with one entry per date, a day's calendar count is that entry's completions, or 0 for a day without one |
| Progress.FindDateOfPrefix | src/lib/progress.ts:172 | dropping a last entry of another date does not change where a date is found |
| Progress.GetStreakCalendar | src/lib/progress.ts:194-212 | `max(days, 0)` entries for consecutive days ending today, oldest first, each with that day's completions |
| Progress.StatOf | src/lib/progress.ts:223-230 | the row copies the counters; the percentage is 0 with no attempts and otherwise completed/attempted·100 rounded half up, at most 100 when completions do not exceed attempts |
| Progress.TopicRows | src/lib/progress.ts:222-230 | one row per entry, in entry order, each the entry's counters and percentage |
| Progress.GetTopicProgressStats | src/lib/progress.ts:214-232 | one row per topic entry, ordered by attempts, most first, a permutation of the unsorted rows, and the rows with any one number of attempts exactly those unsorted rows in entry order |
| Catalogue.GetProblemById | src/data/index.ts:60-61 | absent exactly when no bank problem has the id; otherwise the first bank problem with that id (no earlier position has it) |
| Catalogue.GetProblemByIdFindsEntry | src/data/index.ts:52-53 | with distinct ids, every bank problem is what its own id looks up |
| Catalogue.Stage | src/data/index.ts:12-14 | one optional filter step: an order-preserving subsequence holding exactly the inputs that pass, or all of them when the criterion is not supplied |
| Catalogue.FilterProblems | src/data/index.ts:9-33 | an order-preserving subsequence of the bank holding exactly the problems that meet every supplied criterion (difficulty, some listed topic, lower-cased text match) |
| Catalogue.EmptyFilterKeepsAll | src/data/index.ts:9-33 | with no difficulty, no or an empty topic list and no or an empty search, the whole bank comes back unchanged |
| Catalogue.GetRandomProblem | src/data/index.ts:35-41 | a bank problem, of the requested difficulty when one is given; absent (`undefined`) exactly when no bank problem has that difficulty |
| Catalogue.GetDailyProblem | src/data/index.ts:43-49 | absent exactly for an empty bank; otherwise a bank problem |
| Catalogue.DailyProblemRotates | src/data/index.ts:48 | the daily problem repeats after as many days as the bank has problems, and day q·n + k shows problem k |
| Catalogue.GetHintForProblem | src/data/index.ts:51-57 | absent for an unknown problem; otherwise the content of the problem's first hint at that level, and absent exactly when no hint has that level |
| Catalogue.RelatedScore | src/data/index.ts:65-69 | the score is at most the number of topics plus one, and zero exactly when no topic is shared and the difficulty differs |
| Catalogue.ScoreRelated | src/data/index.ts:65-69 | every scored entry is a candidate paired with its closeness score |
| Catalogue.ScoreRelatedCarries | src/data/index.ts:65-69 | the scored entries are the candidates, in order, each paired with its closeness |
| Catalogue.CutStable | src/data/index.ts:70-71 | for any score function the entries carry, the problems of a prefix of their sorted order have each score's problems as the first candidates of that score |
| Catalogue.CutTiesFirst | src/data/index.ts:63-72 | the cut ranking by closeness keeps candidate order on ties |
| Catalogue.Others | src/data/index.ts:64 | exactly the bank problems with a different id |
| Catalogue.RankRelated | src/data/index.ts:63-72 | candidates only, each at most as often as it occurs (a sub-multiset), `min(limit, count)` of them for a non-negative limit, in non-increasing closeness, no candidate left out is closer than any kept, and the kept problems of any one closeness are the first candidates of that closeness, in candidate order (`TiesFirst`) |
| Catalogue.GetRelatedProblems | src/data/index.ts:59-73 | empty for an unknown id; otherwise a sub-multiset of the other bank problems, exactly `min(limit, others)` of them, in non-increasing closeness, every other problem left out is no closer than any returned, and ties come in bank order: the returned problems of one closeness are the first other problems of that closeness |
| Catalogue.SearchScore | src/data/index.ts:90-99 | at most 35 points, and positive exactly when the query matches the title, the description, a topic, a pattern or the LeetCode number |
| Catalogue.LeetCodeNumberScores | src/data/index.ts:97 | the problem's own LeetCode number as the query scores at least 15; any other query scores at most 20 |
| Catalogue.ScoreSearch | src/data/index.ts:89-100 | every bank problem appears with its score, and nothing else does |
| Catalogue.RankedHits | src/data/index.ts:101-102 | the descending sort of the positive entries holds exactly the positively scored entries |
| Catalogue.HitsFacts | src/data/index.ts:89-103 | the ranked hits are the bank problems that score, each as often as in the bank, and for every positive score its problems in bank order |
| Catalogue.ProblemsKeepPositive | src/data/index.ts:101-103 | keeping the positively scored entries and dropping their scores keeps exactly the problems that score, in order |
| Catalogue.RankBySearch | src/data/index.ts:89-103 | exactly the bank problems with a positive score, each as often as in the bank (the same multiset as the filtered bank), highest score first, and for every positive score the problems of that score in bank order |
| Catalogue.SearchProblems | src/data/index.ts:84-104 | nothing for a blank query; otherwise exactly the scoring problems, each as often as in the bank, highest score first, and problems of equal score in bank order |
| Catalogue.TaggedCount | src/data/index.ts:80 | at most the bank size, and positive exactly when some problem carries the topic |
| Catalogue.CountTopics | src/data/index.ts:76-81 | one entry per topic, in table order, with that topic's problem count |
| Catalogue.TopicStatsOf | src/data/index.ts:75-82 | in table order, exactly the topics some problem carries, each with its positive count |
| Catalogue.GetTopicStats | src/data/index.ts:75-82 | the same over the topic table |
| Topics.TopicTableShape | src/data/topics.ts:3-148 | the table has 24 entries, entry i carries the i-th slug of the `TopicSlug` union, and no slug occurs twice |
| Topics.GetTopicBySlug | src/data/topics.ts:150-152 | absent exactly when the string is not a table slug; when present, a table entry with that slug |
| Topics.GetTopicBySlugFindsEntry | src/data/topics.ts:150-152 | every table entry is what its own slug looks up |
| Topics.GetTopicsByCategory | src/data/topics.ts:154-170 | in table order, exactly the table topics whose slug the category lists |
| Topics.CategoriesPartitionTopics | src/data/topics.ts:154-170 | every table slug is listed by exactly one category, and every listed slug is a table slug |
| Quizzes.QuizTableShape | src/data/quizzes.ts:24-287 | the table holds 23 questions with distinct ids, each with its correct answer among its options |
| Quizzes.GetQuizzesByTopic | src/data/quizzes.ts:289-291 | a subsequence of the table holding exactly the table's questions on that topic |
| Quizzes.QuizPool | src/data/quizzes.ts:294 | questions from the table, all on the topic when a non-empty topic is given |
| Quizzes.GetRandomQuiz | src/data/quizzes.ts:293-297 | `min(count, |pool|)` questions for a non-negative count, drawn without repetition from the pool, all on the topic when one is given |
| Common.SortDescStable | src/data/index.ts:70 | the comparator sort is stable: for every key, the items of that key come out exactly as they came in, in input order |
| Common.SortDescPrefix | src/app/dashboard/page.tsx:68-69 | a prefix of the sorted sequence is a sub-multiset of the input whose items of any one key are the first such items of the input |
| Common.RoundPercentUnique | src/data/quizzes.ts:308 | any integer within half of 100·num/den is `RoundPercent(num, den)`, so the rounding bounds determine the percentage |
| Quizzes.CountCorrect | src/data/quizzes.ts:304 | the number right is at most the number of answers |
| Quizzes.CountCorrectCounts | src/data/quizzes.ts:304 | the number right is the number of positions whose answer is the question's correct option |
| Quizzes.CalculateScore | src/data/quizzes.ts:299-310 | correct ≤ total = number of questions; correct counts the right positions; the percentage is NaN exactly for no questions, and otherwise `RoundPercent(correct, total)`, the integer within half of 100·correct/total: at most 100, 100 when all are right and 0 when none is |
| QuizCard.Card.constructor | src/components/quiz/QuizCard.tsx:24 | the card starts with its question and the selection passed in, or none |
| QuizCard.Card.Rerender | src/components/quiz/QuizCard.tsx:17-24 | new props replace the question but the state keeps the old selection |
| QuizCard.Card.HandleSelect | src/components/quiz/QuizCard.tsx:28-32 | the first pick is stored and reported; once answered, a pick changes nothing and reports nothing |
| QuizCard.Card.StyleOf | src/components/quiz/QuizCard.tsx:34-48 | hoverable exactly before an answer; afterwards green exactly for the correct option, red exactly for a wrong pick, dimmed otherwise |
| QuizCard.Card.AnsweredStyles | src/components/quiz/QuizCard.tsx:34-48 | once answered, only the correct option is green, a red option is the wrong pick, and a wrong pick is red |
| QuizCard.OptionLetters | src/components/quiz/QuizCard.tsx:81 | one letter per option, A, B, C, ... in order |
| QuizResults.MessageFor | src/components/quiz/QuizResults.tsx:23-28 | "Excellent!" exactly from 90, "Great job!" exactly for 70-89, "Good effort!" exactly for 50-69, "Keep practicing!" for the rest and for NaN |
| QuizResults.RingColourFor | src/components/quiz/QuizResults.tsx:59-62 | green exactly from 70, yellow exactly for 50-69, red below 50 and for NaN |
| QuizResults.MessageMonotone | src/components/quiz/QuizResults.tsx:23-28 | a higher percentage never gets a lower message |
| QuizResults.RingMatchesMessage | src/components/quiz/QuizResults.tsx:23-62 | green for the two top messages, yellow for "Good effort!", red for "Keep practicing!" |
| QuizResults.ArcLength | src/components/quiz/QuizResults.tsx:58 | the arc is 3.52 per percent, never negative and never beyond the 352-unit circle for percentages up to 100 |
| QuizResults.ScoreExtremes | src/components/quiz/QuizResults.tsx:23-58 | a quiz answered all right shows "Excellent!" and a full ring; one with nothing right shows "Keep practicing!" |
| Flashcards.DuplicateCardId | src/data/flashcards.ts:87-193 | as written, the binary-tree card and the backtracking card are different cards with the same id "fc-bt-1" |
| Flashcards.FlashcardIdsDistinct | src/data/flashcards.ts:11-207 | the corrected table has 24 cards, differs from the table as written only in the backtracking card's id, and has distinct ids |
| Flashcards.GetFlashcardsByTopic | src/data/flashcards.ts:209-211 | over a given table (the program's is `FlashcardTableAsWritten`): a subsequence of the table holding exactly the table's cards on that topic |
| Flashcards.TopicWithoutCards | src/data/flashcards.ts:209-211 | a topic with no card in the table gives an empty list |
| Flashcards.NoStringCards | src/data/flashcards.ts:11-207 | no card of the table as written is on strings |
| Flashcards.FlashcardPool | src/data/flashcards.ts:214 | cards from the given table, all on the topic when a non-empty topic is given, and the whole table otherwise |
| Flashcards.GetRandomFlashcards | src/data/flashcards.ts:213-217 | `min(count, |pool|)` cards for a non-negative count, drawn without repetition from the pool of the given table, all on the topic when one is given |
| FlashcardDeck.IdsOf | src/components/flashcards/FlashcardDeck.tsx:20 | exactly the ids of the deck's cards |
| FlashcardDeck.IdsOfSize | src/components/flashcards/FlashcardDeck.tsx:58 | a deck has no more distinct ids than cards |
| FlashcardDeck.Deck.constructor | src/components/flashcards/FlashcardDeck.tsx:16-20 | the deck starts as a draw from the pool, at its first card, front up, with nothing known |
| FlashcardDeck.Deck.Flip | src/components/flashcards/FlashcardDeck.tsx:24 | the current card turns over and nothing else changes |
| FlashcardDeck.Deck.Next | src/components/flashcards/FlashcardDeck.tsx:26-31 | forward one card, front up, unless at the last; otherwise nothing changes |
| FlashcardDeck.Deck.Prev | src/components/flashcards/FlashcardDeck.tsx:33-38 | back one card, front up, unless at the first; otherwise nothing changes |
| FlashcardDeck.Deck.Shuffle | src/components/flashcards/FlashcardDeck.tsx:40-45 | a new draw, at its first card, front up, with nothing known |
| FlashcardDeck.Deck.MarkKnown | src/components/flashcards/FlashcardDeck.tsx:47-55 | the current card's id is toggled in the known set; with distinct ids no other card's mark changes |
| FlashcardDeck.Deck.KnownCount | src/components/flashcards/FlashcardDeck.tsx:58 | the known count never exceeds the deck's distinct ids or its cards |
| FlashcardDeck.SampleDistinctIds | src/data/flashcards.ts:213-217 | a draw from a pool with distinct ids has distinct ids |
| FlashcardDeck.DrawnDeckDistinctIds | src/components/flashcards/FlashcardDeck.tsx:17 | every deck drawn from the corrected table, or from one topic of it, has distinct ids |
| FlashcardDeck.PoolDistinctIds | src/data/flashcards.ts:209-215 | every pool of the corrected table has distinct ids |
| FlashcardDeck.SubsequenceDistinctIds | src/data/flashcards.ts:209-211 | filtering a table with distinct ids keeps them distinct |
| FlashcardDeck.KnownConflation | src/components/flashcards/FlashcardDeck.tsx:47-58 | with the whole table as written as the pool, no topic, a count of two and a shuffle putting the binary-tree card and the backtracking card first, marking the binary-tree card shows the backtracking card as known too |
| FlashcardDeck.SharedIdShownKnown | src/components/flashcards/FlashcardDeck.tsx:47-58 | for any pool with two cards under one id shuffled to the front of a two-card deck, marking the first shows the second as known |
| QuizModal.WriteAnswer | src/components/quiz/QuizModal.tsx:50-51 | the answer lands at the index, every other slot keeps its old value, and writing past the end grows the array with holes |
| QuizModal.Filled | src/components/quiz/QuizModal.tsx:26 | one filled answer slot per pick, in order |
| QuizModal.DrawIsRandomQuiz | src/components/quiz/QuizModal.tsx:30 | the dialog's draw is `getRandomQuiz(questionCount, topic)` |
| QuizModal.Modal.CurrentAnswer | src/components/quiz/QuizModal.tsx:46 | an answer exactly when the current question is answered, and then that answer |
| QuizModal.Modal.constructor | src/components/quiz/QuizModal.tsx:24-27 | no questions, index 0, no answers, results hidden |
| QuizModal.Modal.InitQuiz | src/components/quiz/QuizModal.tsx:29-35 | a fresh draw from the pool at its first question, with no answers and results hidden |
| QuizModal.Modal.Open | src/components/quiz/QuizModal.tsx:37-41 | opening draws a quiz exactly when none is loaded and changes nothing otherwise; the dialog's invariants are kept |
| QuizModal.Modal.HandleAnswer | src/components/quiz/QuizModal.tsx:49-53 | the answer is written at the current question and nothing else changes; Next is then enabled |
| QuizModal.Modal.Next | src/components/quiz/QuizModal.tsx:55-61 | moves forward when not at the last question; at the last one, shows the results exactly when there is one answer slot per question and none is empty |
| QuizModal.Modal.Prev | src/components/quiz/QuizModal.tsx:63-67 | moves back one question unless at the first |
| QuizModal.Modal.Close | src/components/quiz/QuizModal.tsx:73-79 | everything back to the unopened dialog |
| QuizModal.Modal.CurrentScore | src/components/quiz/QuizModal.tsx:81 | a score exactly while the results are shown, over all the questions, counting the right positions |
| QuizModal.Opened | src/components/quiz/QuizModal.tsx:18-41 | an opened dialog holds `getRandomQuiz(questionCount, topic)` at its first question, with no answers |
| QuizModal.UnkeyedCardQuiz | src/components/quiz/QuizModal.tsx:109-115 | as written, the card keeps the first question's selection on the second question, whose Next stays disabled, so the results are never shown |
| QuizModal.UnkeyedPicks | src/components/quiz/QuizModal.tsx:109-128 | on the same card instance, every pick after the first is swallowed |
| QuizModal.KeyedStep | src/components/quiz/QuizModal.tsx:109-128 | with a fresh card, one pick appends its answer and Next moves on or, at the last question, shows the results |
| QuizModal.KeyedAnswers | src/components/quiz/QuizModal.tsx:49-61 | one pick per question, each followed by Next, ends on the results with exactly the picks as answers |
| QuizModal.KeyedCardQuiz | src/components/quiz/QuizModal.tsx:99-115 | with the card keyed by question, the results are reached with the picks as answers and their score |
| Dashboard.PercentOrZero | src/app/dashboard/page.tsx:194 | 0 for a zero whole; otherwise part/whole·100 rounded half up; at most 100 when the part does not exceed the whole, exactly 100 for part = whole, 0 for a zero part |
| Dashboard.CompletionRate | src/app/dashboard/page.tsx:43-45 | 0 before any attempt; otherwise completed/attempted·100 rounded half up, at most 100 when completions do not exceed attempts |
| Dashboard.CompletionRateCanExceedHundred | src/app/dashboard/page.tsx:43-45 | one attempted problem completed twice shows a rate of 200 |
| Dashboard.OverallPercentage | src/app/dashboard/page.tsx:328-338 | 0 for an empty bank; otherwise the integer within half of 100·completed/total (`Math.round`), at most 100 while completions do not exceed the bank and exactly 100 when they equal it |
| Dashboard.CompletedOf | src/app/dashboard/page.tsx:54-63 | the completed count of a difficulty after visiting the records in order is at most the number of records |
| Dashboard.DifficultyBreakdown | src/app/dashboard/page.tsx:48-63 | for each difficulty, the total is the number of bank problems of that difficulty and the completed count is `CompletedOf` the records |
| Dashboard.TotalsPartitionBank | src/app/dashboard/page.tsx:48-52 | the three totals add up to the size of the bank |
| Dashboard.IdsWhereSnoc | src/app/dashboard/page.tsx:55-62 | visiting one more record adds its id to the counted ids exactly when it counts |
| Dashboard.CompletedOfCountsIds | src/app/dashboard/page.tsx:55-62 | with one record per problem id, the completed count is the number of distinct counted ids |
| Dashboard.IdsOfSize | src/app/dashboard/page.tsx:49-51 | a list of problems has no more ids than entries |
| Dashboard.CompletedWithinTotal | src/app/dashboard/page.tsx:194 | with one record per problem id, no difficulty shows more completions than its total, so its bar stays within 100% |
| Dashboard.DuplicateRecordsCountTwice | src/app/dashboard/page.tsx:55-62 | two completed records for the same problem count it twice, past the total |
| Dashboard.RecentActivity | src/app/dashboard/page.tsx:66-71 | `min(dated records, 5)` records, a sub-multiset of the dated records, latest first, and records of the same day in stored order: the shown records of one day are the first dated records of that day |
| Dashboard.KeepCount | src/app/dashboard/page.tsx:68 | filtering keeps as many records as satisfy the test |
| Dashboard.RecentActivityIsMostRecent | src/app/dashboard/page.tsx:66-71 | a dated record left out of the five is no later than any shown |
| Dashboard.FewDatedAllShown | src/app/dashboard/page.tsx:66-71 | with at most five dated records, every one of them is shown |
| Dashboard.CalendarShade | src/app/dashboard/page.tsx:160-165 | muted exactly for 0, light exactly for 1, middle exactly for 2, dark for every other count, negative ones included |
| Dashboard.CalendarShadeAgreesWithCard | src/app/dashboard/page.tsx:160-165 | the dashboard shades every count from 0 as the calendar card does, and a negative count dark where the card shows it muted |
| StreakCalendar.GetIntensity | src/components/progress/StreakCalendar.tsx:13-19 | muted exactly for counts up to 0, light exactly for 1, middle exactly for 2, dark exactly from 3 |
| StreakCalendar.IntensityMonotone | src/components/progress/StreakCalendar.tsx:13-19 | more completions never give a lighter square |
| StreakCalendar.IntensityCaps | src/components/progress/StreakCalendar.tsx:13-19 | from 0 the shade level is the count, capped at 3 |
| StreakCalendar.ProblemNoun | src/components/progress/StreakCalendar.tsx:35 | the tooltip says "problem" exactly for one and "problems" otherwise |
| ThemeToggle.NextTheme | src/components/theme-toggle.tsx:10-18 | light goes to dark, dark to system, every other value to light |
| ThemeToggle.IconOf | src/components/theme-toggle.tsx:20-25 | the moon exactly for the dark theme, the sun otherwise |
| ThemeToggle.LabelOf | src/components/theme-toggle.tsx:27-31 | "System" for system, "Dark" for dark, "Light" for every other value |
| ThemeToggle.ThreeClicksCycle | src/components/theme-toggle.tsx:10-18 | three clicks bring light, dark or system back to itself; one click always reaches one of the three |
| ThemeToggle.LabelAfterClick | src/components/theme-toggle.tsx:10-31 | after a click the label and icon name the next theme in the cycle |
| ThemeToggle.Toggle.constructor | src/components/theme-toggle.tsx:8 | the button starts showing the provider's theme |
| ThemeToggle.Toggle.Click | src/components/theme-toggle.tsx:37 | a click sets the theme to `NextTheme` of the old one, always one of the three |
| ThemeToggle.ThreeClicks | src/components/theme-toggle.tsx:37 | three clicks on a button leave its theme as it was |
| BotProblems.Ids | discord-bot/src/data/problems.ts:12-169 | the ids of the bank, position by position |
| BotProblems.ProblemTableShape | discord-bot/src/data/problems.ts:12-169 | twelve problems with distinct ids and three hints each |
| BotProblems.ThreeHintsEach | discord-bot/src/data/problems.ts:12-169 | every problem of the bank has three hints |
| BotProblems.EveryDifficultyPresent | discord-bot/src/data/problems.ts:12-169 | each difficulty has a problem in the bank |
| BotProblems.SameIdSameIndex | discord-bot/src/data/problems.ts:12-169 | two bank positions with the same id are the same position |
| BotProblems.GetDailyProblem | discord-bot/src/data/problems.ts:171-175 | the bank entry at the day of the year modulo the size of the bank |
| BotProblems.DailyProblemCycle | discord-bot/src/data/problems.ts:174 | the daily problem repeats every twelve days, and twelve consecutive days show twelve different problems |
| BotProblems.OfDifficulty | discord-bot/src/data/problems.ts:178 | exactly the bank's problems of that difficulty |
| BotProblems.OfDifficultyNonEmpty | discord-bot/src/data/problems.ts:178 | no difficulty's pool is empty |
| BotProblems.GetRandomProblem | discord-bot/src/data/problems.ts:177-180 | always a problem of the bank, of the requested difficulty when one is given |
| BotProblems.GetProblemByTopic | discord-bot/src/data/problems.ts:182-185 | a bank problem listing the lower-cased topic, absent exactly when no problem lists it |
| BotHint.FindProblem | discord-bot/src/commands/hint.ts:19-26 | the first problem in bank order whose id is the lower-cased input, whose lower-cased title contains it, or whose id it contains; absent exactly when none qualifies |
| BotHint.HintStepKeepsCounters | discord-bot/src/commands/hint.ts:36-52 | a hint step on a bank problem keeps every counter within its problem's number of hints |
| BotHint.HintTracker.constructor | discord-bot/src/commands/hint.ts:5 | no counters at start |
| BotHint.HintTracker.Advance | discord-bot/src/commands/hint.ts:36-58 | past the last hint nothing changes and "all seen" is replied; otherwise the hint at the current level is shown with the number remaining and that counter alone rises by one |
| BotHint.HintTracker.Execute | discord-bot/src/commands/hint.ts:18-61 | an unknown problem gets "not found" and changes no counter; a known one takes the hint step; the counters stay within the hints |
| BotHint.HintLadder | discord-bot/src/commands/hint.ts:36-58 | a new user asking four times about a bank problem sees hints 1, 2 and 3 with 2, 1 and 0 remaining, then "all seen" |
| BotHint.FourAsks | discord-bot/src/commands/hint.ts:36-58 | four asks by a new user about a three-hint problem give the three hints in order, then "all seen" |
| BotHint.Autocomplete | discord-bot/src/commands/hint.ts:63-72 | at most 25 choices: the bank problems in order whose lower-cased title or id contains the lower-cased query, each shown by title and sent by id |
| BotHint.AutocompleteOffersEveryMatch | discord-bot/src/commands/hint.ts:65-67 | every matching problem is offered, since the bank holds fewer than 25 |
| BotQuizzes.QuestionTableShape | discord-bot/src/data/quizzes.ts:11-92 | ten questions with distinct ids, four options each and a correct answer among them |
| BotQuizzes.GetRandomQuiz | discord-bot/src/data/quizzes.ts:94-97 | `min(count, 10)` different questions of the bank for a non-negative count |
| BotQuizzes.GetQuizByTopic | discord-bot/src/data/quizzes.ts:99-102 | a question on the topic, absent exactly when the bank has none |
| BotQuiz.AskedQuestion | discord-bot/src/commands/quiz.ts:18-19 | the question asked is one of the bank |
| BotQuiz.AnswerButtons | discord-bot/src/commands/quiz.ts:84-93 | one button per option, with id `answer_i` and letter A, B, C, ... in order |
| BotQuiz.FieldNames | discord-bot/src/commands/quiz.ts:74-80 | one field per option, named A, B, C, ... in order |
| BotQuiz.ButtonsMatchFields | discord-bot/src/commands/quiz.ts:74-91 | each option's button and field carry the same letter; different options get different letters and different button ids |
| BotQuiz.UpToUnderscore | discord-bot/src/commands/quiz.ts:38 | a field of a split is a prefix of the text it is cut from |
| BotQuiz.UpToUnderscoreOfDigits | discord-bot/src/commands/quiz.ts:38 | a run of digits is its own field |
| BotQuiz.SecondFieldSkips | discord-bot/src/commands/quiz.ts:38 | text without underscores in front does not change the second field |
| BotQuiz.ParseButtonId | discord-bot/src/commands/quiz.ts:38| parsing the id of option i's button gives back i |
| BotQuiz.ButtonCorrectIff | discord-bot/src/commands/quiz.ts:38-39 | pressing option i's button is judged correct exactly when i is the correct option |
| Explain.Units | discord-bot/src/commands/explain.ts:94 | `.length` counts one code unit per character of the Basic Multilingual Plane and two above it, so between the number of characters and twice that |
| Explain.UnitsAppend | discord-bot/src/commands/explain.ts:101 | code-unit lengths add up over concatenation |
| Explain.AstralCharIsPair | discord-bot/src/commands/explain.ts:94 | a single character counts two code units exactly when it lies above U+FFFF |
| Explain.JoinedUnits | discord-bot/src/commands/explain.ts:101-102 | a chunk extended by the separator and a paragraph has the two lengths plus two |
| Explain.JoinAppend | discord-bot/src/commands/explain.ts:102 | appending paragraphs to a chunk puts one separator between the two joins |
| Explain.Split | discord-bot/src/commands/explain.ts:99 | splitting always gives at least one piece |
| Explain.SplitJoin | discord-bot/src/commands/explain.ts:99 | joining the pieces of a split with the separator gives the text back |
| Explain.ChunkingJoin | discord-bot/src/commands/explain.ts:100-108 | chunks that group the paragraphs in order join back to the joined paragraphs |
| Explain.Gather | discord-bot/src/commands/explain.ts:101-106 | a paragraph joins the running chunk when both and a separator fit in code units, otherwise the running chunk (if any) is pushed and the paragraph starts the next; the grouping of the paragraphs read is kept |
| Explain.CloseGathered | discord-bot/src/commands/explain.ts:108 | pushing the last running chunk completes the grouping of every paragraph |
| Explain.GatherParagraphs | discord-bot/src/commands/explain.ts:96-110 | no chunk is empty, each fits in `maxLength` code units or is a single paragraph, and with no empty paragraph the chunks group the paragraphs in order |
| Explain.SplitMessage | discord-bot/src/commands/explain.ts:93-111 | lengths in UTF-16 code units: a text that fits is the one chunk; otherwise no chunk is empty and each fits unless it is one oversized paragraph; with no empty paragraph the chunks join back to the text |
| Explain.ResponseText | discord-bot/src/commands/explain.ts:64 | the model's text when present and non-empty, otherwise the apology; never empty |
| Explain.FanOut | discord-bot/src/commands/explain.ts:69-84 | the first chunk is the reply and the follow-ups are the remaining chunks in order |

## Left out

- `src/data/problems.ts` is not part of this model.
  - The catalogue queries take the problem bank as a parameter, and `getProblemById` is modelled from its uses.
  - Facts that rely on distinct ids require them.
- Everything that runs on the browser or a server is out of scope. This covers:
  - localStorage and JSON (`getProgress`, `saveProgress`, `getDailyActivity`, `resetProgress`): the store is the object or a value passed in;
  - the progress API and its database;
  - the chat relay to the AI service, including the request in `/explain`: its answer is a parameter.
- The Discord client plumbing is out of scope: the bot entry point, command registration, the `/daily` and `/problem` commands, and the embeds, replies, follow-ups and 30-second button wait.
- Randomness and the shuffle are not modelled. Only their outcome is: a draw in [0, 1), or a permutation of the pool.
- The clock, time zones and ISO date strings are not modelled. Dates are day numbers.
- Progress.ActivityLog.UpdateDailyActivity: does not drop activity older than 365 days, because that cut-off reads the clock.
- Common.RoundPercent: rounds half up on exact rationals. Floating-point `Math.round` of a ratio could differ at exact halves.
- Common.Lower: lower-cases ASCII letters only, and `trim` treats only ASCII whitespace as blank, because Unicode case mapping is out of scope.
- Common.ParseInt: reads a leading run of decimal digits as a natural number. Signs, spaces and other radixes of `parseInt` are not modelled, because button ids carry only digits.
- React rendering and hooks are not modelled: markup, styles, effects, the `onClose` callbacks and the `useProgress` wrapper.
- Timers are not modelled. `setTimeout` playback in the visualizer is a `Tick` method called once per timeout.
- ArrayVisualizer.Visualizer.Tick: returns the delay of the timeout it requests, but does not promise that the next step waits for it. Each step sets the array, which rebuilds `runVisualization`, and the effect at lines 110-117 of ArrayVisualizer.tsx then clears the pending timeout and steps again at once. The model does not capture that timing; the sequence of snapshots and the final state proved by `PlayToEnd` are the same either way.
- ArrayVisualizer.Visualizer.GetGenerator: a generator's snapshots are produced in full when it is created and consumed one by one afterwards. JavaScript generators compute them lazily, with the same sequence.
- Dashboard: the chart sizes and progress-bar widths are left out, because they are only presentation.
- QuizResults.ArcLength: is exact real arithmetic, not floating point.
- `Object.values` and `Object.entries` order is a sequence parameter (the topic progress map).
- The static prose is left out: question and option texts, explanations, hint texts, descriptions and links. Only the ids, indices, topics, difficulties and counts the properties need are kept.
- These components are out of scope, because they only display: StudySidebar, StreakCard, TopicProgress and DailyChallenge.

## Findings

| source | as written | input that shows it | evidently intended | confidence | as-written member | corrected member |
|---|---|---|---|---|---|---|
| src/data/flashcards.ts:192 | the backtracking card reuses the id "fc-bt-1" of the first binary-tree card (line 87) | a deck holding both cards: marking the binary-tree card known also shows the backtracking card as known | every card has an id of its own, so marking one card changes no other | not executed | FlashcardDeck.KnownConflation | FlashcardDeck.DrawnDeckDistinctIds |
| src/components/quiz/QuizModal.tsx:109-115 | one `QuizCard` instance, without a `key`, serves every question, and its `selected` state survives the move to the next question | any quiz of two or more questions: after answering question 1 and pressing Next, question 2 shows as answered, picks on it are ignored, Next stays disabled and the results never appear | each question gets a fresh card (for example `key={currentIndex}`), so every question can be answered and the results reached | not executed | QuizModal.UnkeyedCardQuiz | QuizModal.KeyedCardQuiz |

The dashboard's completion rate divides completions by first attempts. A problem completed, set back to revisit and completed again counts twice, so the rate can pass 100%. `Dashboard.CompletionRateCanExceedHundred` and `Progress.CompletedTwiceAttemptedOnce` show this. The source does not say whether this is intended, so it is recorded here and not corrected.

=== FILE: algorithms.dfy ===
/** The step generators of the algorithm visualizer
    (src/components/visualizer/algorithms.ts). Each generator works on a copy of
    its input array and yields snapshots; here a generator is a method that takes
    the input array (which it provably leaves alone: it has no modifies clause),
    works in place on a fresh copy, and returns the yielded snapshots in order. */
module Algorithms {
  import opened Common
  import opened VisualizerTypes

  // ---------------------------------------------------------------------------
  // What a snapshot promises
  // ---------------------------------------------------------------------------

  function Last(steps: seq<AlgorithmStep>): AlgorithmStep
    requires steps != []
  {
    steps[|steps| - 1]
  }

  predicate InBounds(xs: seq<int>, n: int) {
    forall k :: 0 <= k < |xs| ==> 0 <= xs[k] < n
  }

  /** Every index a snapshot highlights lies inside its array of length n. */
  predicate IndicesIn(st: AlgorithmStep, n: int) {
    |st.values| == n
    && InBounds(st.comparing, n) && InBounds(st.swapping, n) && InBounds(st.sorted, n)
    && (st.pivot.Some? ==> 0 <= st.pivot.value < n)
    && (st.found.Some? ==> 0 <= st.found.value < n)
  }

  /** The closing "Array is sorted!" snapshot: an ascending permutation of the input
      with every index marked sorted and nothing else highlighted. */
  predicate SortedOutcome(st: AlgorithmStep, input: seq<int>) {
    Sorted(st.values) && multiset(st.values) == multiset(input)
    && st.sorted == Range(0, |input|)
    && st.comparing == [] && st.swapping == [] && st.pivot.None? && st.found.None?
    && st.description == ArraySorted
  }

  /** Positions m.. are final: each is at least every value before it (so the
      suffix is in order and holds the largest values). */
  predicate FinalFrom(s: seq<int>, m: int) {
    forall i, j :: 0 <= i < j < |s| && m <= j ==> s[i] <= s[j]
  }

  /** Positions ..m are final: each is at most every value after it (so the
      prefix is in order and holds the smallest values). */
  predicate FinalBefore(s: seq<int>, m: int) {
    forall i, j :: 0 <= i < j < |s| && i < m ==> s[i] <= s[j]
  }

  /** The indices marked sorted form a suffix whose positions are final. */
  predicate SuffixSettled(st: AlgorithmStep) {
    |st.sorted| <= |st.values|
    && st.sorted == Range(|st.values| - |st.sorted|, |st.values|)
    && FinalFrom(st.values, |st.values| - |st.sorted|)
  }

  /** The indices marked sorted form a prefix whose positions are final. */
  predicate PrefixSettled(st: AlgorithmStep) {
    |st.sorted| <= |st.values|
    && st.sorted == Range(0, |st.sorted|)
    && FinalBefore(st.values, |st.sorted|)
  }

  /** A pair `[j, j + 1]` of neighbours both before position m (or nothing). */
  predicate AdjacentBefore(pair: seq<int>, m: int) {
    pair == [] || (|pair| == 2 && 0 <= pair[0] && pair[1] == pair[0] + 1 && pair[1] < m)
  }

  /** `[...arr]`. */
  method Copy(arr: array<int>) returns (a: array<int>)
    ensures fresh(a) && a[..] == arr[..]
  {
    a := new int[arr.Length];
    forall k | 0 <= k < arr.Length {
      a[k] := arr[k];
    }
  }

  /** `[a[i], a[j]] = [a[j], a[i]]`. */
  method Swap(a: array<int>, i: int, j: int)
    requires 0 <= i < a.Length && 0 <= j < a.Length
    modifies a
    ensures a[i] == old(a[j]) && a[j] == old(a[i])
    ensures forall k :: 0 <= k < a.Length && k != i && k != j ==> a[k] == old(a[k])
    ensures multiset(a[..]) == multiset(old(a[..]))
  {
    a[i], a[j] := a[j], a[i];
  }

  // ---------------------------------------------------------------------------
  // Bubble sort
  // ---------------------------------------------------------------------------

  /** What every bubble-sort snapshot satisfies: a permutation of the input whose
      marked suffix is final, highlighting only neighbours outside that suffix. */
  predicate BubbleStep(st: AlgorithmStep, input: seq<int>) {
    IndicesIn(st, |input|) && multiset(st.values) == multiset(input)
    && SuffixSettled(st) && st.pivot.None? && st.found.None?
    && AdjacentBefore(st.comparing, |input| - |st.sorted|)
    && AdjacentBefore(st.swapping, |input| - |st.sorted|)
  }

  lemma BubbleStepIntro(st: AlgorithmStep, input: seq<int>, m: int)
    requires |st.values| == |input| && multiset(st.values) == multiset(input)
    requires 0 <= m <= |input| && st.sorted == Range(m, |input|) && FinalFrom(st.values, m)
    requires st.pivot.None? && st.found.None?
    requires AdjacentBefore(st.comparing, m) && AdjacentBefore(st.swapping, m)
    ensures BubbleStep(st, input)
  {
  }

  /** One iteration of the inner loop: compare neighbours j, j + 1 and swap them
      when out of order, so that a[j + 1] becomes the largest of a[..j + 2]. */
  method BubbleCompare(a: array<int>, j: nat, last: nat, sorted: seq<int>, ghost input: seq<int>)
    returns (steps: seq<AlgorithmStep>)
    requires j < last < a.Length == |input| && multiset(a[..]) == multiset(input)
    requires sorted == Range(last + 1, a.Length)
    requires forall p, q :: 0 <= p < q < a.Length && last < q ==> a[p] <= a[q]
    requires forall k :: 0 <= k <= j ==> a[k] <= a[j]
    modifies a
    ensures multiset(a[..]) == multiset(input)
    ensures forall p, q :: 0 <= p < q < a.Length && last < q ==> a[p] <= a[q]
    ensures forall k :: 0 <= k <= j + 1 ==> a[k] <= a[j + 1]
    ensures forall t :: 0 <= t < |steps| ==> BubbleStep(steps[t], input)
  {
    var st := AlgorithmStep(a[..], [j, j + 1], [], sorted, None, None, Comparing(a[j], a[j + 1]));
    BubbleStepIntro(st, input, last + 1);
    steps := [st];
    if a[j] > a[j + 1] {
      Swap(a, j, j + 1);
      st := AlgorithmStep(a[..], [], [j, j + 1], sorted, None, None, Swapping(a[j + 1], a[j]));
      BubbleStepIntro(st, input, last + 1);
      steps := steps + [st];
    }
  }

  /** One pass of the outer loop: compares neighbours j, j + 1 for j < last and
      swaps them when out of order, carrying the largest value of a[..last + 1]
      to position last. */
  method BubblePass(a: array<int>, last: nat, sorted: seq<int>, ghost input: seq<int>)
    returns (steps: seq<AlgorithmStep>)
    requires last < a.Length == |input| && multiset(a[..]) == multiset(input)
    requires sorted == Range(last + 1, a.Length)
    requires forall i, j :: 0 <= i < j < a.Length && last < j ==> a[i] <= a[j]
    modifies a
    ensures multiset(a[..]) == multiset(input)
    ensures forall i, j :: 0 <= i < j < a.Length && last <= j ==> a[i] <= a[j]
    ensures forall t :: 0 <= t < |steps| ==> BubbleStep(steps[t], input)
  {
    steps := [];
    var j := 0;
    while j < last
      invariant 0 <= j <= last
      invariant multiset(a[..]) == multiset(input)
      invariant forall i, k :: 0 <= i < k < a.Length && last < k ==> a[i] <= a[k]
      invariant forall k :: 0 <= k <= j ==> a[k] <= a[j]
      invariant forall t :: 0 <= t < |steps| ==> BubbleStep(steps[t], input)
    {
      var more := BubbleCompare(a, j, last, sorted, input);
      steps := steps + more;
      j := j + 1;
    }
  }

  /** `bubbleSort`: every snapshot is a permutation of the input whose marked
      suffix is already final; the last one is the sorted input. */
  method BubbleSort(arr: array<int>) returns (steps: seq<AlgorithmStep>)
    ensures steps != [] && SortedOutcome(Last(steps), arr[..])
    ensures forall t :: 0 <= t < |steps| ==> BubbleStep(steps[t], arr[..])
  {
    var a := Copy(arr);
    var n := a.Length;
    ghost var input := arr[..];
    var sorted: seq<int> := [];
    steps := [];
    var i := 0;
    while i < n - 1
      invariant 0 <= i <= if n == 0 then 0 else n - 1
      invariant multiset(a[..]) == multiset(input)
      invariant forall p, q :: 0 <= p < q < n && n - i <= q ==> a[p] <= a[q]
      invariant sorted == Range(n - i, n)
      invariant forall t :: 0 <= t < |steps| ==> BubbleStep(steps[t], input)
    {
      var pass := BubblePass(a, n - i - 1, sorted, input);
      steps := steps + pass;
      sorted := [n - 1 - i] + sorted;
      i := i + 1;
    }
    var st := AlgorithmStep(a[..], [], [], Range(0, n), None, None, ArraySorted);
    BubbleStepIntro(st, input, 0);
    steps := steps + [st];
  }

  // ---------------------------------------------------------------------------
  // Selection sort
  // ---------------------------------------------------------------------------

  /** What every selection-sort snapshot satisfies: a permutation of the input
      whose marked prefix is final; comparisons look only at unsettled positions
      and a swap brings a later value to the first unsettled position. */
  predicate SelectionStep(st: AlgorithmStep, input: seq<int>) {
    IndicesIn(st, |input|) && multiset(st.values) == multiset(input)
    && PrefixSettled(st) && st.pivot.None? && st.found.None?
    && (st.comparing == []
        || (|st.comparing| == 2 && |st.sorted| <= st.comparing[0] < st.comparing[1]))
    && (st.swapping == []
        || (|st.swapping| == 2 && st.swapping[0] == |st.sorted| < st.swapping[1]))
  }

  lemma SelectionStepIntro(st: AlgorithmStep, input: seq<int>, m: int)
    requires |st.values| == |input| && multiset(st.values) == multiset(input)
    requires 0 <= m <= |input| && st.sorted == Range(0, m) && FinalBefore(st.values, m)
    requires st.pivot.None? && st.found.None?
    requires st.comparing == []
      || (|st.comparing| == 2 && m <= st.comparing[0] < st.comparing[1] < |input|)
    requires st.swapping == []
      || (|st.swapping| == 2 && st.swapping[0] == m < st.swapping[1] < |input|)
    ensures SelectionStep(st, input)
  {
  }

  /** The inner loop of pass i: the index of the first smallest value of a[i..]. */
  method SelectionScan(a: array<int>, i: nat, sorted: seq<int>, ghost input: seq<int>)
    returns (minIdx: nat, steps: seq<AlgorithmStep>)
    requires i < a.Length == |input| && multiset(a[..]) == multiset(input)
    requires sorted == Range(0, i)
    requires forall p, q :: 0 <= p < q < a.Length && p < i ==> a[p] <= a[q]
    ensures i <= minIdx < a.Length
    ensures forall k :: i <= k < a.Length ==> a[minIdx] <= a[k]
    ensures forall k :: i <= k < minIdx ==> a[minIdx] < a[k]
    ensures forall t :: 0 <= t < |steps| ==> SelectionStep(steps[t], input)
  {
    minIdx := i;
    steps := [];
    var j := i + 1;
    while j < a.Length
      invariant i <= minIdx < j <= a.Length
      invariant forall k :: i <= k < j ==> a[minIdx] <= a[k]
      invariant forall k :: i <= k < minIdx ==> a[minIdx] < a[k]
      invariant forall t :: 0 <= t < |steps| ==> SelectionStep(steps[t], input)
    {
      var st := AlgorithmStep(a[..], [minIdx, j], [], sorted, None, None, FindingMinimum(a[minIdx], a[j]));
      SelectionStepIntro(st, input, i);
      steps := steps + [st];
      if a[j] < a[minIdx] {
        minIdx := j;
      }
      j := j + 1;
    }
  }

  /** Pass i of the outer loop: find the smallest unsettled value and swap it
      into position i, which is then final. */
  method SelectionPass(a: array<int>, i: nat, sorted: seq<int>, ghost input: seq<int>)
    returns (steps: seq<AlgorithmStep>)
    requires i < a.Length == |input| && multiset(a[..]) == multiset(input)
    requires sorted == Range(0, i)
    requires forall p, q :: 0 <= p < q < a.Length && p < i ==> a[p] <= a[q]
    modifies a
    ensures multiset(a[..]) == multiset(input)
    ensures forall p, q :: 0 <= p < q < a.Length && p <= i ==> a[p] <= a[q]
    ensures forall t :: 0 <= t < |steps| ==> SelectionStep(steps[t], input)
  {
    var minIdx;
    minIdx, steps := SelectionScan(a, i, sorted, input);
    if minIdx != i {
      Swap(a, i, minIdx);
      var st := AlgorithmStep(a[..], [], [i, minIdx], sorted, None, None, SwappingToPosition(a[minIdx], i));
      SelectionStepIntro(st, input, i);
      steps := steps + [st];
    }
  }

  /** `selectionSort`: every snapshot is a permutation of the input whose marked
      prefix is already final; the last one is the sorted input. */
  method SelectionSort(arr: array<int>) returns (steps: seq<AlgorithmStep>)
    ensures steps != [] && SortedOutcome(Last(steps), arr[..])
    ensures forall t :: 0 <= t < |steps| ==> SelectionStep(steps[t], arr[..])
  {
    var a := Copy(arr);
    var n := a.Length;
    ghost var input := arr[..];
    var sorted: seq<int> := [];
    steps := [];
    var i := 0;
    while i < n - 1
      invariant 0 <= i <= if n == 0 then 0 else n - 1
      invariant multiset(a[..]) == multiset(input)
      invariant forall p, q :: 0 <= p < q < n && p < i ==> a[p] <= a[q]
      invariant sorted == Range(0, i)
      invariant forall t :: 0 <= t < |steps| ==> SelectionStep(steps[t], input)
    {
      var pass := SelectionPass(a, i, sorted, input);
      steps := steps + pass;
      sorted := sorted + [i];
      i := i + 1;
    }
    var st := AlgorithmStep(a[..], [], [], Range(0, n), None, None, ArraySorted);
    SelectionStepIntro(st, input, n);
    steps := steps + [st];
  }

  // ---------------------------------------------------------------------------
  // Insertion sort
  // ---------------------------------------------------------------------------

  /** The first m values are in ascending order. */
  predicate SortedBelow(s: seq<int>, m: int) {
    forall p, q :: 0 <= p < q < |s| && q < m ==> s[p] <= s[q]
  }

  /** What every insertion-sort snapshot satisfies: the marked indices are a
      prefix that is in ascending order (though not yet final), and the highlighted
      indices are the one being inserted or a pair of neighbours within reach. The
      snapshots taken while shifting show a value twice and the key nowhere, so
      they are not permutations of the input. */
  predicate InsertionStep(st: AlgorithmStep, n: int) {
    IndicesIn(st, n) && st.pivot.None? && st.found.None?
    && |st.sorted| <= n && st.sorted == Range(0, |st.sorted|)
    && SortedBelow(st.values, |st.sorted|)
    && (st.comparing == [] || st.comparing == [|st.sorted|]
        || AdjacentBefore(st.comparing, |st.sorted| + 1))
    && AdjacentBefore(st.swapping, |st.sorted| + 1)
  }

  lemma InsertionStepIntro(st: AlgorithmStep, n: int, m: int)
    requires |st.values| == n && 0 <= m <= n && st.sorted == Range(0, m)
    requires SortedBelow(st.values, m)
    requires st.pivot.None? && st.found.None?
    requires st.comparing == [] || (m < n && st.comparing == [m])
      || (m < n && AdjacentBefore(st.comparing, m + 1))
    requires st.swapping == [] || (m < n && AdjacentBefore(st.swapping, m + 1))
    ensures InsertionStep(st, n)
  {
  }

  lemma InsertionStepsAppend(xs: seq<AlgorithmStep>, ys: seq<AlgorithmStep>, n: int)
    requires forall t :: 0 <= t < |xs| ==> InsertionStep(xs[t], n)
    requires forall t :: 0 <= t < |ys| ==> InsertionStep(ys[t], n)
    ensures forall t :: 0 <= t < |xs + ys| ==> InsertionStep((xs + ys)[t], n)
  {
  }

  /** Moving the hole from j + 1 to j keeps the multiset of the array with the
      key put back into the hole. */
  lemma HoleMoves(before: seq<int>, after: seq<int>, j: nat, key: int)
    requires j + 1 < |before| && after == before[j + 1 := before[j]]
    ensures multiset(after[j := key]) == multiset(before[j + 1 := key])
  {
    assert after[j := key] == before[j + 1 := key][j := key][j + 1 := before[j]];
  }

  /** Copying a[j] over the hole at j + 1 keeps the first i + 1 values ascending. */
  lemma ShiftKeepsOrder(before: seq<int>, after: seq<int>, i: nat, j: nat)
    requires j < i < |before| && after == before[j + 1 := before[j]]
    requires SortedBelow(before, i) && (j + 1 < i ==> SortedBelow(before, i + 1))
    requires j + 1 < i ==> before[j + 1] == before[j + 2]
    ensures SortedBelow(after, i + 1)
  {
  }

  /** The state of the inner loop of iteration i on the array's contents s, with
      the hole at j + 1: putting the key back into the hole gives a permutation
      of the input, the first i values (and, once a value has moved, the first
      i + 1) are ascending, everything right of the hole up to i is larger than
      the key, and nothing after i has moved from orig. */
  ghost predicate Shifting(s: seq<int>, orig: seq<int>, i: nat, j: int, key: int, input: seq<int>) {
    -1 <= j < i < |s| == |orig| == |input|
    && multiset(s[j + 1 := key]) == multiset(input)
    && SortedBelow(s, i) && (j + 1 < i ==> SortedBelow(s, i + 1))
    && (j + 1 < i ==> s[j + 1] == s[j + 2])
    && (forall k :: j + 1 < k <= i ==> s[k] > key)
    && (forall k :: i < k < |s| ==> s[k] == orig[k])
  }

  /** Before any shift the hole is at i, where the key is. */
  lemma ShiftingStart(s: seq<int>, i: nat, key: int, input: seq<int>)
    requires 0 < i < |s| == |input| && s[i] == key
    requires multiset(s) == multiset(input) && SortedBelow(s, i)
    ensures Shifting(s, s, i, i - 1, key, input)
  {
    assert s[i := key] == s;
  }

  /** One shift moves the hole from j + 1 to j and keeps the loop state. */
  lemma ShiftFacts(before: seq<int>, after: seq<int>, orig: seq<int>, i: nat, j: nat, key: int, input: seq<int>)
    requires Shifting(before, orig, i, j, key, input) && before[j] > key
    requires after == before[j + 1 := before[j]]
    ensures Shifting(after, orig, i, j - 1, key, input)
  {
    HoleMoves(before, after, j, key);
    ShiftKeepsOrder(before, after, i, j);
  }

  /** One iteration of the inner loop: a[j] > key moves one place right, leaving
      the hole at j. */
  method InsertionShift(a: array<int>, i: nat, j: nat, key: int, sorted: seq<int>,
                        ghost orig: seq<int>, ghost input: seq<int>)
    returns (steps: seq<AlgorithmStep>)
    requires sorted == Range(0, i) && Shifting(a[..], orig, i, j, key, input) && a[j] > key
    modifies a
    ensures Shifting(a[..], orig, i, j - 1, key, input)
    ensures forall t :: 0 <= t < |steps| ==> InsertionStep(steps[t], |input|)
  {
    var st := AlgorithmStep(a[..], [j, j + 1], [], sorted, None, None, ComparingGreater(a[j], key));
    InsertionStepIntro(st, |input|, i);
    steps := [st];
    ghost var before := a[..];
    a[j + 1] := a[j];
    ShiftFacts(before, a[..], orig, i, j, key, input);
    st := AlgorithmStep(a[..], [], [j, j + 1], sorted, None, None, ShiftingRight(a[j]));
    InsertionStepIntro(st, |input|, i);
    steps := steps + [st];
  }

  /** The inner loop of iteration i: values of a[..i] larger than key move one
      place right, leaving a hole at j + 1 where key belongs. */
  method InsertionShifts(a: array<int>, i: nat, key: int, sorted: seq<int>, ghost input: seq<int>)
    returns (j: int, steps: seq<AlgorithmStep>)
    requires 0 < i < a.Length == |input| && sorted == Range(0, i) && a[i] == key
    requires multiset(a[..]) == multiset(input) && SortedBelow(a[..], i)
    modifies a
    ensures Shifting(a[..], old(a[..]), i, j, key, input) && (j >= 0 ==> a[j] <= key)
    ensures forall t :: 0 <= t < |steps| ==> InsertionStep(steps[t], |input|)
  {
    ghost var orig := a[..];
    j := i - 1;
    steps := [];
    ShiftingStart(orig, i, key, input);
    while j >= 0 && a[j] > key
      invariant Shifting(a[..], orig, i, j, key, input)
      invariant forall t :: 0 <= t < |steps| ==> InsertionStep(steps[t], |input|)
      decreases j
    {
      var more := InsertionShift(a, i, j, key, sorted, orig, input);
      InsertionStepsAppend(steps, more, |input|);
      steps := steps + more;
      j := j - 1;
    }
  }

  /** Iteration i of the outer loop: a[i] is inserted into the sorted a[..i];
      the first i + 1 values end up ascending and a permutation of what they
      were, and nothing after them moves. */
  method InsertionPass(a: array<int>, i: nat, sorted: seq<int>, ghost input: seq<int>)
    returns (steps: seq<AlgorithmStep>)
    requires 0 < i < a.Length == |input| && sorted == Range(0, i)
    requires multiset(a[..]) == multiset(input) && SortedBelow(a[..], i)
    modifies a
    ensures multiset(a[..]) == multiset(input) && SortedBelow(a[..], i + 1)
    ensures forall k :: i < k < a.Length ==> a[k] == old(a[k])
    ensures multiset(a[..i + 1]) == multiset(old(a[..i + 1]))
    ensures forall t :: 0 <= t < |steps| ==> InsertionStep(steps[t], |input|)
  {
    ghost var orig := a[..];
    var key := a[i];
    var st := AlgorithmStep(a[..], [i], [], sorted, None, None, Inserting(key));
    InsertionStepIntro(st, |input|, i);
    var j, more := InsertionShifts(a, i, key, sorted, input);
    InsertionStepsAppend([st], more, |input|);
    steps := [st] + more;
    PlaceKey(a, i, j, key, orig, input);
  }

  /** The end of iteration i: the key goes into the hole at j + 1. */
  method PlaceKey(a: array<int>, i: nat, j: int, key: int, ghost orig: seq<int>, ghost input: seq<int>)
    requires Shifting(a[..], orig, i, j, key, input) && (j >= 0 ==> a[j] <= key)
    requires multiset(orig) == multiset(input)
    modifies a
    ensures multiset(a[..]) == multiset(input) && SortedBelow(a[..], i + 1)
    ensures forall k :: i < k < a.Length ==> a[k] == orig[k]
    ensures multiset(a[..i + 1]) == multiset(orig[..i + 1])
  {
    ghost var holed := a[..];
    a[j + 1] := key;
    PassFacts(orig, holed, a[..], i, j, key, input);
  }

  /** The facts the end of iteration i needs, on the array's contents before the
      iteration, with the hole open, and with the key written. */
  lemma PassFacts(orig: seq<int>, holed: seq<int>, placed: seq<int>, i: nat, j: int, key: int, input: seq<int>)
    requires Shifting(holed, orig, i, j, key, input) && (j >= 0 ==> holed[j] <= key)
    requires multiset(orig) == multiset(input) && placed == holed[j + 1 := key]
    ensures multiset(placed) == multiset(input) && SortedBelow(placed, i + 1)
    ensures forall k :: i < k < |orig| ==> placed[k] == orig[k]
    ensures multiset(placed[..i + 1]) == multiset(orig[..i + 1])
  {
    KeyPlaced(holed, placed, i, j, key);
    PrefixMultiset(placed, orig, i + 1);
  }

  /** Writing the key into the hole at j + 1 leaves the first i + 1 values ascending. */
  lemma KeyPlaced(holed: seq<int>, placed: seq<int>, i: nat, j: int, key: int)
    requires -1 <= j < i < |holed| && placed == holed[j + 1 := key]
    requires SortedBelow(holed, i) && (j + 1 < i ==> SortedBelow(holed, i + 1))
    requires forall k :: j + 1 < k <= i ==> holed[k] > key
    requires j >= 0 ==> holed[j] <= key
    ensures SortedBelow(placed, i + 1)
  {
  }

  /** Two sequences with the same multiset and the same suffix from m on have
      the same multiset before m. */
  lemma PrefixMultiset(s: seq<int>, t: seq<int>, m: nat)
    requires m <= |s| == |t| && multiset(s) == multiset(t)
    requires forall k :: m <= k < |s| ==> s[k] == t[k]
    ensures multiset(s[..m]) == multiset(t[..m])
  {
    assert s[m..] == t[m..];
    assert s == s[..m] + s[m..];
    assert t == t[..m] + t[m..];
    assert multiset(s) == multiset(s[..m]) + multiset(s[m..]);
    assert multiset(t) == multiset(t[..m]) + multiset(t[m..]);
    assert multiset(s[..m]) == multiset(s) - multiset(s[m..]);
    assert multiset(t[..m]) == multiset(t) - multiset(t[m..]);
  }

  /** `insertionSort`: every snapshot keeps its marked prefix in order; the last
      one is the sorted input. */
  method InsertionSort(arr: array<int>) returns (steps: seq<AlgorithmStep>)
    ensures steps != [] && SortedOutcome(Last(steps), arr[..])
    ensures forall t :: 0 <= t < |steps| ==> InsertionStep(steps[t], arr.Length)
  {
    var a := Copy(arr);
    var n := a.Length;
    ghost var input := arr[..];
    var sorted: seq<int> := [0];
    steps := [];
    var i := 1;
    while i < n
      invariant 1 <= i && (n > 0 ==> i <= n)
      invariant multiset(a[..]) == multiset(input) && SortedBelow(a[..], i)
      invariant sorted == Range(0, i)
      invariant forall t :: 0 <= t < |steps| ==> InsertionStep(steps[t], n)
    {
      var pass := InsertionPass(a, i, sorted, input);
      InsertionStepsAppend(steps, pass, n);
      steps := steps + pass;
      sorted := sorted + [i];
      i := i + 1;
    }
    var st := AlgorithmStep(a[..], [], [], Range(0, n), None, None, ArraySorted);
    InsertionStepIntro(st, n, n);
    steps := steps + [st];
  }

  // ---------------------------------------------------------------------------
  // Quick sort
  // ---------------------------------------------------------------------------

  /** What every quick-sort snapshot satisfies: a permutation of the input with
      its highlighted indices in range; a comparison is always of an earlier
      index against the pivot index, and a swap names its lower index first. */
  predicate QuickStep(st: AlgorithmStep, input: seq<int>) {
    IndicesIn(st, |input|) && multiset(st.values) == multiset(input) && st.found.None?
    && (st.comparing == []
        || (|st.comparing| == 2 && st.comparing[0] < st.comparing[1]
            && st.pivot == Some(st.comparing[1])))
    && (st.swapping == [] || (|st.swapping| == 2 && st.swapping[0] <= st.swapping[1]))
  }

  /** Every value of a[low..high] lies between lo and hi. */
  ghost predicate Between(a: array<int>, low: int, high: int, lo: int, hi: int)
    reads a
  {
    forall k :: low <= k <= high && 0 <= k < a.Length ==> lo <= a[k] <= hi
  }

  /** Positions outside [low, high] hold what they held in `before`. */
  ghost predicate SameOutside(a: array<int>, before: seq<int>, low: int, high: int)
    reads a
  {
    |before| == a.Length
    && forall k :: 0 <= k < a.Length && (k < low || high < k) ==> a[k] == before[k]
  }

  /** One iteration of the partition loop: a[j] is compared with the pivot
      a[high] and, when smaller, swapped to the end of the smaller-than-pivot
      block, which then ends at the returned index. */
  method PartitionCompare(a: array<int>, low: nat, high: nat, i: int, j: nat, sorted: seq<int>,
                          ghost input: seq<int>, ghost lo: int, ghost hi: int)
    returns (i': int, steps: seq<AlgorithmStep>)
    requires low - 1 <= i < j < high < a.Length == |input| && low <= j
    requires multiset(a[..]) == multiset(input) && InBounds(sorted, a.Length)
    requires Between(a, low, high, lo, hi)
    requires forall k :: low <= k <= i ==> a[k] < a[high]
    requires forall k :: i < k < j ==> a[k] >= a[high]
    modifies a
    ensures i' == i || i' == i + 1
    ensures multiset(a[..]) == multiset(input) && SameOutside(a, old(a[..]), low, high - 1)
    ensures Between(a, low, high, lo, hi) && a[high] == old(a[high])
    ensures forall k :: low <= k <= i' ==> a[k] < a[high]
    ensures forall k :: i' < k <= j ==> a[k] >= a[high]
    ensures forall t :: 0 <= t < |steps| ==> QuickStep(steps[t], input)
  {
    var pivot := a[high];
    var st := AlgorithmStep(a[..], [j, high], [], sorted, Some(high), None, ComparingWithPivot(a[j], pivot));
    assert QuickStep(st, input);
    steps := [st];
    i' := i;
    if a[j] < pivot {
      i' := i + 1;
      Swap(a, i', j);
      st := AlgorithmStep(a[..], [], [i', j], sorted, Some(high), None, Swapping(a[j], a[i']));
      assert QuickStep(st, input);
      steps := steps + [st];
    }
  }

  /** `partition` (Lomuto): the pivot a[high] ends at the returned index p, with
      every value before it in the range smaller and every value after it at least
      as large; nothing outside [low, high] moves. */
  method Partition(a: array<int>, low: nat, high: nat, sorted: seq<int>,
                   ghost input: seq<int>, ghost lo: int, ghost hi: int)
    returns (p: nat, steps: seq<AlgorithmStep>)
    requires low < high < a.Length == |input|
    requires multiset(a[..]) == multiset(input) && InBounds(sorted, a.Length)
    requires Between(a, low, high, lo, hi)
    modifies a
    ensures low <= p <= high && a[p] == old(a[high])
    ensures forall k :: low <= k < p ==> a[k] < a[p]
    ensures forall k :: p < k <= high ==> a[p] <= a[k]
    ensures multiset(a[..]) == multiset(input) && SameOutside(a, old(a[..]), low, high)
    ensures Between(a, low, high, lo, hi)
    ensures forall t :: 0 <= t < |steps| ==> QuickStep(steps[t], input)
  {
    var pivot := a[high];
    var i := low - 1;
    var st := AlgorithmStep(a[..], [], [], sorted, Some(high), None, PivotSelected(pivot));
    assert QuickStep(st, input);
    steps := [st];
    var j := low;
    while j < high
      invariant low - 1 <= i < j <= high && a[high] == pivot
      invariant multiset(a[..]) == multiset(input) && SameOutside(a, old(a[..]), low, high - 1)
      invariant Between(a, low, high, lo, hi)
      invariant forall k :: low <= k <= i ==> a[k] < pivot
      invariant forall k :: i < k < j ==> a[k] >= pivot
      invariant forall t :: 0 <= t < |steps| ==> QuickStep(steps[t], input)
    {
      var more;
      i, more := PartitionCompare(a, low, high, i, j, sorted, input, lo, hi);
      steps := steps + more;
      j := j + 1;
    }
    PlacePivot(a, low, high, i, pivot, input, lo, hi, old(a[..]));
    st := AlgorithmStep(a[..], [], [i + 1, high], sorted, None, None, PlacingPivot(pivot));
    assert QuickStep(st, input);
    steps := steps + [st];
    p := i + 1;
  }

  /** The end of `partition`: the pivot at a[high] is swapped to just after the
      block of smaller values. */
  method PlacePivot(a: array<int>, low: nat, high: nat, i: int, pivot: int,
                    ghost input: seq<int>, ghost lo: int, ghost hi: int, ghost before: seq<int>)
    requires low - 1 <= i < high < a.Length && a[high] == pivot
    requires multiset(a[..]) == multiset(input) && SameOutside(a, before, low, high - 1)
    requires Between(a, low, high, lo, hi)
    requires forall k :: low <= k <= i ==> a[k] < pivot
    requires forall k :: i < k < high ==> a[k] >= pivot
    modifies a
    ensures a[i + 1] == pivot
    ensures forall k :: low <= k < i + 1 ==> a[k] < pivot
    ensures forall k :: i + 1 < k <= high ==> pivot <= a[k]
    ensures multiset(a[..]) == multiset(input) && SameOutside(a, before, low, high)
    ensures Between(a, low, high, lo, hi)
  {
    Swap(a, i + 1, high);
  }

  /** `quickSortHelper`: sorts a[low..high] in place, leaving the rest alone and
      every value within the bounds it started in; each pivot position and each
      single-element range is appended to the sorted marks. */
  method QuickSortHelper(a: array<int>, low: nat, high: int, sorted: seq<int>,
                         ghost input: seq<int>, ghost lo: int, ghost hi: int)
    returns (sorted': seq<int>, steps: seq<AlgorithmStep>)
    requires low <= high + 1 <= a.Length == |input|
    requires multiset(a[..]) == multiset(input) && InBounds(sorted, a.Length)
    requires Between(a, low, high, lo, hi)
    modifies a
    ensures forall p, q :: low <= p < q <= high ==> a[p] <= a[q]
    ensures multiset(a[..]) == multiset(input) && SameOutside(a, old(a[..]), low, high)
    ensures Between(a, low, high, lo, hi) && InBounds(sorted', a.Length)
    ensures forall t :: 0 <= t < |steps| ==> QuickStep(steps[t], input)
    decreases high - low
  {
    sorted' := sorted;
    steps := [];
    if low < high {
      var pi, left, right;
      pi, steps := Partition(a, low, high, sorted, input, lo, hi);
      sorted' := sorted' + [pi];
      ghost var pivot := a[pi];
      sorted', left := QuickSortHelper(a, low, pi as int - 1, sorted', input, lo, pivot);
      sorted', right := QuickSortHelper(a, pi + 1, high, sorted', input, pivot, hi);
      steps := steps + left + right;
    } else if low == high {
      sorted' := sorted' + [low];
    }
  }

  /** Smallest and largest values of a non-empty sequence, as bounds for the
      outermost range. */
  ghost function Lowest(s: seq<int>): (r: int)
    requires s != []
    ensures forall k :: 0 <= k < |s| ==> r <= s[k]
  {
    if |s| == 1 then s[0] else var m := Lowest(s[1..]); if s[0] < m then s[0] else m
  }

  ghost function Highest(s: seq<int>): (r: int)
    requires s != []
    ensures forall k :: 0 <= k < |s| ==> s[k] <= r
  {
    if |s| == 1 then s[0] else var m := Highest(s[1..]); if s[0] > m then s[0] else m
  }

  /** `quickSort(arr)` with its default range: every snapshot is a permutation of
      the input; the last one is the sorted input. */
  method QuickSort(arr: array<int>) returns (steps: seq<AlgorithmStep>)
    ensures steps != [] && SortedOutcome(Last(steps), arr[..])
    ensures forall t :: 0 <= t < |steps| ==> QuickStep(steps[t], arr[..])
  {
    var a := Copy(arr);
    ghost var input := arr[..];
    var sorted: seq<int> := [];
    if a.Length > 0 {
      sorted, steps := QuickSortHelper(a, 0, a.Length - 1, sorted, input, Lowest(a[..]), Highest(a[..]));
    } else {
      steps := [];
    }
    var st := AlgorithmStep(a[..], [], [], Range(0, a.Length), None, None, ArraySorted);
    assert QuickStep(st, input);
    steps := steps + [st];
  }

  // ---------------------------------------------------------------------------
  // Merge sort
  // ---------------------------------------------------------------------------

  /** The run `merge` writes back: repeatedly the smaller head of the two runs,
      the left run's head on ties. */
  function MergeRuns(xs: seq<int>, ys: seq<int>): (r: seq<int>)
    ensures |r| == |xs| + |ys|
  {
    if xs == [] then ys
    else if ys == [] then xs
    else if xs[0] <= ys[0] then [xs[0]] + MergeRuns(xs[1..], ys)
    else [ys[0]] + MergeRuns(xs, ys[1..])
  }

  /** The merge is a permutation of the two runs together. */
  lemma {:induction false} MergeRunsPermutes(xs: seq<int>, ys: seq<int>)
    ensures multiset(MergeRuns(xs, ys)) == multiset(xs) + multiset(ys)
    decreases |xs| + |ys|
  {
    if xs != [] && ys != [] {
      if xs[0] <= ys[0] {
        var rest := MergeRuns(xs[1..], ys);
        assert MergeRuns(xs, ys) == [xs[0]] + rest;
        MergeRunsPermutes(xs[1..], ys);
        assert xs == [xs[0]] + xs[1..];
        ConsMultiset(xs[0], rest, xs[1..], ys);
      } else {
        var rest := MergeRuns(xs, ys[1..]);
        assert MergeRuns(xs, ys) == [ys[0]] + rest;
        MergeRunsPermutes(xs, ys[1..]);
        assert ys == [ys[0]] + ys[1..];
        ConsMultiset(ys[0], rest, ys[1..], xs);
      }
    }
  }

  /** Putting one value in front of a merge and of one of its runs keeps the two
      multisets equal. */
  lemma ConsMultiset(x: int, rest: seq<int>, run: seq<int>, other: seq<int>)
    requires multiset(rest) == multiset(run) + multiset(other)
    ensures multiset([x] + rest) == multiset([x] + run) + multiset(other)
  {
  }

  /** A value at most every value of an ascending run can go in front of it. */
  lemma ConsSorted(x: int, rest: seq<int>)
    requires Sorted(rest) && forall k :: 0 <= k < |rest| ==> x <= rest[k]
    ensures Sorted([x] + rest)
  {
  }

  /** Every value of a sequence is at least b when every value of some sequence
      with the same multiset is. */
  lemma LowerBoundByMultiset(s: seq<int>, t: seq<int>, b: int)
    requires multiset(s) == multiset(t) && forall k :: 0 <= k < |t| ==> b <= t[k]
    ensures forall k :: 0 <= k < |s| ==> b <= s[k]
  {
    forall k | 0 <= k < |s| ensures b <= s[k] {
      assert s[k] in multiset(t);
    }
  }

  /** Merging two ascending runs gives an ascending run. */
  lemma {:induction false} MergeRunsSorted(xs: seq<int>, ys: seq<int>)
    requires Sorted(xs) && Sorted(ys)
    ensures Sorted(MergeRuns(xs, ys))
    decreases |xs| + |ys|
  {
    if xs != [] && ys != [] {
      if xs[0] <= ys[0] {
        var rest := MergeRuns(xs[1..], ys);
        MergeRunsSorted(xs[1..], ys);
        MergeRunsPermutes(xs[1..], ys);
        LowerBoundByMultiset(rest, xs[1..] + ys, xs[0]);
        ConsSorted(xs[0], rest);
      } else {
        var rest := MergeRuns(xs, ys[1..]);
        MergeRunsSorted(xs, ys[1..]);
        MergeRunsPermutes(xs, ys[1..]);
        LowerBoundByMultiset(rest, xs + ys[1..], ys[0]);
        ConsSorted(ys[0], rest);
      }
    }
  }

  /** What every merge-sort snapshot satisfies: highlighted indices in range, no
      index ever marked sorted before the end, nothing swapped. Snapshots taken
      in the middle of a merge show some values twice, so they are not
      permutations of the input. */
  predicate MergeStep(st: AlgorithmStep, n: int) {
    IndicesIn(st, n) && st.sorted == [] && st.swapping == []
    && st.pivot.None? && st.found.None?
  }

  /** Replacing a slice by one with the same multiset keeps the multiset of the whole. */
  lemma SpliceMultiset(before: seq<int>, after: seq<int>, lo: int, hi: int)
    requires |before| == |after| && 0 <= lo <= hi <= |before|
    requires forall p :: 0 <= p < |after| && (p < lo || hi <= p) ==> after[p] == before[p]
    requires multiset(after[lo..hi]) == multiset(before[lo..hi])
    ensures multiset(after) == multiset(before)
  {
    assert after[..lo] == before[..lo];
    assert after[hi..] == before[hi..];
    assert before == before[..lo] + before[lo..hi] + before[hi..];
    assert after == after[..lo] + after[lo..hi] + after[hi..];
  }

  /** Taking the left head: position i + j of the merge is xs[i]. */
  lemma MergeTakesLeft(xs: seq<int>, ys: seq<int>, i: nat, j: nat, m: seq<int>)
    requires i < |xs| && j < |ys| && xs[i] <= ys[j]
    requires i + j <= |m| && MergeRuns(xs[i..], ys[j..]) == m[i + j..]
    ensures i + j < |m| && m[i + j] == xs[i] && MergeRuns(xs[i + 1..], ys[j..]) == m[i + j + 1..]
  {
    assert xs[i..][1..] == xs[i + 1..];
    assert m[i + j..][1..] == m[i + j + 1..];
  }

  /** Taking the right head: position i + j of the merge is ys[j]. */
  lemma MergeTakesRight(xs: seq<int>, ys: seq<int>, i: nat, j: nat, m: seq<int>)
    requires i < |xs| && j < |ys| && xs[i] > ys[j]
    requires i + j <= |m| && MergeRuns(xs[i..], ys[j..]) == m[i + j..]
    ensures i + j < |m| && m[i + j] == ys[j] && MergeRuns(xs[i..], ys[j + 1..]) == m[i + j + 1..]
  {
    assert ys[j..][1..] == ys[j + 1..];
    assert m[i + j..][1..] == m[i + j + 1..];
  }

  /** The tail loops of `merge`: the rest of one run, which is what remains of
      the merge m, is copied to a[k..]. */
  method CopyRun(a: array<int>, k: nat, run: seq<int>, ghost lo: nat, ghost m: seq<int>)
    requires lo <= k && k + |run| <= a.Length && k - lo + |run| == |m| && run == m[k - lo..]
    requires forall p :: lo <= p < k ==> a[p] == m[p - lo]
    modifies a
    ensures forall p :: lo <= p < k + |run| ==> a[p] == m[p - lo]
    ensures SameOutside(a, old(a[..]), k, k + |run| - 1)
  {
    var i := 0;
    while i < |run|
      invariant 0 <= i <= |run|
      invariant forall p :: lo <= p < k + i ==> a[p] == m[p - lo]
      invariant SameOutside(a, old(a[..]), k, k + |run| - 1)
    {
      a[k + i] := run[i];
      i := i + 1;
    }
  }

  /** The main loop of `merge`: while both runs have values left, the smaller
      head (the left one on ties) is written to a[k]. */
  method MergeHeads(a: array<int>, left: nat, mid: nat, right: nat, leftArr: seq<int>, rightArr: seq<int>)
    returns (i: nat, j: nat, steps: seq<AlgorithmStep>)
    requires left <= mid < right < a.Length
    requires |leftArr| == mid + 1 - left && |rightArr| == right - mid
    modifies a
    ensures i <= |leftArr| && j <= |rightArr| && (i == |leftArr| || j == |rightArr|)
    ensures MergeRuns(leftArr[i..], rightArr[j..]) == MergeRuns(leftArr, rightArr)[i + j..]
    ensures forall p :: left <= p < left + i + j ==> a[p] == MergeRuns(leftArr, rightArr)[p - left]
    ensures SameOutside(a, old(a[..]), left, right)
    ensures forall t :: 0 <= t < |steps| ==> MergeStep(steps[t], a.Length)
  {
    ghost var m := MergeRuns(leftArr, rightArr);
    steps := [];
    i, j := 0, 0;
    var k := left;
    while i < |leftArr| && j < |rightArr|
      invariant i <= |leftArr| && j <= |rightArr| && k == left + i + j
      invariant MergeRuns(leftArr[i..], rightArr[j..]) == m[i + j..]
      invariant forall p :: left <= p < k ==> a[p] == m[p - left]
      invariant SameOutside(a, old(a[..]), left, right)
      invariant forall t :: 0 <= t < |steps| ==> MergeStep(steps[t], a.Length)
    {
      var st := AlgorithmStep(a[..], [left + i, mid + 1 + j], [], [], None, None, Comparing(leftArr[i], rightArr[j]));
      assert MergeStep(st, a.Length);
      steps := steps + [st];
      i, j := TakeHead(a, left, right, leftArr, rightArr, i, j, m, old(a[..]));
      k := k + 1;
    }
  }

  /** One iteration of the main loop of `merge`: the smaller head, the left one
      on ties, is written to a[left + i + j] and its run advances. */
  method TakeHead(a: array<int>, left: nat, right: nat, leftArr: seq<int>, rightArr: seq<int>,
                  i: nat, j: nat, ghost m: seq<int>, ghost before: seq<int>)
    returns (i': nat, j': nat)
    requires i < |leftArr| && j < |rightArr| && left + i + j <= right < a.Length
    requires i + j <= |m| && MergeRuns(leftArr[i..], rightArr[j..]) == m[i + j..]
    requires forall p :: left <= p < left + i + j ==> a[p] == m[p - left]
    requires SameOutside(a, before, left, right)
    modifies a
    ensures (i' == i + 1 && j' == j) || (i' == i && j' == j + 1)
    ensures i' + j' <= |m| && MergeRuns(leftArr[i'..], rightArr[j'..]) == m[i' + j'..]
    ensures forall p :: left <= p < left + i' + j' ==> a[p] == m[p - left]
    ensures SameOutside(a, before, left, right)
  {
    if leftArr[i] <= rightArr[j] {
      MergeTakesLeft(leftArr, rightArr, i, j, m);
      a[left + i + j] := leftArr[i];
      i', j' := i + 1, j;
    } else {
      MergeTakesRight(leftArr, rightArr, i, j, m);
      a[left + i + j] := rightArr[j];
      i', j' := i, j + 1;
    }
  }

  /** `merge`: a[left..right] becomes the merge of the runs a[left..mid] and
      a[mid + 1..right] it held before; nothing else moves. */
  method Merge(a: array<int>, left: nat, mid: nat, right: nat) returns (steps: seq<AlgorithmStep>)
    requires left <= mid < right < a.Length
    modifies a
    ensures forall p :: left <= p <= right ==>
      a[p] == MergeRuns(old(a[left..mid + 1]), old(a[mid + 1..right + 1]))[p - left]
    ensures SameOutside(a, old(a[..]), left, right)
    ensures forall t :: 0 <= t < |steps| ==> MergeStep(steps[t], a.Length)
  {
    var leftArr := a[left..mid + 1];
    var rightArr := a[mid + 1..right + 1];
    var st := AlgorithmStep(a[..], Range(left, right + 1), [], [], None, None, MergingSubarrays(leftArr, rightArr));
    assert MergeStep(st, a.Length);
    var i, j, more := MergeHeads(a, left, mid, right, leftArr, rightArr);
    steps := [st] + more;
    ghost var m := MergeRuns(leftArr, rightArr);
    if i < |leftArr| {
      CopyRun(a, left + i + j, leftArr[i..], left, m);
    } else {
      CopyRun(a, left + i + j, rightArr[j..], left, m);
    }
    st := AlgorithmStep(a[..], [], [], [], None, None, Merged(a[left..right + 1]));
    assert MergeStep(st, a.Length);
    steps := steps + [st];
  }

  /** After merging two ascending runs in place the range is ascending and the
      whole array keeps its multiset. */
  lemma MergedRange(before: seq<int>, after: seq<int>, left: nat, mid: nat, right: nat)
    requires left <= mid < right < |before| == |after|
    requires Sorted(before[left..mid + 1]) && Sorted(before[mid + 1..right + 1])
    requires forall p :: left <= p <= right ==>
      after[p] == MergeRuns(before[left..mid + 1], before[mid + 1..right + 1])[p - left]
    requires forall p :: 0 <= p < |after| && (p < left || right < p) ==> after[p] == before[p]
    ensures forall p, q :: left <= p < q <= right ==> after[p] <= after[q]
    ensures multiset(after) == multiset(before)
  {
    var xs, ys := before[left..mid + 1], before[mid + 1..right + 1];
    var r := MergeRuns(xs, ys);
    MergeRunsSorted(xs, ys);
    forall p, q | left <= p < q <= right ensures after[p] <= after[q] {
      assert after[p] == r[p - left] && after[q] == r[q - left];
    }
    MergedRangeMultiset(before, after, left, mid, right);
  }

  /** A slice that agrees with r position by position is r. */
  lemma SliceIs(s: seq<int>, r: seq<int>, lo: nat, hi: nat)
    requires lo <= hi <= |s| && |r| == hi - lo
    requires forall p :: lo <= p < hi ==> s[p] == r[p - lo]
    ensures s[lo..hi] == r
  {
    forall k | 0 <= k < |r| ensures s[lo..hi][k] == r[k] {
      assert s[lo..hi][k] == s[lo + k];
    }
  }

  /** The multiset half of `MergedRange`. */
  lemma MergedRangeMultiset(before: seq<int>, after: seq<int>, left: nat, mid: nat, right: nat)
    requires left <= mid < right < |before| == |after|
    requires forall p :: left <= p <= right ==>
      after[p] == MergeRuns(before[left..mid + 1], before[mid + 1..right + 1])[p - left]
    requires forall p :: 0 <= p < |after| && (p < left || right < p) ==> after[p] == before[p]
    ensures multiset(after) == multiset(before)
  {
    var xs, ys := before[left..mid + 1], before[mid + 1..right + 1];
    var r := MergeRuns(xs, ys);
    SliceIs(after, r, left, right + 1);
    assert before[left..right + 1] == xs + ys;
    MergeRunsPermutes(xs, ys);
    SpliceMultiset(before, after, left, right + 1);
  }

  /** `mergeSortHelper`: sorts a[left..right] in place, keeping the multiset of
      the array and every value outside the range. */
  method MergeSortHelper(a: array<int>, left: nat, right: int) returns (steps: seq<AlgorithmStep>)
    requires left <= right + 1 <= a.Length
    modifies a
    ensures forall p, q :: left <= p < q <= right ==> a[p] <= a[q]
    ensures multiset(a[..]) == multiset(old(a[..]))
    ensures SameOutside(a, old(a[..]), left, right)
    ensures forall t :: 0 <= t < |steps| ==> MergeStep(steps[t], a.Length)
    decreases right - left
  {
    steps := [];
    if left < right {
      var mid := (left + right) / 2;
      var first := MergeSortHelper(a, left, mid);
      ghost var between := a[..];
      var second := MergeSortHelper(a, mid + 1, right);
      assert forall p, q :: left <= p < q <= mid ==> a[p] <= a[q] by {
        forall p, q | left <= p < q <= mid ensures a[p] <= a[q] {
          assert a[p] == between[p] && a[q] == between[q];
        }
      }
      var merged := MergeHalves(a, left, mid, right);
      steps := first + second + merged;
    }
  }

  /** The merge step of `mergeSortHelper`: two ascending halves become one
      ascending range, keeping the multiset and everything outside. */
  method MergeHalves(a: array<int>, left: nat, mid: nat, right: nat) returns (steps: seq<AlgorithmStep>)
    requires left <= mid < right < a.Length
    requires forall p, q :: left <= p < q <= mid ==> a[p] <= a[q]
    requires forall p, q :: mid < p < q <= right ==> a[p] <= a[q]
    modifies a
    ensures forall p, q :: left <= p < q <= right ==> a[p] <= a[q]
    ensures multiset(a[..]) == multiset(old(a[..]))
    ensures SameOutside(a, old(a[..]), left, right)
    ensures forall t :: 0 <= t < |steps| ==> MergeStep(steps[t], a.Length)
  {
    ghost var before := a[..];
    assert Sorted(before[left..mid + 1]);
    assert Sorted(before[mid + 1..right + 1]);
    steps := Merge(a, left, mid, right);
    MergedRange(before, a[..], left, mid, right);
  }

  /** `mergeSort`: the last snapshot is the sorted input. */
  method MergeSort(arr: array<int>) returns (steps: seq<AlgorithmStep>)
    ensures steps != [] && SortedOutcome(Last(steps), arr[..])
    ensures forall t :: 0 <= t < |steps| - 1 ==> MergeStep(steps[t], arr.Length)
  {
    var a := Copy(arr);
    steps := MergeSortHelper(a, 0, a.Length - 1);
    assert a[..] == a[0..a.Length];
    var st := AlgorithmStep(a[..], [], [], Range(0, a.Length), None, None, ArraySorted);
    steps := steps + [st];
  }

  // ---------------------------------------------------------------------------
  // Searches
  // ---------------------------------------------------------------------------

  /** x inserted into an ascending run, before the first larger-or-equal value. */
  function InsertAscending(x: int, s: seq<int>): (r: seq<int>)
    requires Sorted(s)
    ensures Sorted(r) && multiset(r) == multiset{x} + multiset(s) && |r| == |s| + 1
    ensures r[0] == x || (s != [] && r[0] == s[0])
  {
    if s == [] || x <= s[0] then [x] + s
    else
      var t := InsertAscending(x, s[1..]);
      assert s == [s[0]] + s[1..];
      assert s[0] <= t[0];
      [s[0]] + t
  }

  /** `[...arr].sort((a, b) => a - b)`: the ascending permutation of the input. */
  function SortAscending(s: seq<int>): (r: seq<int>)
    ensures Sorted(r) && multiset(r) == multiset(s) && |r| == |s|
  {
    if s == [] then []
    else
      assert s == [s[0]] + s[1..];
      InsertAscending(s[0], SortAscending(s[1..]))
  }

  /** What every binary-search snapshot satisfies: it shows the sorted copy, all
      indices marked sorted, and highlighted indices in range. */
  predicate BinaryStep(st: AlgorithmStep, sortedInput: seq<int>) {
    st.values == sortedInput && st.sorted == Range(0, |sortedInput|)
    && IndicesIn(st, |sortedInput|) && st.swapping == [] && st.pivot.None?
  }

  /** Sorting keeps exactly the values present. */
  lemma SortAscendingMembers(s: seq<int>)
    ensures forall x :: x in s <==> x in SortAscending(s)
  {
    var r := SortAscending(s);
    forall x ensures x in s <==> x in r {
      assert x in s <==> x in multiset(s);
      assert x in r <==> x in multiset(r);
    }
  }

  /** One iteration of the search loop: probe the middle of [left, right] and
      either report it or halve the range, keeping the target out of every
      discarded position. */
  method BinaryProbe(values: seq<int>, target: int, left: nat, right: nat)
    returns (found: bool, left': nat, right': int, steps: seq<AlgorithmStep>)
    requires Sorted(values) && left <= right < |values|
    ensures found ==>
      steps != [] && Last(steps).found.Some? && 0 <= Last(steps).found.value < |values|
      && values[Last(steps).found.value] == target
      && Last(steps).description == FoundAt(target, Last(steps).found.value)
    ensures !found ==>
      left <= left' <= right' + 1 <= right + 1 && right' - left' < right - left
      && forall k :: 0 <= k < |values| && (left <= k < left' || right' < k <= right) ==> values[k] != target
    ensures !found ==> forall t :: 0 <= t < |steps| ==> steps[t].found.None?
    ensures forall t :: 0 <= t < |steps| - 1 ==> steps[t].found.None?
    ensures forall t :: 0 <= t < |steps| ==> BinaryStep(steps[t], values)
  {
    var n := |values|;
    var mid := (left + right) / 2;
    var st := AlgorithmStep(values, [mid], [], Range(0, n), None, None, CheckingMiddle(values[mid]));
    assert BinaryStep(st, values);
    steps := [st];
    found, left', right' := false, left, right;
    if values[mid] == target {
      st := AlgorithmStep(values, [], [], Range(0, n), None, Some(mid), FoundAt(target, mid));
      assert BinaryStep(st, values);
      steps := steps + [st];
      found := true;
    } else if values[mid] < target {
      st := AlgorithmStep(values, Range(mid + 1, right + 1), [], Range(0, n), None, None,
                          SearchingRightHalf(target, values[mid]));
      assert BinaryStep(st, values);
      steps := steps + [st];
      left' := mid + 1;
    } else {
      st := AlgorithmStep(values, Range(left, mid), [], Range(0, n), None, None,
                          SearchingLeftHalf(target, values[mid]));
      assert BinaryStep(st, values);
      steps := steps + [st];
      right' := mid - 1;
    }
  }

  /** `binarySearch`: searches the ascending copy of the input; the last snapshot
      reports an index holding the target exactly when the target occurs in the
      input, and "not found" otherwise. */
  method BinarySearch(arr: array<int>, target: int) returns (steps: seq<AlgorithmStep>)
    ensures steps != []
    ensures forall t :: 0 <= t < |steps| ==> BinaryStep(steps[t], SortAscending(arr[..]))
    ensures forall t :: 0 <= t < |steps| - 1 ==> steps[t].found.None?
    ensures Last(steps).found.Some? <==> target in arr[..]
    ensures Last(steps).found.Some? ==>
      var i := Last(steps).found.value;
      0 <= i < arr.Length && SortAscending(arr[..])[i] == target
      && Last(steps).description == FoundAt(target, i)
    ensures Last(steps).found.None? ==> Last(steps).description == NotFound(target)
  {
    var values := SortAscending(arr[..]);
    SortAscendingMembers(arr[..]);
    steps := BinarySearchSorted(values, target);
  }

  /** The search loop of `binarySearch` over the ascending copy. */
  method BinarySearchSorted(values: seq<int>, target: int) returns (steps: seq<AlgorithmStep>)
    requires Sorted(values)
    ensures steps != []
    ensures forall t :: 0 <= t < |steps| ==> BinaryStep(steps[t], values)
    ensures forall t :: 0 <= t < |steps| - 1 ==> steps[t].found.None?
    ensures Last(steps).found.Some? <==> target in values
    ensures Last(steps).found.Some? ==>
      var i := Last(steps).found.value;
      0 <= i < |values| && values[i] == target && Last(steps).description == FoundAt(target, i)
    ensures Last(steps).found.None? ==> Last(steps).description == NotFound(target)
  {
    var n := |values|;
    var left, right := 0, n - 1;
    var st := AlgorithmStep(values, [], [], Range(0, n), None, None, SearchingSorted(target));
    assert BinaryStep(st, values);
    steps := [st];
    while left <= right
      invariant 0 <= left <= right + 1 <= n
      invariant forall k :: 0 <= k < n && (k < left || right < k) ==> values[k] != target
      invariant steps != [] && forall t :: 0 <= t < |steps| ==> steps[t].found.None?
      invariant forall t :: 0 <= t < |steps| ==> BinaryStep(steps[t], values)
      decreases right - left
    {
      var found, more;
      found, left, right, more := BinaryProbe(values, target, left, right);
      steps := steps + more;
      if found {
        return;
      }
    }
    st := AlgorithmStep(values, [], [], Range(0, n), None, None, NotFound(target));
    assert BinaryStep(st, values);
    steps := steps + [st];
  }

  /** What every linear-search snapshot satisfies: it shows the input itself,
      marks nothing sorted, and highlights at most one index, in range. */
  predicate LinearStep(st: AlgorithmStep, input: seq<int>) {
    st.values == input && st.sorted == [] && IndicesIn(st, |input|)
    && |st.comparing| <= 1 && st.swapping == [] && st.pivot.None?
  }

  /** `linearSearch`: the last snapshot reports the first index holding the
      target, or "not found" when no index does. */
  method LinearSearch(arr: array<int>, target: int) returns (steps: seq<AlgorithmStep>)
    ensures steps != []
    ensures forall t :: 0 <= t < |steps| ==> LinearStep(steps[t], arr[..])
    ensures forall t :: 0 <= t < |steps| - 1 ==> steps[t].found.None?
    ensures Last(steps).found.Some? ==>
      var i := Last(steps).found.value;
      0 <= i < arr.Length && arr[i] == target && (forall k :: 0 <= k < i ==> arr[k] != target)
      && Last(steps).description == FoundAt(target, i)
    ensures Last(steps).found.None? <==> target !in arr[..]
    ensures Last(steps).found.None? ==> Last(steps).description == NotFound(target)
  {
    var values := arr[..];
    var st := AlgorithmStep(values, [], [], [], None, None, Searching(target));
    steps := [st];
    var i := 0;
    while i < |values|
      invariant 0 <= i <= |values|
      invariant forall k :: 0 <= k < i ==> values[k] != target
      invariant steps != [] && forall t :: 0 <= t < |steps| ==> steps[t].found.None?
      invariant forall t :: 0 <= t < |steps| ==> LinearStep(steps[t], values)
    {
      st := AlgorithmStep(values, [i], [], [], None, None, CheckingIndex(i, values[i]));
      steps := steps + [st];
      if values[i] == target {
        st := AlgorithmStep(values, [], [], [], None, Some(i), FoundAt(target, i));
        steps := steps + [st];
        return;
      }
      i := i + 1;
    }
    st := AlgorithmStep(values, [], [], [], None, None, NotFound(target));
    steps := steps + [st];
  }
}

=== FILE: array_visualizer.dfy ===
/** The algorithm visualizer panel (src/components/visualizer/ArrayVisualizer.tsx):
    it holds the bars on display, the step generator of the chosen algorithm and
    the playback flags, and colours each bar from the current snapshot. The
    generator is its list of snapshots still to come (every generator only reads
    its own copy of the input, so producing the snapshots up front yields the same
    sequence). Timers are reduced to one `Tick` per timeout; random draws are
    parameters. */
module ArrayVisualizer {
  import opened Common
  import opened VisualizerTypes
  import opened Algorithms

  // ---------------------------------------------------------------------------
  // Bar colours and playback delay
  // ---------------------------------------------------------------------------

  datatype BarColour = Default | ComparingBar | SwappingBar | SortedBar | PivotBar | FoundBar

  /** `getBarColor(index)`: found, then pivot, then swapping, comparing and sorted;
      a bar nothing highlights, or any bar before the first step, is plain. */
  function BarColourOf(step: Option<AlgorithmStep>, index: int): (c: BarColour)
    ensures step.None? ==> c == Default
    ensures step.Some? ==> var st := step.value;
      (c == FoundBar <==> st.found == Some(index))
      && (c == PivotBar <==> st.found != Some(index) && st.pivot == Some(index))
      && (c == SwappingBar <==> st.found != Some(index) && st.pivot != Some(index) && index in st.swapping)
      && (c == ComparingBar <==>
            st.found != Some(index) && st.pivot != Some(index) && index !in st.swapping && index in st.comparing)
      && (c == SortedBar <==>
            st.found != Some(index) && st.pivot != Some(index) && index !in st.swapping
            && index !in st.comparing && index in st.sorted)
  {
    if step.None? then Default
    else if step.value.found == Some(index) then FoundBar
    else if step.value.pivot == Some(index) then PivotBar
    else if index in step.value.swapping then SwappingBar
    else if index in step.value.comparing then ComparingBar
    else if index in step.value.sorted then SortedBar
    else Default
  }

  /** A bar no list and no index of the snapshot mentions is plain. */
  lemma UnmarkedBarIsDefault(st: AlgorithmStep, index: int)
    requires st.found != Some(index) && st.pivot != Some(index)
    requires index !in st.swapping && index !in st.comparing && index !in st.sorted
    ensures BarColourOf(Some(st), index) == Default
  {
  }

  /** `Math.max(10, 500 - speed * 5)` milliseconds between steps. */
  function Delay(speed: int): (ms: int)
    ensures ms >= 10 && ms >= 500 - speed * 5
    ensures ms == 10 || ms == 500 - speed * 5
  {
    if 500 - speed * 5 > 10 then 500 - speed * 5 else 10
  }

  /** Over the slider's speeds 1 to 100 the delay lies in [10, 495], and a faster
      setting never waits longer. */
  lemma DelayBounds(speed: int, faster: int)
    requires 1 <= speed <= faster <= 100
    ensures 10 <= Delay(speed) <= 495
    ensures Delay(faster) <= Delay(speed)
  {
  }

  // ---------------------------------------------------------------------------
  // Choosing a generator
  // ---------------------------------------------------------------------------

  datatype Generator = BubbleGen | SelectionGen | InsertionGen | QuickGen | MergeGen | BinaryGen | LinearGen

  predicate IsSortGen(g: Generator) {
    !(g == BinaryGen || g == LinearGen)
  }

  /** The `switch` of `getGenerator`: each algorithm id to its generator, anything
      else to bubble sort. */
  function GeneratorOf(id: string): Generator {
    if id == "bubble-sort" then BubbleGen
    else if id == "selection-sort" then SelectionGen
    else if id == "insertion-sort" then InsertionGen
    else if id == "quick-sort" then QuickGen
    else if id == "merge-sort" then MergeGen
    else if id == "binary-search" then BinaryGen
    else if id == "linear-search" then LinearGen
    else BubbleGen
  }

  /** Every entry of the algorithm table has a generator of its own, and it is a
      sort exactly for the sorting entries. */
  lemma GeneratorPerAlgorithm()
    ensures forall i, j :: 0 <= i < j < |AlgorithmTable| ==> GeneratorOf(AlgorithmTable[i].id) != GeneratorOf(AlgorithmTable[j].id)
    ensures forall i :: 0 <= i < |AlgorithmTable| ==>
      (IsSortGen(GeneratorOf(AlgorithmTable[i].id)) <==> AlgorithmTable[i].kind == SortingKind)
  {
    AlgorithmTableShape();
    TableGenerators();
  }

  /** The generator of each table entry, in table order. */
  lemma TableGenerators()
    ensures GeneratorOf(AlgorithmTable[0].id) == BubbleGen && GeneratorOf(AlgorithmTable[1].id) == SelectionGen
    ensures GeneratorOf(AlgorithmTable[2].id) == InsertionGen && GeneratorOf(AlgorithmTable[3].id) == QuickGen
    ensures GeneratorOf(AlgorithmTable[4].id) == MergeGen && GeneratorOf(AlgorithmTable[5].id) == BinaryGen
    ensures GeneratorOf(AlgorithmTable[6].id) == LinearGen
  {
  }

  /** An id outside the algorithm table gets bubble sort. */
  lemma UnknownIdBubbleSort(id: string)
    requires forall k :: 0 <= k < |AlgorithmTable| ==> AlgorithmTable[k].id != id
    ensures GeneratorOf(id) == BubbleGen
  {
    assert AlgorithmTable[1].id != id && AlgorithmTable[2].id != id && AlgorithmTable[3].id != id;
    assert AlgorithmTable[4].id != id && AlgorithmTable[5].id != id && AlgorithmTable[6].id != id;
  }

  /** The table entry of `id` is a searching algorithm. */
  predicate IsSearchAlgorithm(id: string) {
    FindAlgorithm(id).Some? && FindAlgorithm(id).value.kind == SearchingKind
  }

  /** The ids of searching algorithms are exactly those getting a search generator. */
  lemma SearchAlgorithmsSearch(id: string)
    ensures IsSearchAlgorithm(id) <==> !IsSortGen(GeneratorOf(id))
  {
    AlgorithmTableShape();
    if IsSearchAlgorithm(id) {
      var k :| 0 <= k < |AlgorithmTable| && AlgorithmTable[k] == FindAlgorithm(id).value;
      assert AlgorithmTable[k].id == id && (k == 5 || k == 6);
    }
    if !IsSortGen(GeneratorOf(id)) {
      var k := if id == "binary-search" then 5 else 6;
      assert AlgorithmTable[k].id == id;
      var j :| 0 <= j < |AlgorithmTable| && AlgorithmTable[j] == FindAlgorithm(id).value;
      assert j == k;
    }
  }

  /** `searchTarget || array[0]`: a missing or zero target falls back to the first
      value (an empty array has none; its search compares nothing). */
  function TargetFor(searchTarget: Option<int>, values: seq<int>): (t: int)
    ensures searchTarget.Some? && searchTarget.value != 0 ==> t == searchTarget.value
    ensures !(searchTarget.Some? && searchTarget.value != 0) && values != [] ==> t == values[0]
  {
    if searchTarget.Some? && searchTarget.value != 0 then searchTarget.value
    else if values != [] then values[0]
    else 0
  }

  /** A target drawn from the values, or none, falls back into the values. */
  lemma TargetForFromValues(searchTarget: Option<int>, values: seq<int>)
    requires values != [] && (searchTarget.Some? ==> searchTarget.value in values)
    ensures TargetFor(searchTarget, values) in values
  {
  }

  /** What the snapshots of generator g on `input` promise: at least one, every
      highlighted index a bar of the input, a sorted permutation at the end of a
      sort, and a search that ends found exactly when the target is present. */
  predicate Outcome(steps: seq<AlgorithmStep>, input: seq<int>, g: Generator, target: int) {
    steps != []
    && (forall t :: 0 <= t < |steps| ==> IndicesIn(steps[t], |input|))
    && (IsSortGen(g) ==> SortedOutcome(Last(steps), input))
    && (!IsSortGen(g) ==> (Last(steps).found.Some? <==> target in input))
  }

  /** The closing sorted snapshot highlights only bars of the input. */
  lemma SortedOutcomeInBounds(st: AlgorithmStep, input: seq<int>)
    requires SortedOutcome(st, input)
    ensures IndicesIn(st, |input|)
  {
    assert |st.values| == |multiset(st.values)| == |multiset(input)| == |input|;
  }

  /** A fresh array holding `values`. */
  method ArrayOf(values: seq<int>) returns (arr: array<int>)
    ensures fresh(arr) && arr[..] == values
  {
    arr := new int[|values|](i requires 0 <= i < |values| => values[i]);
  }

  /** Runs sort generator g on a fresh array holding `values`. */
  method RunSort(g: Generator, values: seq<int>) returns (steps: seq<AlgorithmStep>)
    requires IsSortGen(g)
    ensures steps != [] && SortedOutcome(Last(steps), values)
    ensures forall t :: 0 <= t < |steps| ==> IndicesIn(steps[t], |values|)
  {
    var arr := ArrayOf(values);
    match g
    case BubbleGen =>
      steps := BubbleSort(arr);
    case SelectionGen =>
      steps := SelectionSort(arr);
    case InsertionGen =>
      steps := InsertionSort(arr);
    case QuickGen =>
      steps := QuickSort(arr);
    case MergeGen =>
      steps := MergeSort(arr);
      SortedOutcomeInBounds(Last(steps), values);
  }

  /** Runs search generator g for `target` on a fresh array holding `values`. */
  method RunSearch(g: Generator, values: seq<int>, target: int) returns (steps: seq<AlgorithmStep>)
    requires !IsSortGen(g)
    ensures steps != [] && (Last(steps).found.Some? <==> target in values)
    ensures forall t :: 0 <= t < |steps| ==> IndicesIn(steps[t], |values|)
  {
    var arr := ArrayOf(values);
    if g == BinaryGen {
      steps := BinarySearch(arr, target);
    } else {
      steps := LinearSearch(arr, target);
    }
  }

  /** Runs generator g on a fresh array holding `values`. */
  method RunGenerator(g: Generator, values: seq<int>, target: int) returns (steps: seq<AlgorithmStep>)
    ensures Outcome(steps, values, g, target)
  {
    if IsSortGen(g) {
      steps := RunSort(g, values);
    } else {
      steps := RunSearch(g, values, target);
    }
  }

  // ---------------------------------------------------------------------------
  // The panel
  // ---------------------------------------------------------------------------

  class Visualizer {
    var values: seq<int>
    var currentStep: Option<AlgorithmStep>
    var isRunning: bool
    var isPaused: bool
    var speed: int
    var algorithm: string
    var arraySize: int
    var searchTarget: Option<int>
    /** `generatorRef.current`: absent before it is made, else the snapshots still to come. */
    var generator: Option<seq<AlgorithmStep>>
    /** Everything the current generator yields, the bars it started from, and
        how many snapshots were taken so far. */
    ghost var trace: seq<AlgorithmStep>
    ghost var origin: seq<int>
    ghost var taken: nat

    /** A snapshot is shown only from the current generator, which is the chosen
        algorithm's run on the bars it started from; the bars shown are that
        start or the last snapshot taken; a search target comes from the bars. */
    ghost predicate Valid()
      reads this
    {
      (currentStep.Some? ==> generator.Some?)
      && (generator.None? && IsSearchAlgorithm(algorithm) && searchTarget.Some? ==> searchTarget.value in values)
      && (generator.None? && IsSearchAlgorithm(algorithm) && values != [] ==> searchTarget.Some?)
      && (generator.Some? ==>
            taken <= |trace| && generator.value == trace[taken..] && Produced()
            && (taken == 0 ==> values == origin && currentStep.None?)
            && (taken > 0 ==> currentStep == Some(trace[taken - 1]) && values == trace[taken - 1].values))
    }

    /** The trace is the chosen algorithm's run on the bars it started from, with
        a search target taken from those bars. */
    ghost predicate Produced()
      reads this`trace, this`origin, this`algorithm, this`searchTarget
    {
      Outcome(trace, origin, GeneratorOf(algorithm), TargetFor(searchTarget, origin))
      && (IsSearchAlgorithm(algorithm) && origin != [] ==> TargetFor(searchTarget, origin) in origin)
    }

    /** The snapshot on display highlights only bars on display. */
    lemma ShownStepInBounds()
      requires Valid() && currentStep.Some?
      ensures IndicesIn(currentStep.value, |values|)
    {
      assert IndicesIn(trace[taken - 1], |origin|);
    }

    /** The initial state, before the mounting effect draws the first bars. */
    constructor()
      ensures values == [] && currentStep.None? && !isRunning && !isPaused
      ensures speed == 50 && algorithm == "bubble-sort" && arraySize == 20
      ensures searchTarget.None? && generator.None?
      ensures Valid()
    {
      values := [];
      currentStep := None;
      isRunning := false;
      isPaused := false;
      speed := 50;
      algorithm := "bubble-sort";
      arraySize := 20;
      searchTarget := None;
      generator := None;
      trace := [];
      origin := [];
      taken := 0;
    }

    /** `generateArray`: fresh bars of the chosen size, no snapshot, stopped, no
        generator; a searching algorithm also draws its target from the bars. */
    method GenerateArray(draws: seq<real>, targetDraw: real)
      requires |draws| == arraySize
      requires forall i :: 0 <= i < |draws| ==> 0.0 <= draws[i] < 1.0
      requires 0.0 <= targetDraw < 1.0
      modifies this
      ensures speed == old(speed) && algorithm == old(algorithm) && arraySize == old(arraySize)
      ensures values == GenerateRandomArray(arraySize, draws)
      ensures currentStep.None? && !isRunning && !isPaused && generator.None?
      ensures IsSearchAlgorithm(algorithm) ==> searchTarget == Pick(values, targetDraw)
      ensures !IsSearchAlgorithm(algorithm) ==> searchTarget == old(searchTarget)
      ensures IsSearchAlgorithm(algorithm) || old(Valid()) ==> Valid()
    {
      values := GenerateRandomArray(arraySize, draws);
      currentStep := None;
      isRunning := false;
      isPaused := false;
      generator := None;
      if IsSearchAlgorithm(algorithm) {
        searchTarget := Pick(values, targetDraw);
      }
    }

    /** `getGenerator()`: the chosen algorithm's snapshots on the bars shown. */
    method GetGenerator() returns (steps: seq<AlgorithmStep>)
      ensures Outcome(steps, values, GeneratorOf(algorithm), TargetFor(searchTarget, values))
    {
      steps := RunGenerator(GeneratorOf(algorithm), values, TargetFor(searchTarget, values));
    }

    /** The generator is made from the bars shown, unless it exists already. */
    method EnsureGenerator()
      requires Valid()
      modifies this`generator, this`trace, this`origin, this`taken
      ensures old(generator).Some? ==> unchanged(this)
      ensures old(generator).None? ==> generator == Some(trace) && origin == values && taken == 0
      ensures generator.Some? && Valid()
    {
      if generator.None? {
        var steps := GetGenerator();
        generator := Some(steps);
        trace := steps;
        origin := values;
        taken := 0;
        if IsSearchAlgorithm(algorithm) && origin != [] {
          TargetForFromValues(searchTarget, origin);
        }
      }
    }

    /** `runStep`: the next snapshot becomes the current one and its bars are shown;
        once the generator is spent, playback stops and nothing else changes. */
    method RunStep()
      requires Valid()
      modifies this`currentStep, this`values, this`generator, this`taken, this`isRunning, this`isPaused,
        this`trace, this`origin
      ensures old(generator).None? ==> origin == old(values) && trace != [] && taken == 1
      ensures var rem := if old(generator).Some? then old(generator).value else trace;
        (rem == [] ==> !isRunning && !isPaused && values == old(values) && currentStep == old(currentStep)
                       && generator == Some(rem))
        && (rem != [] ==> currentStep == Some(rem[0]) && values == rem[0].values && generator == Some(rem[1..])
                          && isRunning == old(isRunning) && isPaused == old(isPaused))
      ensures old(generator).Some? ==> trace == old(trace) && origin == old(origin)
      ensures Valid()
    {
      EnsureGenerator();
      if generator.value == [] {
        StopPlayback();
      } else {
        TakeNext();
      }
    }

    /** `runStep` on a spent generator: playback stops. */
    method StopPlayback()
      requires Valid() && generator == Some([])
      modifies this`isRunning, this`isPaused
      ensures !isRunning && !isPaused
      ensures Valid()
    {
      isRunning := false;
      isPaused := false;
    }

    /** `runStep` with a snapshot to come: it becomes the current one, its bars
        are shown, and the generator moves past it. */
    method TakeNext()
      requires Valid() && generator.Some? && generator.value != []
      modifies this`currentStep, this`values, this`generator, this`taken
      ensures currentStep == Some(old(generator).value[0]) && values == old(generator).value[0].values
      ensures generator == Some(old(generator).value[1..]) && taken == old(taken) + 1
      ensures Valid()
    {
      var rem := generator.value;
      currentStep := Some(rem[0]);
      values := rem[0].values;
      generator := Some(rem[1..]);
      taken := taken + 1;
    }

    /** `handleStart`: playback on, from the existing generator or a new one. */
    method HandleStart()
      requires Valid()
      modifies this
      ensures isRunning && !isPaused
      ensures old(generator).None? ==> generator == Some(trace) && origin == old(values) && taken == 0
      ensures old(generator).Some? ==> generator == old(generator) && trace == old(trace) && taken == old(taken)
      ensures values == old(values) && currentStep == old(currentStep) && algorithm == old(algorithm)
      ensures speed == old(speed) && searchTarget == old(searchTarget) && arraySize == old(arraySize)
      ensures Valid()
    {
      EnsureGenerator();
      isRunning := true;
      isPaused := false;
    }

    /** `handlePause`. */
    method HandlePause()
      modifies this
      ensures isPaused
      ensures isRunning == old(isRunning) && values == old(values) && currentStep == old(currentStep)
      ensures generator == old(generator) && algorithm == old(algorithm) && searchTarget == old(searchTarget)
      ensures old(Valid()) ==> Valid()
    {
      isPaused := true;
    }

    /** `handleStep`: one snapshot forward. */
    method HandleStep()
      requires Valid()
      modifies this
      ensures old(generator).None? ==> origin == old(values) && trace != [] && taken == 1
      ensures old(generator).Some? ==> trace == old(trace) && origin == old(origin)
      ensures taken == (if old(generator).None? then 1 else if old(taken) < |trace| then old(taken) + 1 else old(taken))
      ensures Valid()
    {
      EnsureGenerator();
      RunStep();
    }

    /** One call of `runVisualization`: nothing while stopped or paused;
        otherwise one step, and the delay of the timeout it requests. */
    method Tick() returns (next: Option<int>)
      requires Valid()
      modifies this
      ensures !old(isRunning) || old(isPaused) ==> next.None? && unchanged(this)
      ensures old(isRunning) && !old(isPaused) ==> next == Some(Delay(speed))
      ensures old(isRunning) && !old(isPaused) ==> generator.Some?
      ensures old(isRunning) && !old(isPaused) && old(generator).Some? ==>
        trace == old(trace) && origin == old(origin)
        && (old(generator).value != [] ==> generator == Some(old(generator).value[1..]) && isRunning)
        && (old(generator).value == [] ==> generator == old(generator) && !isRunning)
      ensures isPaused == old(isPaused)
      ensures algorithm == old(algorithm) && speed == old(speed) && searchTarget == old(searchTarget)
      ensures Valid()
    {
      if !isRunning || isPaused {
        return None;
      }
      RunStep();
      next := Some(Delay(speed));
    }

    /** Start, then let every timeout fire until playback stops: the last snapshot
        is shown; a sort shows the bars it started from in ascending order, and a
        search ends found exactly when its target is among them. */
    method PlayToEnd()
      requires Valid()
      modifies this
      ensures !isRunning && generator == Some([]) && taken == |trace| > 0
      ensures currentStep == Some(Last(trace)) && values == Last(trace).values
      ensures old(generator).None? ==> origin == old(values)
      ensures IsSortGen(GeneratorOf(algorithm)) ==> Sorted(values) && multiset(values) == multiset(origin)
      ensures !IsSortGen(GeneratorOf(algorithm)) ==>
        (currentStep.value.found.Some? <==> TargetFor(searchTarget, origin) in origin)
      ensures !IsSortGen(GeneratorOf(algorithm)) && origin != [] ==> currentStep.value.found.Some?
      ensures algorithm == old(algorithm)
      ensures Valid()
    {
      HandleStart();
      ghost var start := origin;
      while isRunning
        invariant Valid() && generator.Some? && !isPaused
        invariant origin == start && algorithm == old(algorithm)
        invariant !isRunning ==> taken == |trace|
        decreases |generator.value| + (if isRunning then 1 else 0)
      {
        var _ := Tick();
      }
      assert trace[taken - 1] == Last(trace);
      if !IsSortGen(GeneratorOf(algorithm)) && origin != [] {
        SearchAlgorithmsSearch(algorithm);
      }
    }

    /** Moving the speed slider (1 to 100) changes only the delay. */
    method SetSpeed(v: int)
      requires 1 <= v <= 100
      modifies this
      ensures speed == v && 10 <= Delay(speed) <= 495
      ensures values == old(values) && currentStep == old(currentStep) && generator == old(generator)
      ensures isRunning == old(isRunning) && isPaused == old(isPaused) && algorithm == old(algorithm)
      ensures old(Valid()) ==> Valid()
    {
      speed := v;
      DelayBounds(v, v);
    }

    /** Choosing an algorithm. React drops an update to the value already in
        force, so re-choosing the current algorithm changes nothing; a new one
        changes `generateArray`, whose effect then runs again. */
    method SetAlgorithm(id: string, draws: seq<real>, targetDraw: real)
      requires |draws| == arraySize
      requires forall i :: 0 <= i < |draws| ==> 0.0 <= draws[i] < 1.0
      requires 0.0 <= targetDraw < 1.0
      modifies this
      ensures id == old(algorithm) ==> unchanged(this)
      ensures arraySize == old(arraySize) && algorithm == id
      ensures id != old(algorithm) ==>
        values == GenerateRandomArray(arraySize, draws)
        && currentStep.None? && !isRunning && !isPaused && generator.None?
      ensures id != old(algorithm) && IsSearchAlgorithm(id) ==> searchTarget == Pick(values, targetDraw)
      ensures old(Valid()) ==> Valid()
      ensures id != old(algorithm) && (IsSearchAlgorithm(id) || !IsSearchAlgorithm(old(algorithm))) ==> Valid()
    {
      if id != algorithm {
        algorithm := id;
        GenerateArray(draws, targetDraw);
      }
    }

    /** Moving the size slider (5 to 50). A size equal to the current one is an
        update React drops; a new size changes `generateArray`, whose effect
        then runs again. */
    method SetArraySize(v: int, draws: seq<real>, targetDraw: real)
      requires 5 <= v <= 50 && |draws| == v
      requires forall i :: 0 <= i < |draws| ==> 0.0 <= draws[i] < 1.0
      requires 0.0 <= targetDraw < 1.0
      modifies this
      ensures v == old(arraySize) ==> unchanged(this)
      ensures arraySize == v
      ensures v != old(arraySize) ==>
        |values| == v && values == GenerateRandomArray(v, draws)
        && currentStep.None? && !isRunning && !isPaused && generator.None?
      ensures old(Valid()) ==> Valid()
    {
      if v != arraySize {
        arraySize := v;
        GenerateArray(draws, targetDraw);
      }
    }
  }
}

=== FILE: bot_hint.dfy ===
/** The `/hint` command of the Discord bot (discord-bot/src/commands/hint.ts): the
    problem named by the user is looked up in the bot's bank, and a per-user,
    per-problem counter walks through that problem's hints one call at a time.
    The reply itself (embeds, ephemeral flags) is reduced to what it reports. */
module BotHint {
  import opened Common
  import opened BotProblems

  /** The lookup rule for the lower-cased input `name`. */
  predicate NameMatches(p: BotProblem, name: string) {
    p.id == name || Contains(Lower(p.title), name) || Contains(name, p.id)
  }

  /** The problem `execute` looks up: the first in bank order whose id is the
      lower-cased input, whose lower-cased title contains it, or whose id it
      contains. */
  function FindProblem(input: string): (r: Option<BotProblem>)
    ensures r.Some? ==> r.value in ProblemTable
    ensures r.None? <==> forall k :: 0 <= k < |ProblemTable| ==> !NameMatches(ProblemTable[k], Lower(input))
    ensures r.Some? ==>
      exists k :: 0 <= k < |ProblemTable| && ProblemTable[k] == r.value && NameMatches(r.value, Lower(input))
        && forall j :: 0 <= j < k ==> !NameMatches(ProblemTable[j], Lower(input))
  {
    var name := Lower(input);
    Find(ProblemTable, (p: BotProblem) => NameMatches(p, name))
  }

  /** Counter `level` for problem id `q` stays within the hints of a bank problem with that id. */
  predicate WithinHints(q: string, level: nat) {
    exists p :: p in ProblemTable && p.id == q && level <= p.hintCount
  }

  /** `userProblemHints.get(problemId) || 0`. */
  function LevelIn(hints: map<string, map<string, nat>>, userId: string, problemId: string): nat {
    if userId in hints && problemId in hints[userId] then hints[userId][problemId] else 0
  }

  /** What `execute` replies. */
  datatype HintReply =
    | NotFound(name: string)
    | AllSeen(problemId: string, total: nat)
    | ShowHint(problemId: string, index: nat, total: nat, remaining: int)

  /** The counter step of `execute` for problem `p`, from counters `before` to
      `after`: the user gets a (possibly empty) map of their own; when the level
      reached all of `p`'s hints nothing else changes; otherwise the hint at the
      level is shown, with the number still to come, and the level rises by one. */
  ghost predicate HintStep(before: map<string, map<string, nat>>, after: map<string, map<string, nat>>,
                           userId: string, p: BotProblem, reply: HintReply) {
    var level := LevelIn(before, userId, p.id);
    var inner := if userId in before then before[userId] else map[];
    (level >= p.hintCount ==>
      reply == AllSeen(p.id, p.hintCount) && after == before[userId := inner])
    && (level < p.hintCount ==>
      reply == ShowHint(p.id, level, p.hintCount, p.hintCount - level - 1)
      && after == before[userId := inner[p.id := level + 1]])
  }

  /** Every counter of `hints` belongs to a bank problem and does not pass its number of hints. */
  ghost predicate CountersWithin(hints: map<string, map<string, nat>>) {
    forall u, q :: u in hints && q in hints[u] ==> WithinHints(q, hints[u][q])
  }

  /** The counter step for a bank problem keeps every counter within the hints. */
  lemma HintStepKeepsCounters(before: map<string, map<string, nat>>, after: map<string, map<string, nat>>,
                              userId: string, p: BotProblem, reply: HintReply)
    requires HintStep(before, after, userId, p, reply) && CountersWithin(before) && p in ProblemTable
    ensures CountersWithin(after)
  {
    var level := LevelIn(before, userId, p.id);
    if level < p.hintCount {
      assert WithinHints(p.id, level + 1);
    }
  }

  /** The module-level `userHints` map of maps. */
  class HintTracker {
    var userHints: map<string, map<string, nat>>

    /** Every counter belongs to a bank problem and does not pass its number of hints. */
    ghost predicate Valid()
      reads this
    {
      CountersWithin(userHints)
    }

    constructor()
      ensures userHints == map[] && Valid()
    {
      userHints := map[];
    }

    function Level(userId: string, problemId: string): nat
      reads this
    {
      LevelIn(userHints, userId, problemId)
    }

    /** The counter step of `execute` for a user and a problem found in the bank:
        when all its hints were shown no level changes; otherwise the hint at the
        current level is shown and that level alone rises by one. */
    method Advance(userId: string, p: BotProblem) returns (reply: HintReply)
      modifies this
      ensures HintStep(old(userHints), userHints, userId, p, reply)
      ensures !reply.NotFound? && reply.problemId == p.id
      ensures reply.ShowHint? ==> 0 <= reply.index < reply.total && reply.remaining >= 0
      ensures reply.ShowHint? ==> Level(userId, p.id) == old(Level(userId, p.id)) + 1
      ensures forall u, q :: !(reply.ShowHint? && u == userId && q == p.id) ==> Level(u, q) == old(Level(u, q))
    {
      var inner: map<string, nat> := if userId in userHints then userHints[userId] else map[];
      var level: nat := if p.id in inner then inner[p.id] else 0;
      if level >= p.hintCount {
        userHints := userHints[userId := inner];
        reply := AllSeen(p.id, p.hintCount);
      } else {
        userHints := userHints[userId := inner[p.id := level + 1]];
        reply := ShowHint(p.id, level, p.hintCount, p.hintCount - level - 1);
      }
    }

    /** `execute` for a user and the typed problem name: an unknown problem gives
        the not-found reply and changes nothing; a known one takes the counter step. */
    method Execute(userId: string, input: string) returns (reply: HintReply)
      modifies this
      ensures FindProblem(input).None? ==> reply == NotFound(Lower(input)) && userHints == old(userHints)
      ensures FindProblem(input).Some? ==> HintStep(old(userHints), userHints, userId, FindProblem(input).value, reply)
      ensures reply.ShowHint? ==> 0 <= reply.index < reply.total && reply.remaining >= 0
      ensures forall u, q :: !(reply.ShowHint? && u == userId && q == reply.problemId) ==>
        Level(u, q) == old(Level(u, q))
      ensures old(Valid()) ==> Valid()
    {
      var found := FindProblem(input);
      if found.None? {
        return NotFound(Lower(input));
      }
      ghost var before := userHints;
      reply := Advance(userId, found.value);
      if old(Valid()) {
        HintStepKeepsCounters(before, userHints, userId, found.value, reply);
      }
    }
  }

  /** A new user asking four times about a bank problem sees its three hints in
      order, then is told all three were seen. */
  method HintLadder(p: BotProblem) returns (replies: seq<HintReply>)
    requires p in ProblemTable
    ensures replies == [ShowHint(p.id, 0, 3, 2), ShowHint(p.id, 1, 3, 1), ShowHint(p.id, 2, 3, 0), AllSeen(p.id, 3)]
  {
    assert p.hintCount == 3 by { ThreeHintsEach(); }
    replies := FourAsks(p);
  }

  /** Four asks by a new user about a problem with three hints. */
  method FourAsks(p: BotProblem) returns (replies: seq<HintReply>)
    requires p.hintCount == 3
    ensures replies == [ShowHint(p.id, 0, 3, 2), ShowHint(p.id, 1, 3, 1), ShowHint(p.id, 2, 3, 0), AllSeen(p.id, 3)]
  {
    var tracker := new HintTracker();
    var r1 := tracker.Advance("ada", p);
    assert tracker.Level("ada", p.id) == 1;
    var r2 := tracker.Advance("ada", p);
    assert tracker.Level("ada", p.id) == 2;
    var r3 := tracker.Advance("ada", p);
    assert tracker.Level("ada", p.id) == 3;
    var r4 := tracker.Advance("ada", p);
    replies := [r1, r2, r3, r4];
  }

  /** An autocomplete choice: the problem's title shown, its id sent. */
  datatype Choice = Choice(name: string, value: string)

  predicate QueryMatches(p: BotProblem, query: string) {
    Contains(Lower(p.title), query) || Contains(p.id, query)
  }

  /** `autocomplete`: at most 25 choices, for the bank problems in bank order whose
      lower-cased title or id contains the lower-cased query. */
  function Autocomplete(focused: string): (r: seq<Choice>)
    ensures |r| <= 25
    ensures var matches := Keep(ProblemTable, (p: BotProblem) => QueryMatches(p, Lower(focused)));
      |r| == (if |matches| < 25 then |matches| else 25)
      && forall i :: 0 <= i < |r| ==> r[i] == Choice(matches[i].title, matches[i].id)
  {
    var query := Lower(focused);
    var filtered := SliceTo(Keep(ProblemTable, (p: BotProblem) => QueryMatches(p, query)), 25);
    seq(|filtered|, i requires 0 <= i < |filtered| => Choice(filtered[i].title, filtered[i].id))
  }

  /** The bank is small enough that autocomplete offers every matching problem. */
  lemma AutocompleteOffersEveryMatch(focused: string, p: BotProblem)
    requires p in ProblemTable && QueryMatches(p, Lower(focused))
    ensures Choice(p.title, p.id) in Autocomplete(focused)
  {
    var matches := Keep(ProblemTable, (q: BotProblem) => QueryMatches(q, Lower(focused)));
    assert p in matches;
    var i :| 0 <= i < |matches| && matches[i] == p;
    assert |ProblemTable| == 12;
    assert Autocomplete(focused)[i] == Choice(p.title, p.id);
  }
}

=== FILE: bot_problems.dfy ===
/** The problem bank of the Discord bot (discord-bot/src/data/problems.ts): twelve
    problems with three hints each, the problem of the day, a random problem of a
    difficulty and a random problem on a topic. Descriptions, hint texts and links
    are prose; a problem keeps its id, title, difficulty, topics and hint count. */
module BotProblems {
  import opened Common

  datatype Difficulty = Easy | Medium | Hard

  datatype BotProblem = BotProblem(id: string, title: string, difficulty: Difficulty, topics: seq<string>, hintCount: nat)

  /** The `problems` table. */
  const ProblemTable: seq<BotProblem> := [
    BotProblem("two-sum", "Two Sum", Easy, ["arrays", "hash-table"], 3),
    BotProblem("valid-parentheses", "Valid Parentheses", Easy, ["stack", "string"], 3),
    BotProblem("merge-two-sorted-lists", "Merge Two Sorted Lists", Easy, ["linked-list", "recursion"], 3),
    BotProblem("best-time-to-buy-sell-stock", "Best Time to Buy and Sell Stock", Easy, ["arrays", "dynamic-programming"], 3),
    BotProblem("longest-substring-without-repeating", "Longest Substring Without Repeating Characters", Medium,
               ["sliding-window", "hash-table", "string"], 3),
    BotProblem("container-with-most-water", "Container With Most Water", Medium, ["arrays", "two-pointers"], 3),
    BotProblem("3sum", "3Sum", Medium, ["arrays", "two-pointers", "sorting"], 3),
    BotProblem("number-of-islands", "Number of Islands", Medium, ["graph", "dfs", "bfs"], 3),
    BotProblem("merge-intervals", "Merge Intervals", Medium, ["arrays", "sorting"], 3),
    BotProblem("trapping-rain-water", "Trapping Rain Water", Hard, ["arrays", "two-pointers", "dynamic-programming"], 3),
    BotProblem("median-of-two-sorted-arrays", "Median of Two Sorted Arrays", Hard, ["arrays", "binary-search"], 3),
    BotProblem("word-ladder", "Word Ladder", Hard, ["graph", "bfs", "string"], 3)
  ]

  function Ids(bank: seq<BotProblem>): (r: seq<string>)
    ensures |r| == |bank|
    ensures forall i :: 0 <= i < |bank| ==> r[i] == bank[i].id
  {
    seq(|bank|, i requires 0 <= i < |bank| => bank[i].id)
  }

  /** Twelve problems with distinct ids and three hints each. */
  lemma ProblemTableShape()
    ensures |ProblemTable| == 12
    ensures Distinct(Ids(ProblemTable))
    ensures forall i :: 0 <= i < |ProblemTable| ==> ProblemTable[i].hintCount == 3
  {
    var ids := Ids(ProblemTable);
    assert ids == [
      "two-sum", "valid-parentheses", "merge-two-sorted-lists", "best-time-to-buy-sell-stock",
      "longest-substring-without-repeating", "container-with-most-water", "3sum", "number-of-islands",
      "merge-intervals", "trapping-rain-water", "median-of-two-sorted-arrays", "word-ladder"];
  }

  /** Every problem has three hints. */
  lemma ThreeHintsEach()
    ensures forall p :: p in ProblemTable ==> p.hintCount == 3
  {
  }

  /** Every difficulty is represented in the table. */
  lemma EveryDifficultyPresent()
    ensures forall d: Difficulty :: Represented(d)
  {
    forall d: Difficulty ensures Represented(d) {
      var i := match d case Easy => 0 case Medium => 4 case Hard => 9;
      assert ProblemTable[i].difficulty == d;
    }
  }

  /** Some problem of the table has difficulty `d`. */
  predicate Represented(d: Difficulty) {
    exists i :: 0 <= i < |ProblemTable| && ProblemTable[i].difficulty == d
  }

  /** Two problems of the table with the same id are the same entry. */
  lemma SameIdSameIndex(i: int, j: int)
    requires 0 <= i < |ProblemTable| && 0 <= j < |ProblemTable|
    requires ProblemTable[i].id == ProblemTable[j].id
    ensures i == j
  {
    ProblemTableShape();
    assert Ids(ProblemTable)[i] == Ids(ProblemTable)[j];
  }

  /** `getDailyProblem()` for the day of the year: the entry at that day modulo the
      size of the bank. */
  function GetDailyProblem(dayOfYear: nat): (r: BotProblem)
    ensures r in ProblemTable
    ensures exists i :: 0 <= i < |ProblemTable| && ProblemTable[i] == r && i == dayOfYear % |ProblemTable|
  {
    ProblemTable[dayOfYear % |ProblemTable|]
  }

  /** The daily problem comes back every twelve days, and twelve consecutive days
      show twelve different problems. */
  lemma DailyProblemCycle(day: nat, later: nat)
    ensures GetDailyProblem(day + |ProblemTable|) == GetDailyProblem(day)
    ensures day < later < day + |ProblemTable| ==> GetDailyProblem(day).id != GetDailyProblem(later).id
  {
    ProblemTableShape();
    var n := |ProblemTable|;
    assert (day + n) % n == day % n;
    if day < later < day + n && GetDailyProblem(day).id == GetDailyProblem(later).id {
      ModDistinct(day, later, n);
      SameIdSameIndex(day % n, later % n);
    }
  }

  /** The problems of a difficulty. */
  function OfDifficulty(d: Difficulty): (r: seq<BotProblem>)
    ensures forall p :: p in r <==> p in ProblemTable && p.difficulty == d
  {
    Keep(ProblemTable, (p: BotProblem) => p.difficulty == d)
  }

  /** Every difficulty has problems. */
  lemma OfDifficultyNonEmpty(d: Difficulty)
    ensures OfDifficulty(d) != []
  {
    var i := match d case Easy => 0 case Medium => 4 case Hard => 9;
    assert ProblemTable[i].difficulty == d;
    KeepNonEmpty(ProblemTable, (p: BotProblem) => p.difficulty == d, i);
  }

  /** `getRandomProblem(difficulty?)` for a random draw in [0, 1): a problem of the
      bank, of the requested difficulty when one is given. The pool is never empty. */
  function GetRandomProblem(difficulty: Option<Difficulty>, draw: real): (r: BotProblem)
    requires 0.0 <= draw < 1.0
    ensures r in ProblemTable
    ensures difficulty.Some? ==> r.difficulty == difficulty.value
  {
    var pool := if difficulty.Some? then OfDifficulty(difficulty.value) else ProblemTable;
    if difficulty.Some? then OfDifficultyNonEmpty(difficulty.value); Pick(pool, draw).value
    else Pick(pool, draw).value
  }

  /** `getProblemByTopic(topic)` for a random draw in [0, 1): a problem listing the
      lower-cased topic, absent exactly when none does. */
  function GetProblemByTopic(topic: string, draw: real): (r: Option<BotProblem>)
    requires 0.0 <= draw < 1.0
    ensures r.None? <==> forall p :: p in ProblemTable ==> Lower(topic) !in p.topics
    ensures r.Some? ==> r.value in ProblemTable && Lower(topic) in r.value.topics
  {
    var key := Lower(topic);
    Pick(Keep(ProblemTable, (p: BotProblem) => key in p.topics), draw)
  }
}

=== FILE: bot_quiz.dfy ===
/** The `/quiz` command of the Discord bot (discord-bot/src/commands/quiz.ts): one
    random question is shown with a field and a button per option, and the id of
    the pressed button says which option was chosen. Waiting for the press, its
    30-second timeout and the embeds are left out. */
module BotQuiz {
  import opened Common
  import opened BotQuizzes

  /** The question `execute` asks: the one question of `getRandomQuiz(1)`. */
  function AskedQuestion(shuffled: seq<BotQuestion>): (q: BotQuestion)
    requires multiset(shuffled) == multiset(QuestionTable)
    ensures q in QuestionTable
  {
    var quiz := GetRandomQuiz(shuffled, 1);
    quiz[0]
  }

  /** The button id of option i: `answer_${i}`. */
  function ButtonId(i: nat): string {
    "answer_" + NatToString(i)
  }

  datatype Button = Button(customId: string, letter: char)

  /** `createAnswerButtons`: one button per option, in option order. */
  function AnswerButtons(q: BotQuestion): (r: seq<Button>)
    requires q.optionCount < 0xD800 - 65
    ensures |r| == q.optionCount
    ensures forall i :: 0 <= i < |r| ==> r[i].customId == ButtonId(i) && r[i].letter as int == 65 + i
  {
    seq(q.optionCount, i requires 0 <= i < q.optionCount => Button(ButtonId(i), OptionLetter(i)))
  }

  /** `createQuestionEmbed`'s fields, by name: one per option, in option order. */
  function FieldNames(q: BotQuestion): (r: seq<char>)
    requires q.optionCount < 0xD800 - 65
    ensures |r| == q.optionCount
    ensures forall i :: 0 <= i < |r| ==> r[i] as int == 65 + i
  {
    seq(q.optionCount, i requires 0 <= i < q.optionCount => OptionLetter(i))
  }

  /** Each option's field and button carry the same letter, and different options
      get different letters and different button ids. */
  lemma ButtonsMatchFields(q: BotQuestion)
    requires q.optionCount < 0xD800 - 65
    ensures forall i :: 0 <= i < q.optionCount ==> AnswerButtons(q)[i].letter == FieldNames(q)[i]
    ensures forall i, j :: 0 <= i < j < q.optionCount ==>
      AnswerButtons(q)[i].letter != AnswerButtons(q)[j].letter
      && AnswerButtons(q)[i].customId != AnswerButtons(q)[j].customId
  {
    forall i, j | 0 <= i < j < q.optionCount
      ensures AnswerButtons(q)[i].customId != AnswerButtons(q)[j].customId
    {
      if ButtonId(i) == ButtonId(j) {
        assert NatToString(i) == ButtonId(i)[7..];
        NatToStringInjective(i, j);
      }
    }
  }

  /** The text up to the first underscore. */
  function UpToUnderscore(s: string): (r: string)
    ensures r <= s
    decreases |s|
  {
    if s == [] || s[0] == '_' then [] else [s[0]] + UpToUnderscore(s[1..])
  }

  /** `s.split("_")[1]`: the text between the first and the second underscore (or
      the end), absent (`undefined`) when there is no underscore. */
  function SecondField(s: string): Option<string>
    decreases |s|
  {
    if s == [] then None
    else if s[0] == '_' then Some(UpToUnderscore(s[1..]))
    else SecondField(s[1..])
  }

  /** `parseInt(customId.split("_")[1])`, absent for NaN. */
  function ParseAnswer(customId: string): Option<nat> {
    var field := SecondField(customId);
    if field.None? then None else ParseInt(field.value)
  }

  lemma {:induction false} UpToUnderscoreOfDigits(s: string)
    requires forall i :: 0 <= i < |s| ==> IsDigit(s[i])
    ensures UpToUnderscore(s) == s
    decreases |s|
  {
    if s != [] {
      UpToUnderscoreOfDigits(s[1..]);
    }
  }

  /** Text without underscores in front of a string does not move its second field. */
  lemma {:induction false} SecondFieldSkips(prefix: string, rest: string)
    requires forall i :: 0 <= i < |prefix| ==> prefix[i] != '_'
    ensures SecondField(prefix + rest) == SecondField(rest)
    decreases |prefix|
  {
    if prefix != [] {
      assert (prefix + rest)[0] == prefix[0] != '_';
      assert (prefix + rest)[1..] == prefix[1..] + rest;
      SecondFieldSkips(prefix[1..], rest);
      assert SecondField(prefix + rest) == SecondField((prefix + rest)[1..]);
    } else {
      assert prefix + rest == rest;
    }
  }

  /** Parsing a button's id gives back its option index. */
  lemma ParseButtonId(i: nat)
    ensures ParseAnswer(ButtonId(i)) == Some(i)
  {
    var digits := NatToString(i);
    var id := ButtonId(i);
    assert id[7..] == digits;
    assert id == "answer" + id[6..];
    SecondFieldSkips("answer", id[6..]);
    UpToUnderscoreOfDigits(digits);
    ParseIntNatToString(i);
  }

  /** `selectedAnswer === question.correctAnswer` for the pressed button. */
  predicate IsCorrect(customId: string, q: BotQuestion) {
    var answer := ParseAnswer(customId);
    answer.Some? && answer.value == q.correctAnswer
  }

  /** Pressing the button of option i is reported correct exactly when i is the
      correct option. */
  lemma ButtonCorrectIff(q: BotQuestion, i: nat)
    ensures IsCorrect(ButtonId(i), q) <==> i == q.correctAnswer
  {
    ParseButtonId(i);
  }
}

=== FILE: bot_quizzes.dfy ===
/** The quiz bank of the Discord bot (discord-bot/src/data/quizzes.ts): ten
    four-option questions, a random quiz and a random question on a topic.
    Question, option and explanation texts are prose; a question keeps its id,
    topic, number of options and the index of its correct option. */
module BotQuizzes {
  import opened Common

  datatype BotQuestion = BotQuestion(id: string, topic: string, optionCount: nat, correctAnswer: int)

  /** The `quizQuestions` table. */
  const QuestionTable: seq<BotQuestion> := [
    BotQuestion("q1", "binary-search", 4, 1),
    BotQuestion("q2", "stack", 4, 1),
    BotQuestion("q3", "sorting", 4, 2),
    BotQuestion("q4", "tree", 4, 1),
    BotQuestion("q5", "sorting", 4, 2),
    BotQuestion("q6", "graph", 4, 1),
    BotQuestion("q7", "hash-table", 4, 0),
    BotQuestion("q8", "dynamic-programming", 4, 2),
    BotQuestion("q9", "tree", 4, 1),
    BotQuestion("q10", "heap", 4, 2)
  ]

  /** Ten questions with distinct ids, each with four options and a correct answer
      among them. */
  lemma QuestionTableShape()
    ensures |QuestionTable| == 10
    ensures forall i, j :: 0 <= i < j < |QuestionTable| ==> QuestionTable[i].id != QuestionTable[j].id
    ensures forall i :: 0 <= i < |QuestionTable| ==>
      QuestionTable[i].optionCount == 4 && 0 <= QuestionTable[i].correctAnswer < 4
  {
  }

  /** `getRandomQuiz(count = 5)`, given the shuffled copy of the bank:
      `min(count, 10)` different questions of the bank. */
  function GetRandomQuiz(shuffled: seq<BotQuestion>, count: int := 5): (r: seq<BotQuestion>)
    requires multiset(shuffled) == multiset(QuestionTable)
    ensures count >= 0 ==> |r| == if count < 10 then count else 10
    ensures forall q :: q in r ==> q in QuestionTable
    ensures Distinct(r)
  {
    QuestionTableShape();
    var r := Sample(QuestionTable, shuffled, count);
    assert forall q :: q in r ==> q in multiset(QuestionTable);
    assert Distinct(QuestionTable);
    SubMultisetDistinct(r, QuestionTable);
    r
  }

  /** `getQuizByTopic(topic)` for a random draw in [0, 1): a question on that topic,
      absent exactly when the bank has none. */
  function GetQuizByTopic(topic: string, draw: real): (r: Option<BotQuestion>)
    requires 0.0 <= draw < 1.0
    ensures r.None? <==> forall q :: q in QuestionTable ==> q.topic != topic
    ensures r.Some? ==> r.value in QuestionTable && r.value.topic == topic
  {
    Pick(Keep(QuestionTable, (q: BotQuestion) => q.topic == topic), draw)
  }
}

=== FILE: catalogue.dfy ===
/** The catalogue queries of the study site (src/data/index.ts) over its problem
    bank. The bank itself (src/data/problems.ts) is not part of this model: every
    query takes it as a parameter, and the facts that need distinct ids say so. */
module Catalogue {
  import opened Common
  import Topics

  datatype Difficulty = Easy | Medium | Hard

  datatype Hint = Hint(level: nat, content: string)

  /** A bank entry; links, complexities and companies are prose and left out. */
  datatype Problem = Problem(
    id: string,
    title: string,
    leetcodeId: Option<nat>,
    difficulty: Difficulty,
    topics: seq<string>,
    description: string,
    hints: seq<Hint>,
    patterns: seq<string>)

  /** `ProblemFilter`: each criterion is optional. */
  datatype ProblemFilter = ProblemFilter(
    difficulty: Option<Difficulty>,
    topics: Option<seq<string>>,
    search: Option<string>)

  predicate UniqueIds(bank: seq<Problem>) {
    forall i, j :: 0 <= i < j < |bank| ==> bank[i].id != bank[j].id
  }

  /** `getProblemById`: the first problem with that id. */
  function GetProblemById(bank: seq<Problem>, id: string): (r: Option<Problem>)
    ensures r.None? <==> forall k :: 0 <= k < |bank| ==> bank[k].id != id
    ensures r.Some? ==> r.value in bank && r.value.id == id
    ensures r.Some? ==>
      exists k :: 0 <= k < |bank| && bank[k] == r.value && forall j :: 0 <= j < k ==> bank[j].id != id
  {
    Find(bank, (p: Problem) => p.id == id)
  }

  /** With distinct ids, each problem is what its own id looks up. */
  lemma GetProblemByIdFindsEntry(bank: seq<Problem>, i: nat)
    requires UniqueIds(bank) && i < |bank|
    ensures GetProblemById(bank, bank[i].id) == Some(bank[i])
  {
    var r := GetProblemById(bank, bank[i].id);
    var k :| 0 <= k < |bank| && bank[k] == r.value && bank[k].id == bank[i].id;
  }

  // ---------------------------------------------------------------------------
  // filterProblems
  // ---------------------------------------------------------------------------

  /** Some topic of the filter is one of the problem's topics. */
  predicate SharesTopic(wanted: seq<string>, p: Problem) {
    exists k :: 0 <= k < |wanted| && wanted[k] in p.topics
  }

  /** The lower-cased query occurs in the lower-cased title, description or a pattern. */
  predicate TextMatches(query: string, p: Problem) {
    var q := Lower(query);
    Contains(Lower(p.title), q) || Contains(Lower(p.description), q)
    || exists k :: 0 <= k < |p.patterns| && Contains(Lower(p.patterns[k]), q)
  }

  /** A problem meets every criterion the filter supplies; an empty topic list or an
      empty search string supplies none. */
  predicate Matches(filter: ProblemFilter, p: Problem) {
    (filter.difficulty.Some? ==> p.difficulty == filter.difficulty.value)
    && (filter.topics.Some? && filter.topics.value != [] ==> SharesTopic(filter.topics.value, p))
    && (filter.search.Some? && filter.search.value != "" ==> TextMatches(filter.search.value, p))
  }

  /** One `result = result.filter(f)` step, taken only when its criterion is supplied. */
  function Stage(s: seq<Problem>, apply: bool, f: Problem -> bool): (r: seq<Problem>)
    ensures IsSubsequence(r, s)
    ensures forall x :: x in r <==> x in s && (apply ==> f(x))
  {
    if apply then Keep(s, f) else SubsequenceRefl(s); s
  }

  /** `filterProblems`: the three filters applied one after another. */
  function FilterProblems(bank: seq<Problem>, filter: ProblemFilter): (r: seq<Problem>)
    ensures IsSubsequence(r, bank)
    ensures forall x :: x in r <==> x in bank && Matches(filter, x)
  {
    var byDifficulty := Stage(bank, filter.difficulty.Some?,
      (p: Problem) => filter.difficulty.Some? && p.difficulty == filter.difficulty.value);
    var byTopics := Stage(byDifficulty, filter.topics.Some? && filter.topics.value != [],
      (p: Problem) => filter.topics.Some? && SharesTopic(filter.topics.value, p));
    var bySearch := Stage(byTopics, filter.search.Some? && filter.search.value != "",
      (p: Problem) => filter.search.Some? && TextMatches(filter.search.value, p));
    SubsequenceTransitive(byTopics, byDifficulty, bank);
    SubsequenceTransitive(bySearch, byTopics, bank);
    bySearch
  }

  /** An empty filter keeps the whole bank. */
  lemma EmptyFilterKeepsAll(bank: seq<Problem>, topics: Option<seq<string>>, search: Option<string>)
    requires topics.None? || topics == Some([])
    requires search.None? || search == Some("")
    ensures FilterProblems(bank, ProblemFilter(None, topics, search)) == bank
  {
  }

  lemma {:induction false} SubsequenceRefl<T>(s: seq<T>)
    ensures IsSubsequence(s, s)
    decreases |s|
  {
    if s != [] {
      SubsequenceRefl(s[1..]);
    }
  }

  /** A subsequence of the tail is a subsequence of the whole. */
  lemma {:induction false} SubsequenceOfTail<T>(a: seq<T>, c: seq<T>)
    requires c != [] && IsSubsequence(a, c[1..])
    ensures IsSubsequence(a, c)
    decreases |c|, 0
  {
    if a != [] && a[0] == c[0] {
      SubsequenceDropHead(a, c[1..]);
    }
  }

  /** Dropping the first element of a subsequence leaves a subsequence. */
  lemma {:induction false} SubsequenceDropHead<T>(a: seq<T>, c: seq<T>)
    requires a != [] && IsSubsequence(a, c)
    ensures IsSubsequence(a[1..], c)
    decreases |c|, 1
  {
    if a[0] == c[0] {
      SubsequenceOfTail(a[1..], c);
    } else {
      SubsequenceDropHead(a, c[1..]);
      SubsequenceOfTail(a[1..], c);
    }
  }

  /** A subsequence of a subsequence is a subsequence. */
  lemma {:induction false} SubsequenceTransitive<T>(a: seq<T>, b: seq<T>, c: seq<T>)
    requires IsSubsequence(a, b) && IsSubsequence(b, c)
    ensures IsSubsequence(a, c)
    decreases |c|
  {
    if a != [] {
      assert b != [] && c != [];
      if b[0] == c[0] {
        if a[0] == b[0] {
          SubsequenceTransitive(a[1..], b[1..], c[1..]);
        } else {
          SubsequenceTransitive(a, b[1..], c[1..]);
        }
      } else {
        SubsequenceTransitive(a, b, c[1..]);
        if a[0] == c[0] {
          SubsequenceDropHead(a, c[1..]);
        }
      }
    }
  }

  // ---------------------------------------------------------------------------
  // getRandomProblem, getDailyProblem, getHintForProblem
  // ---------------------------------------------------------------------------

  /** `getRandomProblem(difficulty?)` for a random draw in [0, 1). */
  function GetRandomProblem(bank: seq<Problem>, difficulty: Option<Difficulty>, draw: real): (r: Option<Problem>)
    requires 0.0 <= draw < 1.0
    ensures r.Some? ==> r.value in bank
    ensures r.Some? && difficulty.Some? ==> r.value.difficulty == difficulty.value
    ensures r.None? <==>
      forall p :: p in bank ==> difficulty.Some? && p.difficulty != difficulty.value
  {
    var pool := if difficulty.Some? then Keep(bank, (p: Problem) => p.difficulty == difficulty.value) else bank;
    Pick(pool, draw)
  }

  /** `getDailyProblem`: the problem at the day of the year modulo the bank size
      (absent, as `undefined`, for an empty bank). */
  function GetDailyProblem(bank: seq<Problem>, dayOfYear: nat): (r: Option<Problem>)
    ensures r.None? <==> bank == []
    ensures r.Some? ==> r.value in bank
  {
    if bank == [] then None else Some(bank[dayOfYear % |bank|])
  }

  /** The daily problem walks the bank in order, one problem a day, and comes back
      to the same problem after as many days as the bank has problems. */
  lemma DailyProblemRotates(bank: seq<Problem>, day: nat, k: nat)
    requires bank != []
    ensures GetDailyProblem(bank, day + |bank|) == GetDailyProblem(bank, day)
    ensures k < |bank| ==>
      GetDailyProblem(bank, (day / |bank|) * |bank| + k) == Some(bank[k])
  {
    var n := |bank|;
    ModUnique(day + n, n, day / n + 1, day % n);
    if k < n {
      ModUnique((day / n) * n + k, n, day / n, k);
    }
  }

  /** `getHintForProblem`: absent for an unknown problem; otherwise the content of
      the problem's first hint at that level, absent when it has none. */
  function GetHintForProblem(bank: seq<Problem>, problemId: string, level: nat): (r: Option<string>)
    ensures GetProblemById(bank, problemId).None? ==> r.None?
    ensures r.Some? ==>
      exists k :: 0 <= k < |GetProblemById(bank, problemId).value.hints|
        && GetProblemById(bank, problemId).value.hints[k] == Hint(level, r.value)
        && forall j :: 0 <= j < k ==> GetProblemById(bank, problemId).value.hints[j].level != level
    ensures GetProblemById(bank, problemId).Some? && r.None? ==>
      forall h :: h in GetProblemById(bank, problemId).value.hints ==> h.level != level
  {
    var problem := GetProblemById(bank, problemId);
    if problem.None? then None
    else
      var hint := Find(problem.value.hints, (h: Hint) => h.level == level);
      if hint.Some? then Some(hint.value.content) else None
  }

  // ---------------------------------------------------------------------------
  // getRelatedProblems, searchProblems
  // ---------------------------------------------------------------------------

  datatype Scored = Scored(problem: Problem, score: int)

  function ScoreOf(s: Scored): int { s.score }

  function Problems(s: seq<Scored>): (r: seq<Problem>)
    ensures |r| == |s| && forall i :: 0 <= i < |s| ==> r[i] == s[i].problem
    ensures forall y :: y in s ==> y.problem in r
    ensures forall x :: x in r ==> exists y :: y in s && y.problem == x
  {
    var r := seq(|s|, i requires 0 <= i < |s| => s[i].problem);
    assert forall y :: y in s ==> y.problem in r by {
      forall y | y in s ensures y.problem in r {
        var i :| 0 <= i < |s| && s[i] == y;
        assert r[i] == y.problem;
      }
    }
    r
  }

  /** How close `p` is to `q`: the topics of `p` that `q` also lists, plus one for
      the same difficulty. */
  function RelatedScore(p: Problem, q: Problem): (s: nat)
    ensures s <= |p.topics| + 1
    ensures s == 0 <==> p.difficulty != q.difficulty && forall t :: t in p.topics ==> t !in q.topics
  {
    Count(p.topics, (t: string) => t in q.topics) + (if p.difficulty == q.difficulty then 1 else 0)
  }

  function ScoreRelated(cands: seq<Problem>, q: Problem): (r: seq<Scored>)
    ensures forall x :: x in r ==> x.problem in cands && x.score == RelatedScore(x.problem, q)
  {
    seq(|cands|, i requires 0 <= i < |cands| => Scored(cands[i], RelatedScore(cands[i], q)))
  }

  /** The bank without the problem asked about. */
  function Others(bank: seq<Problem>, problemId: string): (r: seq<Problem>)
    ensures forall x :: x in r <==> x in bank && x.id != problemId
  {
    Keep(bank, (p: Problem) => p.id != problemId)
  }

  /** The candidates ranked by closeness to `q`, best first, cut to `limit`: the
      closest `limit` candidates, each taken at most as often as it occurs, and
      no candidate left out is closer than one kept. */
  function RankRelated(cands: seq<Problem>, q: Problem, limit: int): (r: seq<Problem>)
    ensures forall x :: x in r ==> x in cands
    ensures multiset(r) <= multiset(cands)
    ensures limit >= 0 ==> |r| == if limit < |cands| then limit else |cands|
    ensures forall i, j :: 0 <= i < j < |r| ==> RelatedScore(r[i], q) >= RelatedScore(r[j], q)
    ensures forall x, i :: x in multiset(cands) - multiset(r) && 0 <= i < |r| ==>
      RelatedScore(x, q) <= RelatedScore(r[i], q)
    ensures TiesFirst(r, cands, RelatedKey(q))
  {
    var scored := ScoreRelated(cands, q);
    var sorted := SortDesc(scored, ScoreOf);
    var top := SliceTo(sorted, limit);
    CutFacts(cands, q, scored, sorted, top);
    CutTiesFirst(cands, q, sorted, top);
    Problems(top)
  }

  /** Closeness to `q` as a key. */
  function RelatedKey(q: Problem): (Problem -> int) {
    (p: Problem) => RelatedScore(p, q)
  }

  /** Ties keep candidate order: for every score, the kept problems of that
      score are the first candidates of that score. */
  lemma CutStable(cands: seq<Problem>, f: Problem -> int, scored: seq<Scored>, sorted: seq<Scored>, top: seq<Scored>)
    requires Carries(scored, f) && Problems(scored) == cands
    requires sorted == SortDesc(scored, ScoreOf) && top <= sorted
    ensures TiesFirst(Problems(top), cands, f)
  {
    CarriesPermute(sorted, scored, f);
    CarriesPrefix(top, sorted, f);
    forall k ensures WithKey(Problems(top), f, k) <= WithKey(cands, f, k) {
      ProblemsWithKey(top, f, k);
      WithKeyPrefix(top, sorted, ScoreOf, k);
      SortDescStable(scored, ScoreOf, k);
      ProblemsPrefix(WithKey(top, ScoreOf, k), WithKey(scored, ScoreOf, k));
      ProblemsWithKey(scored, f, k);
    }
  }

  /** The cut ranking of the candidates by closeness keeps their order on ties. */
  lemma CutTiesFirst(cands: seq<Problem>, q: Problem, sorted: seq<Scored>, top: seq<Scored>)
    requires sorted == SortDesc(ScoreRelated(cands, q), ScoreOf) && top <= sorted
    ensures TiesFirst(Problems(top), cands, RelatedKey(q))
  {
    ScoreRelatedCarries(cands, q);
    CutStable(cands, RelatedKey(q), ScoreRelated(cands, q), sorted, top);
  }

  /** Scoring the candidates pairs each with its closeness, in candidate order. */
  lemma ScoreRelatedCarries(cands: seq<Problem>, q: Problem)
    ensures Carries(ScoreRelated(cands, q), RelatedKey(q))
    ensures Problems(ScoreRelated(cands, q)) == cands
  {
  }

  lemma CarriesPermute(s: seq<Scored>, t: seq<Scored>, f: Problem -> int)
    requires multiset(s) == multiset(t) && Carries(t, f)
    ensures Carries(s, f)
  {
    forall i | 0 <= i < |s| ensures s[i].score == f(s[i].problem) {
      assert s[i] in multiset(t);
      var j :| 0 <= j < |t| && t[j] == s[i];
    }
  }

  lemma CarriesPrefix(a: seq<Scored>, b: seq<Scored>, f: Problem -> int)
    requires a <= b && Carries(b, f)
    ensures Carries(a, f)
  {
    forall i | 0 <= i < |a| ensures a[i].score == f(a[i].problem) {
      assert a[i] == b[i];
    }
  }

  /** Every entry of `s` carries the score `f` gives its problem. */
  predicate Carries(s: seq<Scored>, f: Problem -> int) {
    forall i :: 0 <= i < |s| ==> s[i].score == f(s[i].problem)
  }

  /** Projecting scored entries commutes with taking one score, when each entry
      carries the score `f` gives its problem. */
  lemma {:induction false} ProblemsWithKey(s: seq<Scored>, f: Problem -> int, k: int)
    requires Carries(s, f)
    ensures Problems(WithKey(s, ScoreOf, k)) == WithKey(Problems(s), f, k)
    decreases |s|
  {
    if s != [] {
      assert s[0].score == f(s[0].problem);
      assert Carries(s[1..], f) by {
        forall i | 0 <= i < |s| - 1 ensures s[1..][i].score == f(s[1..][i].problem) {
          assert s[1..][i] == s[i + 1];
        }
      }
      ProblemsWithKey(s[1..], f, k);
      assert Problems(s)[0] == s[0].problem && Problems(s)[1..] == Problems(s[1..]);
      ProblemsAppend(if ScoreOf(s[0]) == k then [s[0]] else [], WithKey(s[1..], ScoreOf, k));
    }
  }

  lemma ProblemsPrefix(a: seq<Scored>, b: seq<Scored>)
    requires a <= b
    ensures Problems(a) <= Problems(b)
  {
    assert b == a + b[|a|..];
    ProblemsAppend(a, b[|a|..]);
  }

  /** The problems of a prefix of a ranking of all scored candidates: taken from
      the candidates without repetition, best first, and closer than every
      candidate left out. */
  lemma CutFacts(cands: seq<Problem>, q: Problem, scored: seq<Scored>, sorted: seq<Scored>, top: seq<Scored>)
    requires scored == ScoreRelated(cands, q)
    requires multiset(sorted) == multiset(scored) && NonIncreasing(sorted, ScoreOf)
    requires top <= sorted
    ensures var r := Problems(top);
      (forall x :: x in r ==> x in cands)
      && multiset(r) <= multiset(cands)
      && (forall i, j :: 0 <= i < j < |r| ==> RelatedScore(r[i], q) >= RelatedScore(r[j], q))
      && forall x, i :: x in multiset(cands) - multiset(r) && 0 <= i < |r| ==>
        RelatedScore(x, q) <= RelatedScore(r[i], q)
  {
    var rest := sorted[|top|..];
    assert top == sorted[..|top|];
    CutPartition(cands, q, scored, sorted, top);
    assert forall x :: x in sorted ==> x.score == RelatedScore(x.problem, q) by {
      forall x | x in sorted ensures x.score == RelatedScore(x.problem, q) {
        assert x in multiset(scored);
      }
    }
    forall i, j | 0 <= i < j < |top|
      ensures RelatedScore(Problems(top)[i], q) >= RelatedScore(Problems(top)[j], q)
    {
      assert top[i] == sorted[i] && top[j] == sorted[j];
    }
    CutKeepsClosest(sorted, q, |top|);
    DroppedAreRest(Problems(top), Problems(rest), cands);
    forall x | x in Problems(top) ensures x in cands {
      assert x in multiset(Problems(top));
    }
  }

  /** The kept and the dropped problems of a cut ranking are the candidates. */
  lemma CutPartition(cands: seq<Problem>, q: Problem, scored: seq<Scored>, sorted: seq<Scored>, top: seq<Scored>)
    requires scored == ScoreRelated(cands, q)
    requires multiset(sorted) == multiset(scored)
    requires top <= sorted
    ensures multiset(cands) == multiset(Problems(top)) + multiset(Problems(sorted[|top|..]))
  {
    var rest := sorted[|top|..];
    assert sorted == top + rest;
    assert Problems(scored) == cands;
    ProblemsPermute(sorted, scored);
    ProblemsAppend(top, rest);
  }

  /** A ranking cut after `n` entries: every dropped problem scores no higher
      than every kept one. */
  lemma CutKeepsClosest(sorted: seq<Scored>, q: Problem, n: nat)
    requires n <= |sorted|
    requires NonIncreasing(sorted, ScoreOf)
    requires forall x :: x in sorted ==> x.score == RelatedScore(x.problem, q)
    ensures forall x, i :: x in Problems(sorted[n..]) && 0 <= i < n ==>
      RelatedScore(x, q) <= RelatedScore(Problems(sorted[..n])[i], q)
  {
    forall x, i | x in Problems(sorted[n..]) && 0 <= i < n
      ensures RelatedScore(x, q) <= RelatedScore(Problems(sorted[..n])[i], q)
    {
      var k :| 0 <= k < |sorted| - n && Problems(sorted[n..])[k] == x;
      assert sorted[n..][k] == sorted[n + k] && sorted[..n][i] == sorted[i];
      assert ScoreOf(sorted[i]) >= ScoreOf(sorted[n + k]);
    }
  }

  /** What a split leaves out of the whole is the second part. */
  lemma DroppedAreRest(kept: seq<Problem>, rest: seq<Problem>, all: seq<Problem>)
    requires multiset(all) == multiset(kept) + multiset(rest)
    ensures multiset(kept) <= multiset(all)
    ensures forall x :: x in multiset(all) - multiset(kept) ==> x in rest
  {
    assert multiset(all) - multiset(kept) == multiset(rest);
  }

  lemma ProblemsAppend(a: seq<Scored>, b: seq<Scored>)
    ensures Problems(a + b) == Problems(a) + Problems(b)
  {
  }

  /** Reordering scored entries reorders their problems the same way. */
  lemma {:induction false} ProblemsPermute(s: seq<Scored>, t: seq<Scored>)
    requires multiset(s) == multiset(t)
    ensures multiset(Problems(s)) == multiset(Problems(t))
    decreases |s|
  {
    if s != [] {
      var x := s[0];
      assert x in multiset(t);
      var k :| 0 <= k < |t| && t[k] == x;
      var t' := t[..k] + t[k + 1..];
      assert t == t[..k] + [x] + t[k + 1..];
      assert multiset(s[1..]) == multiset(t') by {
        assert s == [x] + s[1..];
        assert multiset(t) == multiset(t[..k]) + multiset{x} + multiset(t[k + 1..]);
        assert multiset(t') == multiset(t[..k]) + multiset(t[k + 1..]);
        assert multiset(s) == multiset{x} + multiset(s[1..]);
        assert multiset(s[1..]) == multiset(s) - multiset{x};
        assert multiset(t') == multiset(t) - multiset{x};
      }
      ProblemsPermute(s[1..], t');
      assert s == [x] + s[1..];
      ProblemsAppend([x], s[1..]);
      ProblemsAppend(t[..k] + [x], t[k + 1..]);
      ProblemsAppend(t[..k], [x]);
      ProblemsAppend(t[..k], t[k + 1..]);
    }
  }

  /** `getRelatedProblems(problemId, limit = 3)`: none for an unknown problem;
      otherwise the other problems ranked by closeness, the first `limit`. */
  function GetRelatedProblems(bank: seq<Problem>, problemId: string, limit: int := 3): (r: seq<Problem>)
    ensures GetProblemById(bank, problemId).None? ==> r == []
    ensures forall x :: x in r ==> x in bank && x.id != problemId
    ensures limit >= 0 ==> |r| <= limit
    ensures GetProblemById(bank, problemId).Some? ==>
      var q := GetProblemById(bank, problemId).value;
      forall i, j :: 0 <= i < j < |r| ==> RelatedScore(r[i], q) >= RelatedScore(r[j], q)
    ensures GetProblemById(bank, problemId).Some? && limit >= 0 ==>
      |r| == if limit < |Others(bank, problemId)| then limit else |Others(bank, problemId)|
    ensures GetProblemById(bank, problemId).Some? ==> multiset(r) <= multiset(Others(bank, problemId))
    ensures GetProblemById(bank, problemId).Some? ==>
      var q := GetProblemById(bank, problemId).value;
      forall x, i :: x in multiset(Others(bank, problemId)) - multiset(r) && 0 <= i < |r| ==>
        RelatedScore(x, q) <= RelatedScore(r[i], q)
    ensures GetProblemById(bank, problemId).Some? ==>
      var q := GetProblemById(bank, problemId).value;
      TiesFirst(r, Others(bank, problemId), RelatedKey(q))
  {
    var problem := GetProblemById(bank, problemId);
    if problem.None? then [] else RankRelated(Others(bank, problemId), problem.value, limit)
  }

  /** The ranking of the positive scores holds exactly the positively scored entries. */
  lemma RankedHits(scored: seq<Scored>)
    ensures var ranked := SortDesc(Keep(scored, Positive), ScoreOf);
      forall x :: x in ranked <==> x in scored && x.score > 0
  {
    var hits := Keep(scored, Positive);
    var ranked := SortDesc(hits, ScoreOf);
    forall x ensures x in ranked <==> x in hits {
      assert x in ranked <==> x in multiset(ranked);
      assert x in hits <==> x in multiset(hits);
    }
  }

  /** The points `searchProblems` gives a problem: 10 for the title, 5 for the
      description (both lower-cased), 3 for a topic slug and 2 for a pattern (as
      stored) containing the lower-cased query, and 15 when the query is exactly
      the problem's LeetCode number. */
  function SearchScore(p: Problem, query: string): (s: nat)
    ensures s <= 35
    ensures s > 0 <==>
      Contains(Lower(p.title), Lower(query)) || Contains(Lower(p.description), Lower(query))
      || (exists t :: t in p.topics && Contains(t, Lower(query)))
      || (exists t :: t in p.patterns && Contains(t, Lower(query)))
      || (p.leetcodeId.Some? && NatToString(p.leetcodeId.value) == query)
  {
    var q := Lower(query);
    (if Contains(Lower(p.title), q) then 10 else 0)
    + (if Contains(Lower(p.description), q) then 5 else 0)
    + (if exists t :: t in p.topics && Contains(t, q) then 3 else 0)
    + (if exists t :: t in p.patterns && Contains(t, q) then 2 else 0)
    + (if p.leetcodeId.Some? && NatToString(p.leetcodeId.value) == query then 15 else 0)
  }

  /** A problem found by its LeetCode number scores at least 15; no other query
      string earns those points. */
  lemma LeetCodeNumberScores(p: Problem, n: nat, query: string)
    requires p.leetcodeId == Some(n)
    ensures query == NatToString(n) ==> SearchScore(p, query) >= 15
    ensures query != NatToString(n) ==> SearchScore(p, query) <= 20
  {
  }

  function ScoreSearch(bank: seq<Problem>, query: string): (r: seq<Scored>)
    ensures forall x :: x in r ==> x.problem in bank && x.score == SearchScore(x.problem, query)
    ensures forall p :: p in bank ==> Scored(p, SearchScore(p, query)) in r
  {
    var r := seq(|bank|, i requires 0 <= i < |bank| => Scored(bank[i], SearchScore(bank[i], query)));
    assert forall p :: p in bank ==> Scored(p, SearchScore(p, query)) in r by {
      forall p | p in bank ensures Scored(p, SearchScore(p, query)) in r {
        var i :| 0 <= i < |bank| && bank[i] == p;
        assert r[i] == Scored(p, SearchScore(p, query));
      }
    }
    r
  }

  function Positive(s: Scored): bool { s.score > 0 }

  /** Search score as a key, and scoring at all as a filter. */
  function SearchKey(query: string): (Problem -> int) {
    (p: Problem) => SearchScore(p, query)
  }

  function SearchHit(query: string): (Problem -> bool) {
    (p: Problem) => SearchScore(p, query) > 0
  }

  /** Every problem that scores, highest score first: a permutation of the
      problems that score, in which problems of equal score keep bank order. */
  function RankBySearch(bank: seq<Problem>, query: string): (r: seq<Problem>)
    ensures forall x :: x in r ==> x in bank && SearchScore(x, query) > 0
    ensures forall x :: x in bank && SearchScore(x, query) > 0 ==> x in r
    ensures multiset(r) == multiset(Keep(bank, SearchHit(query)))
    ensures forall i, j :: 0 <= i < j < |r| ==> SearchScore(r[i], query) >= SearchScore(r[j], query)
    ensures forall k :: k > 0 ==> WithKey(r, SearchKey(query), k) == WithKey(bank, SearchKey(query), k)
  {
    var scored := ScoreSearch(bank, query);
    var ranked := SortDesc(Keep(scored, Positive), ScoreOf);
    RankedHits(scored);
    HitsFacts(bank, query);
    Problems(ranked)
  }

  /** The multiset and the tie order of the ranked hits. */
  lemma HitsFacts(bank: seq<Problem>, query: string)
    ensures var r := Problems(SortDesc(Keep(ScoreSearch(bank, query), Positive), ScoreOf));
      multiset(r) == multiset(Keep(bank, SearchHit(query)))
      && forall k :: k > 0 ==> WithKey(r, SearchKey(query), k) == WithKey(bank, SearchKey(query), k)
  {
    var scored := ScoreSearch(bank, query);
    var hits := Keep(scored, Positive);
    var ranked := SortDesc(hits, ScoreOf);
    var f := SearchKey(query);
    assert Problems(scored) == bank;
    assert Carries(scored, f);
    assert Carries(ranked, f) by {
      forall i | 0 <= i < |ranked| ensures ranked[i].score == f(ranked[i].problem) {
        assert ranked[i] in multiset(hits);
      }
    }
    ProblemsPermute(ranked, hits);
    assert forall p :: SearchHit(query)(p) == (f(p) > 0);
    ProblemsKeepPositive(scored, f, SearchHit(query));
    forall k | k > 0 ensures WithKey(Problems(ranked), f, k) == WithKey(bank, f, k) {
      ProblemsWithKey(ranked, f, k);
      SortDescStable(hits, ScoreOf, k);
      KeepPositiveWithKey(scored, k);
      ProblemsWithKey(scored, f, k);
    }
  }

  /** Keeping the scoring entries and projecting is keeping the scoring problems,
      when each entry carries the score `f` gives its problem. */
  lemma {:induction false} ProblemsKeepPositive(s: seq<Scored>, f: Problem -> int, hit: Problem -> bool)
    requires Carries(s, f)
    requires forall p :: hit(p) == (f(p) > 0)
    ensures Problems(Keep(s, Positive)) == Keep(Problems(s), hit)
    decreases |s|
  {
    if s != [] {
      assert s[0].score == f(s[0].problem);
      assert Carries(s[1..], f) by {
        forall i | 0 <= i < |s| - 1 ensures s[1..][i].score == f(s[1..][i].problem) {
          assert s[1..][i] == s[i + 1];
        }
      }
      ProblemsKeepPositive(s[1..], f, hit);
      var ps := Problems(s);
      assert ps[0] == s[0].problem && ps[1..] == Problems(s[1..]);
      assert hit(ps[0]) == Positive(s[0]);
      if Positive(s[0]) {
        assert Keep(ps, hit) == [ps[0]] + Keep(ps[1..], hit);
        assert Keep(s, Positive) == [s[0]] + Keep(s[1..], Positive);
        ProblemsAppend([s[0]], Keep(s[1..], Positive));
      } else {
        assert Keep(ps, hit) == Keep(ps[1..], hit);
        assert Keep(s, Positive) == Keep(s[1..], Positive);
      }
    }
  }

  /** A positive score is kept by the filter on positive scores. */
  lemma {:induction false} KeepPositiveWithKey(s: seq<Scored>, k: int)
    requires k > 0
    ensures WithKey(Keep(s, Positive), ScoreOf, k) == WithKey(s, ScoreOf, k)
    decreases |s|
  {
    if s != [] {
      KeepPositiveWithKey(s[1..], k);
      if Positive(s[0]) {
        assert ([s[0]] + Keep(s[1..], Positive))[0] == s[0];
        assert ([s[0]] + Keep(s[1..], Positive))[1..] == Keep(s[1..], Positive);
      }
    }
  }

  /** `searchProblems(query)`: nothing for a blank query; otherwise every problem
      that scores, highest score first, ties in bank order. */
  function SearchProblems(bank: seq<Problem>, query: string): (r: seq<Problem>)
    ensures Blank(query) ==> r == []
    ensures forall x :: x in r ==> x in bank && SearchScore(x, query) > 0
    ensures !Blank(query) ==> forall x :: x in bank && SearchScore(x, query) > 0 ==> x in r
    ensures !Blank(query) ==> multiset(r) == multiset(Keep(bank, SearchHit(query)))
    ensures forall i, j :: 0 <= i < j < |r| ==> SearchScore(r[i], query) >= SearchScore(r[j], query)
    ensures !Blank(query) ==> forall k :: k > 0 ==> WithKey(r, SearchKey(query), k) == WithKey(bank, SearchKey(query), k)
  {
    if Blank(query) then [] else RankBySearch(bank, query)
  }

  // ---------------------------------------------------------------------------
  // getTopicStats
  // ---------------------------------------------------------------------------

  datatype TopicCount = TopicCount(slug: string, name: string, count: nat)

  /** The number of problems tagged with a topic. */
  function TaggedCount(bank: seq<Problem>, slug: string): (n: nat)
    ensures n <= |bank|
    ensures n > 0 <==> exists p :: p in bank && slug in p.topics
  {
    Count(bank, (p: Problem) => slug in p.topics)
  }

  function CountTopics(table: seq<Topics.Topic>, bank: seq<Problem>): (r: seq<TopicCount>)
    ensures |r| == |table|
    ensures forall i :: 0 <= i < |r| ==>
      r[i] == TopicCount(table[i].slug, table[i].name, TaggedCount(bank, table[i].slug))
  {
    seq(|table|, i requires 0 <= i < |table| =>
      TopicCount(table[i].slug, table[i].name, TaggedCount(bank, table[i].slug)))
  }

  /** In table order, exactly the topics some problem is tagged with, each with its
      number of problems. */
  function TopicStatsOf(table: seq<Topics.Topic>, bank: seq<Problem>): (r: seq<TopicCount>)
    ensures IsSubsequence(r, CountTopics(table, bank))
    ensures forall x :: x in r ==> x.count > 0 && x.count == TaggedCount(bank, x.slug)
    ensures forall t :: t in table && (exists p :: p in bank && t.slug in p.topics) ==>
      TopicCount(t.slug, t.name, TaggedCount(bank, t.slug)) in r
  {
    var all := CountTopics(table, bank);
    assert forall t :: t in table ==> TopicCount(t.slug, t.name, TaggedCount(bank, t.slug)) in all by {
      forall t | t in table ensures TopicCount(t.slug, t.name, TaggedCount(bank, t.slug)) in all {
        var k :| 0 <= k < |table| && table[k] == t;
        assert all[k] == TopicCount(t.slug, t.name, TaggedCount(bank, t.slug));
      }
    }
    Keep(all, (t: TopicCount) => t.count > 0)
  }

  /** `getTopicStats` over the topic table. */
  function GetTopicStats(bank: seq<Problem>): (r: seq<TopicCount>)
    ensures IsSubsequence(r, CountTopics(Topics.TopicTable, bank))
    ensures forall x :: x in r ==> x.count > 0 && x.count == TaggedCount(bank, x.slug)
    ensures forall t :: t in Topics.TopicTable && (exists p :: p in bank && t.slug in p.topics) ==>
      TopicCount(t.slug, t.name, TaggedCount(bank, t.slug)) in r
  {
    TopicStatsOf(Topics.TopicTable, bank)
  }
}

=== FILE: common.dfy ===
/** Shared vocabulary of the model: optional values, ordering predicates, the
    percentage rounding used by every "Math.round(x / y * 100)" in the
    application, ASCII text helpers standing in for the JavaScript string
    built-ins, and the array built-ins (filter, slice, sort) the code chains. */
module Common {

  datatype Option<T> = None | Some(value: T)

  // ---------------------------------------------------------------------------
  // Ordering
  // ---------------------------------------------------------------------------

  /** Ascending order, as the sorting algorithms and the searches understand it. */
  predicate Sorted(s: seq<int>) {
    forall i, j :: 0 <= i < j < |s| ==> s[i] <= s[j]
  }

  /** Every value of `s` is at most every value of `t`. */
  predicate AllLeq(s: seq<int>, t: seq<int>) {
    forall i, j :: 0 <= i < |s| && 0 <= j < |t| ==> s[i] <= t[j]
  }

  /** The index list `[lo, lo + 1, ..., hi - 1]` (`Array.from({length}, (_, i) => lo + i)`). */
  function Range(lo: int, hi: int): (r: seq<int>)
    ensures |r| == if lo <= hi then hi - lo else 0
    ensures forall k :: 0 <= k < |r| ==> r[k] == lo + k
  {
    if lo >= hi then [] else seq(hi - lo, k => lo + k)
  }

  // ---------------------------------------------------------------------------
  // Math.round(100 * num / den)
  // ---------------------------------------------------------------------------

  /** `Math.round((num / den) * 100)` on exact rationals: the integer r with
      r - 1/2 <= 100·num/den < r + 1/2 (nearest integer, halves rounded up),
      stated below multiplied out by 2·den. */
  function RoundPercent(num: nat, den: nat): (r: nat)
    requires den > 0
    ensures den * (2 * r - 1) <= 200 * num < den * (2 * r + 1)
    ensures num <= den ==> r <= 100
    ensures num == 0 ==> r == 0
    ensures num == den ==> r == 100
  {
    var r := (200 * num + den) / (2 * den);
    RoundPercentBounds(num, den, r);
    r
  }

  /** The nearest-integer bounds pick out one integer only, so `RoundPercent` is
      the only rounding of 100·num/den that meets them. */
  lemma {:induction false} RoundPercentUnique(num: nat, den: nat, r: int)
    requires den > 0
    requires den * (2 * r - 1) <= 200 * num < den * (2 * r + 1)
    ensures r == RoundPercent(num, den)
  {
    var q: int := RoundPercent(num, den);
    var n: int := 200 * num;
    assert den * (2 * q - 1) <= n < den * (2 * q + 1);
    if r < q {
      ScaleMonotone(den, 2 * r + 1, 2 * q - 1);
    } else if r > q {
      ScaleMonotone(den, 2 * q + 1, 2 * r - 1);
    }
  }

  lemma ScaleMonotone(k: nat, a: int, b: int)
    requires a <= b
    ensures k * a <= k * b
  {
    assert k * b - k * a == k * (b - a);
  }

  lemma RoundPercentBounds(num: nat, den: nat, r: nat)
    requires den > 0 && r == (200 * num + den) / (2 * den)
    ensures den * (2 * r - 1) <= 200 * num < den * (2 * r + 1)
    ensures num <= den ==> r <= 100
    ensures num == 0 ==> r == 0
    ensures num == den ==> r == 100
  {
    var q, m := 200 * num + den, 2 * den;
    var rem := q % m;
    assert q == r * m + rem && 0 <= rem < m;
    assert den * (2 * r - 1) == r * m - den;
    assert den * (2 * r + 1) == r * m + den;
    if num <= den {
      assert r * m < 101 * m;
      MulCancel(r, 101, m);
    }
    if num == 0 {
      assert r * m < 1 * m;
      MulCancel(r, 1, m);
    }
    if num == den {
      assert q == 100 * m + den;
      assert 99 * m < r * m < 101 * m;
      MulCancel(99, r, m);
      MulCancel(r, 101, m);
    }
  }

  lemma MulCancel(a: int, b: int, m: int)
    requires m > 0 && a * m < b * m
    ensures a < b
  {
    assert (b - a) * m == b * m - a * m;
  }

  // ---------------------------------------------------------------------------
  // Text: lower-casing, substrings, whitespace, decimal numerals
  // ---------------------------------------------------------------------------

  /** `toLowerCase` on one character (ASCII letters only). */
  function LowerChar(c: char): (d: char)
    ensures !('A' <= d <= 'Z')
    ensures !('A' <= c <= 'Z') ==> d == c
  {
    if 'A' <= c <= 'Z' then (c as int + 32) as char else c
  }

  /** `String.prototype.toLowerCase` (ASCII letters only). */
  function Lower(s: string): (r: string)
    ensures |r| == |s|
    ensures forall i :: 0 <= i < |s| ==> r[i] == LowerChar(s[i])
  {
    seq(|s|, i requires 0 <= i < |s| => LowerChar(s[i]))
  }

  lemma LowerIdempotent(s: string)
    ensures Lower(Lower(s)) == Lower(s)
  {
    forall i | 0 <= i < |s| ensures Lower(Lower(s))[i] == Lower(s)[i] {
      assert LowerChar(LowerChar(s[i])) == LowerChar(s[i]);
    }
  }

  /** `sub` occurs in `s` starting at position `i`. */
  predicate OccursAt(s: string, sub: string, i: int) {
    0 <= i && i + |sub| <= |s| && s[i..i + |sub|] == sub
  }

  /** `s.includes(sub)`: `sub` occurs in `s` (the empty string occurs everywhere). */
  predicate Contains(s: string, sub: string)
    decreases |s|
  {
    sub <= s || (|s| > 0 && Contains(s[1..], sub))
  }

  /** The recursive search agrees with the positional reading of `includes`. */
  lemma {:induction false} ContainsIff(s: string, sub: string)
    ensures Contains(s, sub) <==> exists i :: OccursAt(s, sub, i)
    decreases |s|
  {
    if sub <= s {
      assert OccursAt(s, sub, 0);
    } else if |s| > 0 {
      ContainsIff(s[1..], sub);
      if Contains(s[1..], sub) {
        var i :| OccursAt(s[1..], sub, i);
        ShiftOccurrence(s, sub, i + 1);
      } else if i :| OccursAt(s, sub, i) && i > 0 {
        ShiftOccurrence(s, sub, i);
      }
    }
  }

  /** An occurrence past the first character is one in the rest of the string. */
  lemma ShiftOccurrence(s: string, sub: string, i: int)
    requires 0 < i && |s| > 0
    ensures OccursAt(s, sub, i) <==> OccursAt(s[1..], sub, i - 1)
  {
    if i + |sub| <= |s| {
      assert s[i..i + |sub|] == s[1..][i - 1..i - 1 + |sub|];
    }
  }

  /** Characters removed by `String.prototype.trim` (ASCII subset). */
  predicate IsWhitespace(c: char) {
    c == ' ' || c == '\t' || c == '\n' || c == '\r' || c == '\U{B}' || c == '\U{C}'
  }

  /** `!s.trim()`: the string is empty once leading and trailing whitespace is removed. */
  predicate Blank(s: string) {
    forall i :: 0 <= i < |s| ==> IsWhitespace(s[i])
  }

  predicate IsDigit(c: char) { '0' <= c <= '9' }

  function DigitChar(d: nat): (c: char)
    requires d < 10
    ensures IsDigit(c) && c as int - '0' as int == d
  {
    ('0' as int + d) as char
  }

  /** `n.toString()` for a non-negative integer. */
  function NatToString(n: nat): (s: string)
    ensures |s| > 0
    ensures forall i :: 0 <= i < |s| ==> IsDigit(s[i])
    decreases n
  {
    if n < 10 then [DigitChar(n)] else NatToString(n / 10) + [DigitChar(n % 10)]
  }

  /** The value of a string of decimal digits, read left to right. */
  function DigitsValue(s: string): nat
    requires forall i :: 0 <= i < |s| ==> IsDigit(s[i])
    decreases |s|
  {
    if s == [] then 0
    else
      assert IsDigit(s[|s| - 1]);
      DigitsValue(s[..|s| - 1]) * 10 + (s[|s| - 1] as int - '0' as int)
  }

  /** The longest prefix of `s` made of decimal digits. */
  function LeadingDigits(s: string): (r: string)
    ensures r <= s
    ensures forall i :: 0 <= i < |r| ==> IsDigit(r[i])
    ensures |r| < |s| ==> !IsDigit(s[|r|])
  {
    if s == [] || !IsDigit(s[0]) then [] else [s[0]] + LeadingDigits(s[1..])
  }

  /** `parseInt(s)` for strings that start with a digit; any other string gives NaN (None).
      Leading whitespace and a sign, which parseInt would also accept, are not modelled. */
  function ParseInt(s: string): Option<nat> {
    var d := LeadingDigits(s);
    if d == [] then None else Some(DigitsValue(d))
  }

  lemma {:induction false} DigitsValueOfNatToString(n: nat)
    ensures DigitsValue(NatToString(n)) == n
    decreases n
  {
    var s := NatToString(n);
    if n >= 10 {
      DigitsValueOfNatToString(n / 10);
      assert s[..|s| - 1] == NatToString(n / 10);
    }
  }

  lemma LeadingDigitsOfDigits(s: string)
    requires forall i :: 0 <= i < |s| ==> IsDigit(s[i])
    ensures LeadingDigits(s) == s
  {
  }

  /** Printing a natural number and parsing it back gives the number. */
  lemma ParseIntNatToString(n: nat)
    ensures ParseInt(NatToString(n)) == Some(n)
  {
    LeadingDigitsOfDigits(NatToString(n));
    DigitsValueOfNatToString(n);
  }

  /** Distinct numbers print differently. */
  lemma NatToStringInjective(m: nat, n: nat)
    requires NatToString(m) == NatToString(n)
    ensures m == n
  {
    ParseIntNatToString(m);
    ParseIntNatToString(n);
  }

  // ---------------------------------------------------------------------------
  // Array built-ins over values
  // ---------------------------------------------------------------------------

  /** `r` is `s` with some elements left out, the rest in their original order. */
  predicate IsSubsequence<T(==)>(r: seq<T>, s: seq<T>)
    decreases |s|
  {
    r == [] || (s != [] && if r[0] == s[0] then IsSubsequence(r[1..], s[1..]) else IsSubsequence(r, s[1..]))
  }

  /** `s.filter(f)`. */
  function Keep<T(==,!new)>(s: seq<T>, f: T -> bool): (r: seq<T>)
    ensures |r| <= |s|
    ensures forall x :: x in r <==> x in s && f(x)
    ensures IsSubsequence(r, s)
    decreases |s|
  {
    if s == [] then []
    else if f(s[0]) then [s[0]] + Keep(s[1..], f)
    else Keep(s[1..], f)
  }

  /** A sequence with an element satisfying `f` keeps something. */
  lemma KeepNonEmpty<T(!new)>(s: seq<T>, f: T -> bool, i: int)
    requires 0 <= i < |s| && f(s[i])
    ensures Keep(s, f) != []
  {
    assert s[i] in Keep(s, f);
  }

  /** Keeping everything returns the sequence itself. */
  lemma {:induction false} KeepAll<T(!new)>(s: seq<T>, f: T -> bool)
    requires forall i :: 0 <= i < |s| ==> f(s[i])
    ensures Keep(s, f) == s
    decreases |s|
  {
    if s != [] {
      KeepAll(s[1..], f);
    }
  }

  /** Filtering twice is filtering once by the conjunction. */
  lemma {:induction false} KeepKeep<T(!new)>(s: seq<T>, f: T -> bool, g: T -> bool)
    ensures Keep(Keep(s, f), g) == Keep(s, x => f(x) && g(x))
    decreases |s|
  {
    if s != [] {
      KeepKeep(s[1..], f, g);
    }
  }

  /** `s.filter(f).length`. */
  function Count<T>(s: seq<T>, f: T -> bool): (n: nat)
    ensures n <= |s|
    ensures n == 0 <==> forall i :: 0 <= i < |s| ==> !f(s[i])
    decreases |s|
  {
    if s == [] then 0 else (if f(s[0]) then 1 else 0) + Count(s[1..], f)
  }

  /** `s.slice(0, end)` with JavaScript's treatment of a negative or too large end. */
  function SliceTo<T>(s: seq<T>, end: int): (r: seq<T>)
    ensures r <= s
    ensures 0 <= end ==> |r| == if end < |s| then end else |s|
    ensures end < 0 ==> |r| == if |s| + end < 0 then 0 else |s| + end
  {
    if end >= |s| then s
    else if end >= 0 then s[..end]
    else if |s| + end >= 0 then s[..|s| + end]
    else []
  }

  /** `[...pool].sort(() => Math.random() - 0.5).slice(0, Math.min(count, pool.length))`,
      where `shuffled` is the reordering the random comparator produced. */
  function Sample<T>(pool: seq<T>, shuffled: seq<T>, count: int): (r: seq<T>)
    requires multiset(shuffled) == multiset(pool)
    ensures count >= 0 ==> |r| == if count < |pool| then count else |pool|
    ensures multiset(r) <= multiset(pool)
    ensures r <= shuffled
  {
    var r := SliceTo(shuffled, if count < |shuffled| then count else |shuffled|);
    assert |shuffled| == |multiset(shuffled)| == |pool|;
    assert shuffled == r + shuffled[|r|..];
    assert multiset(shuffled) == multiset(r) + multiset(shuffled[|r|..]);
    r
  }

  /** `s.findIndex(f)`, absent instead of -1: the first position whose element satisfies `f`. */
  function FirstIndex<T>(s: seq<T>, f: T -> bool): (r: Option<nat>)
    ensures r.Some? ==>
      r.value < |s| && f(s[r.value]) && forall k :: 0 <= k < r.value ==> !f(s[k])
    ensures r.None? <==> forall k :: 0 <= k < |s| ==> !f(s[k])
    decreases |s|
  {
    if s == [] then None
    else if f(s[0]) then Some(0)
    else
      var r := FirstIndex(s[1..], f);
      if r.Some? then Some(r.value + 1) else None
  }

  /** `s.find(f)`: the first element satisfying `f`, absent when there is none. */
  function Find<T>(s: seq<T>, f: T -> bool): (r: Option<T>)
    ensures r.None? <==> forall k :: 0 <= k < |s| ==> !f(s[k])
    ensures r.Some? ==>
      exists k :: 0 <= k < |s| && s[k] == r.value && f(s[k]) && forall j :: 0 <= j < k ==> !f(s[j])
  {
    var i := FirstIndex(s, f);
    if i.Some? then Some(s[i.value]) else None
  }

  /** No value occurs twice. */
  predicate Distinct<T(==)>(s: seq<T>) {
    forall i, j :: 0 <= i < j < |s| ==> s[i] != s[j]
  }

  /** Keys never increase from left to right. */
  predicate NonIncreasing<T>(s: seq<T>, key: T -> int) {
    forall i, j :: 0 <= i < j < |s| ==> key(s[i]) >= key(s[j])
  }

  /** Places `x` in front of the first element whose key is not larger, so that
      `x` precedes every element with the same key (the insertion step of a stable sort). */
  function InsertDesc<T>(x: T, s: seq<T>, key: T -> int): (r: seq<T>)
    requires NonIncreasing(s, key)
    ensures NonIncreasing(r, key)
    ensures multiset(r) == multiset(s) + multiset{x}
    ensures |r| == |s| + 1
    ensures r[0] == x || (s != [] && r[0] == s[0])
    decreases |s|
  {
    if s == [] || key(s[0]) <= key(x) then
      ConsNonIncreasing(x, s, key);
      [x] + s
    else
      TailNonIncreasing(s, key);
      var t := InsertDesc(x, s[1..], key);
      assert s == [s[0]] + s[1..];
      assert key(s[0]) >= key(t[0]);
      ConsNonIncreasing(s[0], t, key);
      assert multiset([s[0]] + t) == multiset{s[0]} + multiset(t);
      [s[0]] + t
  }

  lemma TailNonIncreasing<T>(s: seq<T>, key: T -> int)
    requires s != [] && NonIncreasing(s, key)
    ensures NonIncreasing(s[1..], key)
  {
    forall i, j | 0 <= i < j < |s| - 1 ensures key(s[1..][i]) >= key(s[1..][j]) {
      assert s[1..][i] == s[i + 1] && s[1..][j] == s[j + 1];
    }
  }

  lemma ConsNonIncreasing<T>(y: T, t: seq<T>, key: T -> int)
    requires NonIncreasing(t, key) && (t != [] ==> key(y) >= key(t[0]))
    ensures NonIncreasing([y] + t, key)
  {
    forall i, j | 0 <= i < j < |t| + 1 ensures key(([y] + t)[i]) >= key(([y] + t)[j]) {
      assert ([y] + t)[j] == t[j - 1];
      if i > 0 {
        assert ([y] + t)[i] == t[i - 1];
      } else if j > 1 {
        assert key(t[0]) >= key(t[j - 1]);
      }
    }
  }

  /** `s.sort((a, b) => key(b) - key(a))`: a stable sort by non-increasing key. */
  function SortDesc<T>(s: seq<T>, key: T -> int): (r: seq<T>)
    ensures NonIncreasing(r, key)
    ensures multiset(r) == multiset(s)
    ensures |r| == |s|
    decreases |s|
  {
    if s == [] then []
    else
      assert s == [s[0]] + s[1..];
      InsertDesc(s[0], SortDesc(s[1..], key), key)
  }

  /** The elements whose key is `k`, in their order in `s`. */
  function WithKey<T>(s: seq<T>, key: T -> int, k: int): (r: seq<T>)
    ensures |r| <= |s|
    ensures forall x :: x in r ==> x in s && key(x) == k
    decreases |s|
  {
    if s == [] then []
    else (if key(s[0]) == k then [s[0]] else []) + WithKey(s[1..], key, k)
  }

  /** The items of `r` with any one key are the first items of `s` with that
      key, in the order `s` has them. */
  ghost predicate TiesFirst<T>(r: seq<T>, s: seq<T>, key: T -> int) {
    forall k :: WithKey(r, key, k) <= WithKey(s, key, k)
  }

  /** Taking the elements of one key distributes over concatenation. */
  lemma {:induction false} WithKeyAppend<T>(a: seq<T>, b: seq<T>, key: T -> int, k: int)
    ensures WithKey(a + b, key, k) == WithKey(a, key, k) + WithKey(b, key, k)
    decreases |a|
  {
    if a == [] {
      assert a + b == b;
    } else {
      assert (a + b)[0] == a[0] && (a + b)[1..] == a[1..] + b;
      WithKeyAppend(a[1..], b, key, k);
    }
  }

  /** The elements of one key in a prefix are a prefix of those in the whole. */
  lemma WithKeyPrefix<T>(a: seq<T>, s: seq<T>, key: T -> int, k: int)
    requires a <= s
    ensures WithKey(a, key, k) <= WithKey(s, key, k)
  {
    assert s == a + s[|a|..];
    WithKeyAppend(a, s[|a|..], key, k);
  }

  /** Inserting `x` puts it in front of every element with its key. */
  lemma {:induction false} InsertDescStable<T>(x: T, s: seq<T>, key: T -> int, k: int)
    requires NonIncreasing(s, key)
    ensures WithKey(InsertDesc(x, s, key), key, k) == (if key(x) == k then [x] else []) + WithKey(s, key, k)
    decreases |s|
  {
    if s == [] || key(s[0]) <= key(x) {
      assert InsertDesc(x, s, key) == [x] + s;
      WithKeyAppend([x], s, key, k);
      WithKeySingle(x, key, k);
    } else {
      TailNonIncreasing(s, key);
      var t := InsertDesc(x, s[1..], key);
      InsertDescStable(x, s[1..], key, k);
      assert InsertDesc(x, s, key) == [s[0]] + t;
      assert s == [s[0]] + s[1..];
      WithKeyBehind(x, s[0], s[1..], t, key, k);
    }
  }

  /** Putting `y`, whose key exceeds that of `x`, in front of both sides keeps
      `x` first among the elements of its key. */
  lemma WithKeyBehind<T>(x: T, y: T, rest: seq<T>, t: seq<T>, key: T -> int, k: int)
    requires key(y) > key(x)
    requires WithKey(t, key, k) == (if key(x) == k then [x] else []) + WithKey(rest, key, k)
    ensures WithKey([y] + t, key, k) == (if key(x) == k then [x] else []) + WithKey([y] + rest, key, k)
  {
    assert ([y] + t)[0] == y && ([y] + t)[1..] == t;
    assert ([y] + rest)[0] == y && ([y] + rest)[1..] == rest;
  }

  lemma WithKeySingle<T>(x: T, key: T -> int, k: int)
    ensures WithKey([x], key, k) == if key(x) == k then [x] else []
  {
    assert [x][0] == x && [x][1..] == [];
  }

  /** The sort is stable: the elements of each key keep their order. */
  lemma {:induction false} SortDescStable<T>(s: seq<T>, key: T -> int, k: int)
    ensures WithKey(SortDesc(s, key), key, k) == WithKey(s, key, k)
    decreases |s|
  {
    if s != [] {
      SortDescStable(s[1..], key, k);
      InsertDescStable(s[0], SortDesc(s[1..], key), key, k);
    }
  }

  /** Moving the elements at `i` and `j` to the front, the rest in order, is a
      reordering. */
  lemma TwoToFront<T>(s: seq<T>, i: nat, j: nat)
    requires i < j < |s|
    ensures multiset([s[i], s[j]] + s[..i] + s[i + 1..j] + s[j + 1..]) == multiset(s)
  {
    assert s == s[..i] + [s[i]] + s[i + 1..j] + [s[j]] + s[j + 1..];
  }

  /** A prefix of the sorted sequence takes each element at most as often as `s`
      has it, and its items of one key are the first ones of `s` with that key. */
  lemma SortDescPrefix<T>(s: seq<T>, key: T -> int, r: seq<T>)
    requires r <= SortDesc(s, key)
    ensures multiset(r) <= multiset(s)
    ensures TiesFirst(r, s, key)
  {
    var sorted := SortDesc(s, key);
    assert sorted == r + sorted[|r|..];
    assert multiset(sorted) == multiset(r) + multiset(sorted[|r|..]);
    forall k ensures WithKey(r, key, k) <= WithKey(s, key, k) {
      WithKeyPrefix(r, sorted, key, k);
      SortDescStable(s, key, k);
    }
  }

  /** The element at `Math.floor(draw * pool.length)`, absent for an empty pool. */
  function Pick<T>(pool: seq<T>, draw: real): (r: Option<T>)
    requires 0.0 <= draw < 1.0
    ensures r.None? <==> pool == []
    ensures r.Some? ==> r.value in pool
  {
    if pool == [] then None
    else
      var i := (draw * (|pool| as real)).Floor;
      assert 0 <= i < |pool| by { PickInRange(draw, |pool|); }
      Some(pool[i])
  }

  lemma PickInRange(draw: real, n: nat)
    requires 0.0 <= draw < 1.0 && n > 0
    ensures 0 <= (draw * (n as real)).Floor < n
  {
    var f := (draw * (n as real)).Floor;
    assert (f as real) <= draw * (n as real) < (n as real);
  }

  /** A value occurring twice is found at two distinct positions. */
  lemma MultiplicityTwo<T>(s: seq<T>, x: T)
    requires multiset(s)[x] > 1
    ensures exists i, j :: 0 <= i < j < |s| && s[i] == x && s[j] == x
    decreases |s|
  {
    assert s == [s[0]] + s[1..];
    if s[0] == x {
      assert x in multiset(s[1..]);
      var j :| 0 <= j < |s[1..]| && s[1..][j] == x;
      assert s[j + 1] == x;
    } else {
      MultiplicityTwo(s[1..], x);
      var i, j :| 0 <= i < j < |s[1..]| && s[1..][i] == x && s[1..][j] == x;
      assert s[i + 1] == x && s[j + 1] == x;
    }
  }

  /** Two positions holding the same value give it multiplicity at least two. */
  lemma TwoPositions<T>(s: seq<T>, i: nat, j: nat)
    requires i < j < |s| && s[i] == s[j]
    ensures multiset(s)[s[i]] > 1
  {
    assert s == s[..j] + [s[j]] + s[j + 1..];
    assert s[..j][i] == s[i];
    assert s[i] in multiset(s[..j]);
  }

  /** A sequence whose multiset lies within that of a sequence without repeats has
      no repeats either. */
  lemma SubMultisetDistinct<T>(r: seq<T>, s: seq<T>)
    requires Distinct(s) && multiset(r) <= multiset(s)
    ensures Distinct(r)
  {
    forall i, j | 0 <= i < j < |r| ensures r[i] != r[j] {
      if r[i] == r[j] {
        TwoPositions(r, i, j);
        MultiplicityTwo(s, r[i]);
      }
    }
  }


  /** The remainder of `q * n + r` by `n` is `r` when `0 <= r < n`. */
  lemma ModUnique(x: int, n: int, q: int, r: int)
    requires n > 0 && 0 <= r < n && x == q * n + r
    ensures x % n == r
  {
    var q', r' := x / n, x % n;
    assert x == q' * n + r';
    var d := q - q';
    assert d * n == r' - r;
    if d > 0 {
      MulAtLeast(d, n);
    } else if d < 0 {
      MulAtLeast(-d, n);
    }
  }

  lemma {:induction false} MulAtLeast(d: int, n: int)
    requires d >= 1 && n > 0
    ensures d * n >= n
    decreases d
  {
    if d > 1 {
      MulAtLeast(d - 1, n);
    }
  }

  /** Two numbers less than `n` apart have different remainders modulo `n`. */
  lemma ModDistinct(a: nat, b: nat, n: nat)
    requires a < b < a + n
    ensures a % n != b % n
  {
    if a % n == b % n {
      var d := b / n - a / n;
      assert d * n == (b / n) * n - (a / n) * n;
      if d >= 1 {
        MulAtLeast(d, n);
      } else if d < 0 {
        MulAtLeast(-d, n);
      }
    }
  }

  /** A subset is no larger than its superset. */
  lemma SubsetCard<T>(a: set<T>, b: set<T>)
    requires a <= b
    ensures |a| <= |b|
  {
    assert b == a + (b - a);
  }

  /** `String.fromCharCode(65 + i)`: "A" for the first option, "B" for the second, and so on
      (bounded so that the code is a character Dafny can represent). */
  function OptionLetter(i: nat): (c: char)
    requires i < 0xD800 - 65
    ensures c as int == 65 + i
  {
    (65 + i) as char
  }
}

=== FILE: dashboard.dfy ===
/** The progress dashboard (src/app/dashboard/page.tsx): the completion rate, the
    per-difficulty breakdown of completed problems, the five most recently
    attempted problems, the overall percentage of the bank completed, and the
    shading of the 30-day calendar. The problem bank and the stored records are
    parameters; rendering is left out. */
module Dashboard {
  import opened Common
  import Catalogue
  import Progress
  import StreakCalendar

  /** A stored problem record as the dashboard reads it: the date of the last
      attempt is absent when the record has none. */
  datatype Entry = Entry(problemId: string, status: Progress.ProblemStatus, lastAttempted: Option<Progress.Day>)

  // ---------------------------------------------------------------------------
  // Percentages
  // ---------------------------------------------------------------------------

  /** `whole > 0 ? Math.round((part / whole) * 100) : 0`, the guard every
      percentage of the page uses. */
  function PercentOrZero(part: nat, whole: nat): (r: nat)
    ensures whole == 0 ==> r == 0
    ensures whole > 0 ==> whole * (2 * r - 1) <= 200 * part < whole * (2 * r + 1)
    ensures part <= whole ==> r <= 100
    ensures whole > 0 && part == whole ==> r == 100
    ensures part == 0 ==> r == 0
  {
    if whole > 0 then RoundPercent(part, whole) else 0
  }

  /** `completionRate`: completed over attempted, 0 before any attempt. */
  function CompletionRate(attempted: nat, completed: nat): (r: nat)
    ensures attempted == 0 ==> r == 0
    ensures completed <= attempted ==> r <= 100
    ensures attempted > 0 ==> attempted * (2 * r - 1) <= 200 * completed < attempted * (2 * r + 1)
  {
    PercentOrZero(completed, attempted)
  }

  /** The completion rate passes 100 once a problem completed twice outweighs the
      attempts: the counters do not keep completed at most attempted. */
  lemma CompletionRateCanExceedHundred()
    ensures CompletionRate(1, 2) == 200
  {
    assert RoundPercent(2, 1) == 200;
  }

  /** The overall bar: completed problems over the size of the bank. */
  function OverallPercentage(completed: nat, totalProblems: nat): (r: nat)
    ensures totalProblems == 0 ==> r == 0
    ensures completed <= totalProblems ==> r <= 100
    ensures totalProblems > 0 && completed == totalProblems ==> r == 100
    ensures totalProblems > 0 ==>
      totalProblems * (2 * r - 1) <= 200 * completed < totalProblems * (2 * r + 1)
  {
    PercentOrZero(completed, totalProblems)
  }

  // ---------------------------------------------------------------------------
  // difficultyBreakdown
  // ---------------------------------------------------------------------------

  datatype Tally = Tally(total: nat, completed: nat)

  datatype Breakdown = Breakdown(easy: Tally, medium: Tally, hard: Tally)

  function TallyOf(b: Breakdown, d: Catalogue.Difficulty): Tally {
    match d
    case Easy => b.easy
    case Medium => b.medium
    case Hard => b.hard
  }

  /** The number of bank problems of difficulty `d`. */
  function TotalOf(bank: seq<Catalogue.Problem>, d: Catalogue.Difficulty): nat {
    |Keep(bank, (p: Catalogue.Problem) => p.difficulty == d)|
  }

  /** A record adds one to difficulty `d`: it is completed and its id looks up a
      bank problem of that difficulty. */
  predicate CountsFor(bank: seq<Catalogue.Problem>, e: Entry, d: Catalogue.Difficulty) {
    var found := Catalogue.GetProblemById(bank, e.problemId);
    e.status == Progress.Completed && found.Some? && found.value.difficulty == d
  }

  /** The completed count of difficulty `d` after the records have been visited in order. */
  function CompletedOf(bank: seq<Catalogue.Problem>, entries: seq<Entry>, d: Catalogue.Difficulty): (n: nat)
    ensures n <= |entries|
    decreases |entries|
  {
    if entries == [] then 0
    else CompletedOf(bank, entries[..|entries| - 1], d) + (if CountsFor(bank, entries[|entries| - 1], d) then 1 else 0)
  }

  /** The breakdown object: the totals filtered from the bank, then the
      `forEach` over the records bumping the completed count of the difficulty
      of each completed record whose problem is in the bank. */
  method DifficultyBreakdown(bank: seq<Catalogue.Problem>, entries: seq<Entry>) returns (b: Breakdown)
    ensures forall d :: TallyOf(b, d) == Tally(TotalOf(bank, d), CompletedOf(bank, entries, d))
  {
    var easy := Tally(TotalOf(bank, Catalogue.Easy), 0);
    var medium := Tally(TotalOf(bank, Catalogue.Medium), 0);
    var hard := Tally(TotalOf(bank, Catalogue.Hard), 0);
    for k := 0 to |entries|
      invariant easy == Tally(TotalOf(bank, Catalogue.Easy), CompletedOf(bank, entries[..k], Catalogue.Easy))
      invariant medium == Tally(TotalOf(bank, Catalogue.Medium), CompletedOf(bank, entries[..k], Catalogue.Medium))
      invariant hard == Tally(TotalOf(bank, Catalogue.Hard), CompletedOf(bank, entries[..k], Catalogue.Hard))
    {
      assert entries[..k + 1][..k] == entries[..k];
      var e := entries[k];
      if e.status == Progress.Completed {
        var problem := Catalogue.GetProblemById(bank, e.problemId);
        if problem.Some? {
          match problem.value.difficulty
          case Easy => easy := easy.(completed := easy.completed + 1);
          case Medium => medium := medium.(completed := medium.completed + 1);
          case Hard => hard := hard.(completed := hard.completed + 1);
        }
      }
    }
    assert entries[..|entries|] == entries;
    b := Breakdown(easy, medium, hard);
  }

  /** The three totals partition the bank. */
  lemma {:induction false} TotalsPartitionBank(bank: seq<Catalogue.Problem>)
    ensures TotalOf(bank, Catalogue.Easy) + TotalOf(bank, Catalogue.Medium) + TotalOf(bank, Catalogue.Hard) == |bank|
    decreases |bank|
  {
    if bank != [] {
      TotalsPartitionBank(bank[1..]);
    }
  }

  /** The ids of the records that satisfy `f`. */
  ghost function IdsWhere(entries: seq<Entry>, f: Entry -> bool): set<string> {
    set i | 0 <= i < |entries| && f(entries[i]) :: entries[i].problemId
  }

  /** The ids of the records that count for `d`. */
  ghost function CountedIds(bank: seq<Catalogue.Problem>, entries: seq<Entry>, d: Catalogue.Difficulty): set<string> {
    IdsWhere(entries, (e: Entry) => CountsFor(bank, e, d))
  }

  predicate DistinctProblemIds(entries: seq<Entry>) {
    forall i, j :: 0 <= i < j < |entries| ==> entries[i].problemId != entries[j].problemId
  }

  /** Adding a record adds its id to the selected ids exactly when it is selected. */
  lemma IdsWhereSnoc(entries: seq<Entry>, f: Entry -> bool)
    requires entries != []
    ensures var n := |entries| - 1;
      IdsWhere(entries, f) == IdsWhere(entries[..n], f) + (if f(entries[n]) then {entries[n].problemId} else {})
  {
    var n := |entries| - 1;
    var init := entries[..n];
    var extra: set<string> := if f(entries[n]) then {entries[n].problemId} else {};
    forall id | id in IdsWhere(entries, f)
      ensures id in IdsWhere(init, f) + extra
    {
      var i :| 0 <= i < |entries| && f(entries[i]) && entries[i].problemId == id;
      if i < n {
        assert init[i] == entries[i];
      }
    }
    forall id | id in IdsWhere(init, f) + extra
      ensures id in IdsWhere(entries, f)
    {
      if id in IdsWhere(init, f) {
        var i :| 0 <= i < n && f(init[i]) && init[i].problemId == id;
        assert entries[i] == init[i];
      }
    }
  }

  /** With one record per problem, the completed count is the number of ids that count. */
  lemma {:induction false} CompletedOfCountsIds(bank: seq<Catalogue.Problem>, entries: seq<Entry>, d: Catalogue.Difficulty)
    requires DistinctProblemIds(entries)
    ensures CompletedOf(bank, entries, d) == |CountedIds(bank, entries, d)|
    decreases |entries|
  {
    if entries != [] {
      var n := |entries| - 1;
      var init := entries[..n];
      assert DistinctProblemIds(init);
      CompletedOfCountsIds(bank, init, d);
      IdsWhereSnoc(entries, (e: Entry) => CountsFor(bank, e, d));
      assert forall i :: 0 <= i < n ==> init[i].problemId != entries[n].problemId;
      assert entries[n].problemId !in CountedIds(bank, init, d);
    }
  }

  ghost function IdsOf(s: seq<Catalogue.Problem>): set<string> {
    set p | p in s :: p.id
  }

  /** A sequence of problems has no more ids than problems. */
  lemma {:induction false} IdsOfSize(s: seq<Catalogue.Problem>)
    ensures |IdsOf(s)| <= |s|
    decreases |s|
  {
    if s != [] {
      IdsOfSize(s[1..]);
      assert IdsOf(s) == IdsOf(s[1..]) + {s[0].id};
    }
  }

  /** With one record per problem, no difficulty shows more completed problems
      than the bank holds of that difficulty, so every bar stays within 100%. */
  lemma CompletedWithinTotal(bank: seq<Catalogue.Problem>, entries: seq<Entry>, d: Catalogue.Difficulty)
    requires DistinctProblemIds(entries)
    ensures CompletedOf(bank, entries, d) <= TotalOf(bank, d)
    ensures PercentOrZero(CompletedOf(bank, entries, d), TotalOf(bank, d)) <= 100
  {
    var pool := Keep(bank, (p: Catalogue.Problem) => p.difficulty == d);
    CompletedOfCountsIds(bank, entries, d);
    forall id | id in CountedIds(bank, entries, d)
      ensures id in IdsOf(pool)
    {
      var i :| 0 <= i < |entries| && CountsFor(bank, entries[i], d) && entries[i].problemId == id;
      var p := Catalogue.GetProblemById(bank, id).value;
      assert p in pool;
    }
    SubsetCard(CountedIds(bank, entries, d), IdsOf(pool));
    IdsOfSize(pool);
  }

  /** Two records for one problem, both completed, count it twice. */
  lemma DuplicateRecordsCountTwice(p: Catalogue.Problem)
    ensures var e := Entry(p.id, Progress.Completed, None);
      CompletedOf([p], [e, e], p.difficulty) == 2 > TotalOf([p], p.difficulty)
  {
    var e := Entry(p.id, Progress.Completed, None);
    assert [e, e][..1] == [e];
    assert [e][..0] == [];
    assert CountsFor([p], e, p.difficulty);
  }

  // ---------------------------------------------------------------------------
  // recentActivity
  // ---------------------------------------------------------------------------

  predicate Dated(e: Entry) { e.lastAttempted.Some? }

  /** The sort key, the day of the last attempt. */
  function DateKey(e: Entry): int {
    if e.lastAttempted.Some? then e.lastAttempted.value else 0
  }

  /** `recentActivity`: the dated records, latest first (ties in record order),
      the first five of them. */
  function RecentActivity(entries: seq<Entry>): (r: seq<Entry>)
    ensures |r| == if Count(entries, Dated) < 5 then Count(entries, Dated) else 5
    ensures forall e :: e in r ==> e in entries && Dated(e)
    ensures NonIncreasing(r, DateKey)
    ensures multiset(r) <= multiset(Keep(entries, Dated))
    ensures TiesFirst(r, Keep(entries, Dated), DateKey)
  {
    var dated := Keep(entries, Dated);
    KeepCount(entries, Dated);
    var sorted := SortDesc(dated, DateKey);
    var r := SliceTo(sorted, 5);
    SortDescPrefix(dated, DateKey, r);
    forall e | e in r
      ensures e in entries && Dated(e)
    {
      assert e in multiset(sorted);
    }
    r
  }

  /** Filtering keeps as many elements as satisfy the predicate. */
  lemma {:induction false} KeepCount<T(!new)>(s: seq<T>, f: T -> bool)
    ensures |Keep(s, f)| == Count(s, f)
    decreases |s|
  {
    if s != [] {
      KeepCount(s[1..], f);
    }
  }

  /** A dated record left out of the five is no later than any of them. */
  lemma RecentActivityIsMostRecent(entries: seq<Entry>, e: Entry, i: int)
    requires e in entries && Dated(e) && e !in RecentActivity(entries)
    requires 0 <= i < |RecentActivity(entries)|
    ensures DateKey(e) <= DateKey(RecentActivity(entries)[i])
  {
    var sorted := SortDesc(Keep(entries, Dated), DateKey);
    var r := RecentActivity(entries);
    assert e in multiset(sorted);
    var j :| 0 <= j < |sorted| && sorted[j] == e;
    assert r == SliceTo(sorted, 5);
    assert forall k :: 0 <= k < |r| ==> r[k] == sorted[k];
    assert j >= |r|;
  }

  /** The five are all there is when at most five records are dated. */
  lemma FewDatedAllShown(entries: seq<Entry>, e: Entry)
    requires Count(entries, Dated) <= 5
    requires e in entries && Dated(e)
    ensures e in RecentActivity(entries)
  {
    var dated := Keep(entries, Dated);
    KeepCount(entries, Dated);
    var sorted := SortDesc(dated, DateKey);
    assert e in multiset(sorted);
    assert RecentActivity(entries) == sorted;
  }

  // ---------------------------------------------------------------------------
  // The 30-day calendar squares
  // ---------------------------------------------------------------------------

  /** The square of a calendar day: 0 muted, 1 light, 2 middle, every other
      count (3 and more, and a negative one) dark. */
  function CalendarShade(count: int): (i: StreakCalendar.Intensity)
    ensures i == StreakCalendar.Muted <==> count == 0
    ensures i == StreakCalendar.LightGreen <==> count == 1
    ensures i == StreakCalendar.MiddleGreen <==> count == 2
    ensures i == StreakCalendar.DarkGreen <==> count < 0 || count >= 3
  {
    if count == 0 then StreakCalendar.Muted
    else if count == 1 then StreakCalendar.LightGreen
    else if count == 2 then StreakCalendar.MiddleGreen
    else StreakCalendar.DarkGreen
  }

  /** The dashboard shades a day as the calendar card does for every count from
      0, and differently for a negative count (dark here, muted there). */
  lemma CalendarShadeAgreesWithCard(count: int)
    ensures count >= 0 ==> CalendarShade(count) == StreakCalendar.GetIntensity(count)
    ensures count < 0 ==> CalendarShade(count) == StreakCalendar.DarkGreen && StreakCalendar.GetIntensity(count) == StreakCalendar.Muted
  {
  }
}

=== FILE: explain.dfy ===
/** The `/explain` command of the Discord bot (discord-bot/src/commands/explain.ts):
    the AI answer is cut into embed-sized chunks at paragraph breaks, the first
    chunk is the reply and the rest follow in order. The request to the chat
    service is not part of this model: its answer is a parameter. */
module Explain {
  import opened Common

  /** The paragraph separator. */
  const Sep: string := "\n\n"

  /** JavaScript's `.length`: UTF-16 code units, two for a character above U+FFFF. */
  function Units(s: string): (n: nat)
    ensures |s| <= n <= 2 * |s|
    decreases |s|
  {
    if s == [] then 0 else Units(s[..|s| - 1]) + (if s[|s| - 1] as int >= 0x1_0000 then 2 else 1)
  }

  /** Code units add up over concatenation. */
  lemma {:induction false} UnitsAppend(a: string, b: string)
    ensures Units(a + b) == Units(a) + Units(b)
    decreases |b|
  {
    if b != [] {
      assert (a + b)[..|a + b| - 1] == a + b[..|b| - 1];
      assert (a + b)[|a + b| - 1] == b[|b| - 1];
      UnitsAppend(a, b[..|b| - 1]);
    } else {
      assert a + b == a;
    }
  }

  /** A character outside the Basic Multilingual Plane is a surrogate pair. */
  lemma AstralCharIsPair(c: char)
    ensures Units([c]) == if c as int >= 0x1_0000 then 2 else 1
  {
    assert [c][..0] == [];
  }

  /** The separator and the running chunk joined to a paragraph. */
  lemma JoinedUnits(current: string, paragraph: string)
    ensures Units(current + Sep + paragraph) == Units(current) + 2 + Units(paragraph)
  {
    UnitsAppend(current + Sep, paragraph);
    UnitsAppend(current, Sep);
    assert Sep[..1] == "\n" && "\n"[..0] == "";
  }

  /** `parts.join("\n\n")`. */
  function Join(parts: seq<string>): string
    decreases |parts|
  {
    if parts == [] then ""
    else if |parts| == 1 then parts[0]
    else Join(parts[..|parts| - 1]) + Sep + parts[|parts| - 1]
  }

  /** Joining two non-empty lists puts one separator between their joins. */
  lemma {:induction false} JoinAppend(a: seq<string>, b: seq<string>)
    requires a != [] && b != []
    ensures Join(a + b) == Join(a) + Sep + Join(b)
    decreases |b|
  {
    if |b| == 1 {
      assert (a + b)[..|a + b| - 1] == a;
    } else {
      var init := b[..|b| - 1];
      assert (a + b)[..|a + b| - 1] == a + init;
      JoinAppend(a, init);
    }
  }

  /** `text.split("\n\n")`: the pieces between separators found left to right
      without overlap ("a\n\n\nb" gives "a" and "\nb"). */
  function Split(text: string): (r: seq<string>)
    ensures r != []
    decreases |text|
  {
    if |text| < 2 then [text]
    else if text[..2] == Sep then [""] + Split(text[2..])
    else
      var rest := Split(text[1..]);
      [[text[0]] + rest[0]] + rest[1..]
  }

  /** Splitting and joining again gives the text back. */
  lemma {:induction false} SplitJoin(text: string)
    ensures Join(Split(text)) == text
    decreases |text|
  {
    if |text| >= 2 {
      if text[..2] == Sep {
        SplitJoin(text[2..]);
        JoinAppend([""], Split(text[2..]));
        assert text == text[..2] + text[2..];
      } else {
        var rest := Split(text[1..]);
        SplitJoin(text[1..]);
        assert text == [text[0]] + text[1..];
        if |rest| > 1 {
          assert rest == [rest[0]] + rest[1..];
          JoinAppend([rest[0]], rest[1..]);
          JoinAppend([[text[0]] + rest[0]], rest[1..]);
        }
      }
    }
  }

  /** All lists of `groups` laid end to end. */
  function Flatten(groups: seq<seq<string>>): seq<string>
    decreases |groups|
  {
    if groups == [] then [] else Flatten(groups[..|groups| - 1]) + groups[|groups| - 1]
  }

  predicate NoEmpty(parts: seq<string>) {
    forall i :: 0 <= i < |parts| ==> parts[i] != ""
  }

  /** `chunks` cut `paras` into consecutive non-empty groups, chunk i being the
      join of group i, and a chunk of two or more paragraphs fits in `maxLength`. */
  ghost predicate Chunking(chunks: seq<string>, paras: seq<string>, groups: seq<seq<string>>, maxLength: int) {
    |groups| == |chunks| && Flatten(groups) == paras
    && (forall i :: 0 <= i < |groups| ==> groups[i] != [] && chunks[i] == Join(groups[i]))
    && forall i :: 0 <= i < |groups| && |groups[i]| >= 2 ==> Units(chunks[i]) <= maxLength
  }

  /** Joining the chunks of a grouping joins the paragraphs. */
  lemma {:induction false} ChunkingJoin(chunks: seq<string>, paras: seq<string>, groups: seq<seq<string>>, maxLength: int)
    requires Chunking(chunks, paras, groups, maxLength)
    ensures Join(chunks) == Join(paras)
    decreases |groups|
  {
    if |groups| > 0 {
      var n := |groups|;
      var init := groups[..n - 1];
      assert Chunking(chunks[..n - 1], Flatten(init), init, maxLength);
      ChunkingJoin(chunks[..n - 1], Flatten(init), init, maxLength);
      if n > 1 {
        assert init[0] != [];
        FlattenNonEmpty(init);
        JoinAppend(Flatten(init), groups[n - 1]);
      } else {
        assert Flatten(init) == [];
        assert paras == groups[0];
      }
    }
  }

  lemma {:induction false} FlattenNonEmpty(groups: seq<seq<string>>)
    requires groups != [] && groups[0] != []
    ensures Flatten(groups) != []
    decreases |groups|
  {
    if |groups| > 1 {
      FlattenNonEmpty(groups[..|groups| - 1]);
    }
  }

  lemma NoEmptyPrefix(read: seq<string>, next: string)
    requires NoEmpty(read + [next])
    ensures NoEmpty(read) && next != ""
  {
    assert (read + [next])[|read|] == next;
    assert forall i :: 0 <= i < |read| ==> (read + [next])[i] == read[i];
  }

  /** What the gathering loop keeps: the chunks pushed so far and the running
      chunk cut the paragraphs read so far into groups. */
  ghost predicate Gathered(chunks: seq<string>, current: string, groups: seq<seq<string>>, group: seq<string>,
                           read: seq<string>, maxLength: int) {
    Chunking(chunks, Flatten(groups), groups, maxLength)
    && Flatten(groups) + group == read
    && (current == "" <==> group == [])
    && (group != [] ==> current == Join(group))
    && (|group| >= 2 ==> Units(current) <= maxLength)
  }

  /** One turn of the loop of `splitMessage`: the paragraph joins the running chunk
      when both and a separator fit; otherwise the running chunk, if any, is pushed
      and the paragraph starts the next one. */
  method Gather(chunks: seq<string>, current: string, paragraph: string, maxLength: int,
                ghost groups: seq<seq<string>>, ghost group: seq<string>, ghost read: seq<string>)
    returns (chunks': seq<string>, current': string, ghost groups': seq<seq<string>>, ghost group': seq<string>)
    ensures Units(current') <= maxLength || current' == paragraph
    ensures chunks' == chunks || chunks' == chunks + [current]
    ensures chunks' == chunks + [current] ==> current != ""
    ensures Gathered(chunks, current, groups, group, read, maxLength) && paragraph != "" ==>
      Gathered(chunks', current', groups', group', read + [paragraph], maxLength)
  {
    if Units(current) + Units(paragraph) + 2 <= maxLength {
      chunks', groups' := chunks, groups;
      current' := current + (if current != "" then Sep else "") + paragraph;
      group' := group + [paragraph];
      if current != "" {
        JoinedUnits(current, paragraph);
      } else {
        assert current' == paragraph;
      }
      if group != [] {
        JoinAppend(group, [paragraph]);
      }
    } else {
      chunks', groups' := chunks, groups;
      if current != "" {
        chunks' := chunks + [current];
        groups' := groups + [group];
        assert groups'[..|groups'| - 1] == groups;
      }
      current' := paragraph;
      group' := [paragraph];
    }
  }

  /** Pushing the running chunk, if any, closes a gathering into a chunking. */
  lemma CloseGathered(chunks: seq<string>, current: string, groups: seq<seq<string>>, group: seq<string>,
                      read: seq<string>, maxLength: int)
    requires Gathered(chunks, current, groups, group, read, maxLength)
    ensures current == "" ==> Chunking(chunks, read, groups, maxLength)
    ensures current != "" ==> Chunking(chunks + [current], read, groups + [group], maxLength)
  {
    if current != "" {
      var groups', chunks' := groups + [group], chunks + [current];
      assert groups'[..|groups|] == groups;
      assert Flatten(groups') == read;
      forall i | 0 <= i < |groups'|
        ensures groups'[i] != [] && chunks'[i] == Join(groups'[i])
        ensures |groups'[i]| >= 2 ==> Units(chunks'[i]) <= maxLength
      {
        if i < |groups| {
          assert groups'[i] == groups[i] && chunks'[i] == chunks[i];
        }
      }
    }
  }

  /** A chunk fits in `maxLength` code units or is one of the paragraphs. */
  predicate FitsOrParagraph(chunk: string, maxLength: int, paragraphs: seq<string>) {
    Units(chunk) <= maxLength || chunk in paragraphs
  }

  /** The loop of `splitMessage` over the paragraphs and the final push. */
  method GatherParagraphs(paragraphs: seq<string>, maxLength: int) returns (chunks: seq<string>)
    ensures forall i :: 0 <= i < |chunks| ==> chunks[i] != ""
    ensures forall i :: 0 <= i < |chunks| ==> Units(chunks[i]) <= maxLength || chunks[i] in paragraphs
    ensures NoEmpty(paragraphs) ==> exists groups :: Chunking(chunks, paragraphs, groups, maxLength)
  {
    chunks := [];
    var current := "";
    ghost var groups: seq<seq<string>> := [];
    ghost var group: seq<string> := [];
    for k := 0 to |paragraphs|
      invariant forall i :: 0 <= i < |chunks| ==> chunks[i] != ""
      invariant forall i :: 0 <= i < |chunks| ==> FitsOrParagraph(chunks[i], maxLength, paragraphs)
      invariant current == "" || FitsOrParagraph(current, maxLength, paragraphs)
      invariant NoEmpty(paragraphs[..k]) ==> Gathered(chunks, current, groups, group, paragraphs[..k], maxLength)
    {
      ghost var read := paragraphs[..k];
      assert paragraphs[..k + 1] == read + [paragraphs[k]];
      if NoEmpty(read + [paragraphs[k]]) {
        NoEmptyPrefix(read, paragraphs[k]);
      }
      ghost var before := chunks;
      ghost var pending := current;
      chunks, current, groups, group := Gather(chunks, current, paragraphs[k], maxLength, groups, group, read);
      assert FitsOrParagraph(current, maxLength, paragraphs) by {
        assert paragraphs[k] in paragraphs;
      }
      assert chunks == before || (chunks == before + [pending] && pending != "");
    }
    assert paragraphs[..|paragraphs|] == paragraphs;
    if NoEmpty(paragraphs) {
      CloseGathered(chunks, current, groups, group, paragraphs, maxLength);
    }
    if current != "" {
      chunks := chunks + [current];
    }
  }

  /** `splitMessage(text, maxLength)`, lengths in code units: a text that fits is one chunk; otherwise
      paragraphs are gathered into chunks while the running chunk, the paragraph
      and a separator fit, and a paragraph that does not fit starts a new chunk. */
  method SplitMessage(text: string, maxLength: int) returns (chunks: seq<string>)
    ensures Units(text) <= maxLength ==> chunks == [text]
    ensures Units(text) > maxLength ==> forall i :: 0 <= i < |chunks| ==> chunks[i] != ""
    ensures forall i :: 0 <= i < |chunks| ==> Units(chunks[i]) <= maxLength || chunks[i] in Split(text)
    ensures NoEmpty(Split(text)) ==> exists groups :: Chunking(chunks, Split(text), groups, maxLength)
    ensures NoEmpty(Split(text)) ==> Join(chunks) == text
  {
    var paragraphs := Split(text);
    SplitJoin(text);
    if Units(text) <= maxLength {
      chunks := [text];
      assert Flatten([paragraphs]) == paragraphs by {
        var single: seq<seq<string>> := [paragraphs];
        assert single[..0] == [];
      }
      assert Chunking(chunks, paragraphs, [paragraphs], maxLength);
      return;
    }
    chunks := GatherParagraphs(paragraphs, maxLength);
    if NoEmpty(paragraphs) {
      ghost var groups :| Chunking(chunks, paragraphs, groups, maxLength);
      ChunkingJoin(chunks, paragraphs, groups, maxLength);
    }
  }

  /** The answer shown: the model's text, or the apology when it is missing or empty. */
  function ResponseText(content: Option<string>): (r: string)
    ensures r != ""
    ensures content.Some? && content.value != "" ==> r == content.value
  {
    if content.Some? && content.value != "" then content.value else "I couldn't generate a response."
  }

  /** The messages `execute` sends for the chunks: the first as the edited reply,
      each further one as a follow-up, in chunk order. */
  method FanOut(chunks: seq<string>) returns (reply: Option<string>, followUps: seq<string>)
    ensures chunks == [] ==> reply.None? && followUps == []
    ensures chunks != [] ==> reply == Some(chunks[0]) && [reply.value] + followUps == chunks
  {
    if chunks == [] {
      return None, [];
    }
    reply := Some(chunks[0]);
    followUps := [];
    for i := 1 to |chunks|
      invariant followUps == chunks[1..i]
    {
      followUps := followUps + [chunks[i]];
    }
  }
}

=== FILE: flashcard_deck.dfy ===
/** The flashcard deck of the study site (src/components/flashcards/FlashcardDeck.tsx):
    a drawn deck of cards, the position in it, whether the current card shows its
    back, and the set of card ids marked as known. Rendering is left out. */
module FlashcardDeck {
  import opened Common
  import opened Flashcards

  /** The ids of the cards of a deck. */
  function IdsOf(cards: seq<Flashcard>): (r: set<string>)
    ensures forall id :: id in r <==> exists c :: c in cards && c.id == id
  {
    set c | c in cards :: c.id
  }

  /** A deck has no more distinct ids than cards. */
  lemma {:induction false} IdsOfSize(cards: seq<Flashcard>)
    ensures |IdsOf(cards)| <= |cards|
    decreases |cards|
  {
    if cards != [] {
      var rest := cards[1..];
      IdsOfSize(rest);
      assert cards == [cards[0]] + rest;
      assert IdsOf(cards) == IdsOf(rest) + {cards[0].id};
    }
  }

  /** No two positions of the deck hold cards with the same id. */
  predicate DistinctIds(cards: seq<Flashcard>) {
    forall i, j :: 0 <= i < j < |cards| ==> cards[i].id != cards[j].id
  }

  class Deck {
    /** The pool the deck is drawn from and the requested size (the `topic` and
        `count` props). */
    const pool: seq<Flashcard>
    const count: int
    var cards: seq<Flashcard>
    var currentIndex: int
    var isFlipped: bool
    var knownCards: set<string>

    /** The position is a card of the deck (0 for an empty deck), and only ids of
        the deck's cards are marked known. */
    ghost predicate Valid()
      reads this
    {
      (cards != [] ==> 0 <= currentIndex < |cards|)
      && (cards == [] ==> currentIndex == 0)
      && knownCards <= IdsOf(cards)
    }

    /** The initial state: `getRandomFlashcards(count, topic)` given the shuffled
        pool, the first card, its front, nothing known. */
    constructor(pool: seq<Flashcard>, shuffled: seq<Flashcard>, count: int)
      requires multiset(shuffled) == multiset(pool)
      ensures this.pool == pool && this.count == count
      ensures cards == Sample(pool, shuffled, count)
      ensures currentIndex == 0 && !isFlipped && knownCards == {}
      ensures Valid()
    {
      this.pool := pool;
      this.count := count;
      cards := Sample(pool, shuffled, count);
      currentIndex := 0;
      isFlipped := false;
      knownCards := {};
    }

    /** `handleFlip`: the current card turns over. */
    method Flip()
      modifies this
      ensures isFlipped == !old(isFlipped)
      ensures cards == old(cards) && currentIndex == old(currentIndex) && knownCards == old(knownCards)
      ensures old(Valid()) ==> Valid()
    {
      isFlipped := !isFlipped;
    }

    /** `handleNext`: moves to the next card, front up, unless at the last one. */
    method Next()
      modifies this
      ensures old(currentIndex) >= |old(cards)| - 1 ==>
        currentIndex == old(currentIndex) && isFlipped == old(isFlipped)
      ensures old(currentIndex) < |old(cards)| - 1 ==> currentIndex == old(currentIndex) + 1 && !isFlipped
      ensures cards == old(cards) && knownCards == old(knownCards)
      ensures old(Valid()) ==> Valid()
    {
      if currentIndex < |cards| - 1 {
        currentIndex := currentIndex + 1;
        isFlipped := false;
      }
    }

    /** `handlePrev`: moves to the previous card, front up, unless at the first one. */
    method Prev()
      modifies this
      ensures old(currentIndex) > 0 ==> currentIndex == old(currentIndex) - 1 && !isFlipped
      ensures old(currentIndex) <= 0 ==> currentIndex == old(currentIndex) && isFlipped == old(isFlipped)
      ensures cards == old(cards) && knownCards == old(knownCards)
      ensures old(Valid()) ==> Valid()
    {
      if currentIndex > 0 {
        currentIndex := currentIndex - 1;
        isFlipped := false;
      }
    }

    /** `handleShuffle`: a new draw from the pool, back at its first card, front up,
        nothing known. */
    method Shuffle(shuffled: seq<Flashcard>)
      requires multiset(shuffled) == multiset(pool)
      modifies this
      ensures cards == Sample(pool, shuffled, count)
      ensures currentIndex == 0 && !isFlipped && knownCards == {}
      ensures Valid()
    {
      cards := Sample(pool, shuffled, count);
      currentIndex := 0;
      isFlipped := false;
      knownCards := {};
    }

    /** `handleMarkKnown`: the current card's id leaves the known set if it was in
        it and joins it otherwise. With distinct ids no other card's mark changes.
        The component reads the current card unconditionally, so the deck must
        not be empty. */
    method MarkKnown()
      requires Valid() && cards != []
      modifies this
      ensures var id := old(cards[currentIndex].id);
        knownCards == if id in old(knownCards) then old(knownCards) - {id} else old(knownCards) + {id}
      ensures cards == old(cards) && currentIndex == old(currentIndex) && isFlipped == old(isFlipped)
      ensures DistinctIds(cards) ==> forall j :: 0 <= j < |cards| && j != currentIndex ==>
        (cards[j].id in knownCards <==> cards[j].id in old(knownCards))
      ensures Valid()
    {
      var id := cards[currentIndex].id;
      if id in knownCards {
        knownCards := knownCards - {id};
      } else {
        knownCards := knownCards + {id};
      }
    }

    /** `knownCards.size`: never more than the deck's distinct ids, nor its cards. */
    function KnownCount(): (n: nat)
      requires Valid()
      reads this
      ensures n <= |IdsOf(cards)| <= |cards|
    {
      SubsetCard(knownCards, IdsOf(cards));
      IdsOfSize(cards);
      |knownCards|
    }

    /** The current card is shown as known. */
    predicate CurrentKnown()
      requires Valid() && cards != []
      reads this
    {
      cards[currentIndex].id in knownCards
    }
  }

  /** A draw from a pool with distinct ids has distinct ids. */
  lemma SampleDistinctIds(pool: seq<Flashcard>, r: seq<Flashcard>)
    requires DistinctIds(pool) && multiset(r) <= multiset(pool)
    ensures DistinctIds(r)
  {
    assert Distinct(pool) by {
      forall i, j | 0 <= i < j < |pool| ensures pool[i] != pool[j] {
        assert pool[i].id != pool[j].id;
      }
    }
    SubMultisetDistinct(r, pool);
    forall i, j | 0 <= i < j < |r| ensures r[i].id != r[j].id {
      assert r[i] in multiset(pool) && r[j] in multiset(pool);
      var a :| 0 <= a < |pool| && pool[a] == r[i];
      var b :| 0 <= b < |pool| && pool[b] == r[j];
    }
  }

  /** Every deck drawn from the flashcard table, or from one topic of it, has
      distinct ids, so marking a card known marks no other card. */
  lemma DrawnDeckDistinctIds(topic: Option<string>, shuffled: seq<Flashcard>, count: int)
    requires multiset(shuffled) == multiset(FlashcardPool(FlashcardTable, topic))
    ensures DistinctIds(Sample(FlashcardPool(FlashcardTable, topic), shuffled, count))
  {
    PoolDistinctIds(topic);
    SampleDistinctIds(FlashcardPool(FlashcardTable, topic), Sample(FlashcardPool(FlashcardTable, topic), shuffled, count));
  }

  /** Every pool of the corrected flashcard table has distinct ids. */
  lemma PoolDistinctIds(topic: Option<string>)
    ensures DistinctIds(FlashcardPool(FlashcardTable, topic))
  {
    assert DistinctIds(FlashcardTable) by { FlashcardIdsDistinct(); }
    if topic.Some? && topic.value != "" {
      SubsequenceDistinctIds(GetFlashcardsByTopic(FlashcardTable, topic.value), FlashcardTable);
    }
  }

  lemma {:induction false} SubsequenceDistinctIds(r: seq<Flashcard>, s: seq<Flashcard>)
    requires IsSubsequence(r, s) && DistinctIds(s)
    ensures DistinctIds(r)
    decreases |s|
  {
    if r != [] {
      assert DistinctIds(s[1..]) by {
        forall i, j | 0 <= i < j < |s[1..]| ensures s[1..][i].id != s[1..][j].id {
          assert s[i + 1].id != s[j + 1].id;
        }
      }
      if r[0] == s[0] {
        SubsequenceDistinctIds(r[1..], s[1..]);
        SubsequenceMembers(r[1..], s[1..]);
        forall j | 0 < j < |r| ensures r[0].id != r[j].id {
          assert r[1..][j - 1] in s[1..];
          var k :| 0 <= k < |s[1..]| && s[1..][k] == r[j];
          assert s[k + 1] == r[j];
        }
      } else {
        SubsequenceDistinctIds(r, s[1..]);
      }
    }
  }

  lemma {:induction false} SubsequenceMembers<T>(r: seq<T>, s: seq<T>)
    requires IsSubsequence(r, s)
    ensures forall x :: x in r ==> x in s
    decreases |s|
  {
    if r != [] {
      if r[0] == s[0] {
        SubsequenceMembers(r[1..], s[1..]);
        assert r == [r[0]] + r[1..];
      } else {
        SubsequenceMembers(r, s[1..]);
      }
    }
  }

  /** With the table as written, a deck of two cards drawn from the whole table,
      when the shuffle puts both "fc-bt-1" cards first, shows the backtracking
      card as known after only the binary-tree card was marked. */
  method KnownConflation() returns (shownKnown: bool)
    ensures shownKnown
  {
    DuplicateCardId();
    FlashcardIdsDistinct();
    shownKnown := SharedIdShownKnown(FlashcardPool(FlashcardTableAsWritten, None), 9, 22);
  }

  /** Two cards of the pool under one id, shuffled to the front of a two-card
      deck: marking the first known shows the second as known. */
  method SharedIdShownKnown(pool: seq<Flashcard>, i: nat, j: nat) returns (shownKnown: bool)
    requires i < j < |pool| && pool[i].id == pool[j].id
    ensures shownKnown
  {
    var shuffled := [pool[i], pool[j]] + pool[..i] + pool[i + 1..j] + pool[j + 1..];
    TwoToFront(pool, i, j);
    var deck := new Deck(pool, shuffled, 2);
    assert deck.cards == shuffled[..2];
    deck.MarkKnown();
    deck.Next();
    assert deck.currentIndex == 1;
    shownKnown := deck.CurrentKnown();
  }
}

=== FILE: flashcards.dfy ===
/** The flashcard bank of the study site (src/data/flashcards.ts): the card table,
    the per-topic lookup and random decks. Card faces and difficulties are prose
    and are left out; a card keeps its id and topic. */
module Flashcards {
  import opened Common

  datatype Flashcard = Flashcard(id: string, topic: string)

  /** The `flashcards` table as written: the backtracking card reuses the id of the
      first binary-tree card. */
  const FlashcardTableAsWritten: seq<Flashcard> := [
    Flashcard("fc-arr-1", "arrays"),
    Flashcard("fc-arr-2", "arrays"),
    Flashcard("fc-hash-1", "hash-table"),
    Flashcard("fc-hash-2", "hash-table"),
    Flashcard("fc-ll-1", "linked-list"),
    Flashcard("fc-ll-2", "linked-list"),
    Flashcard("fc-stack-1", "stack"),
    Flashcard("fc-stack-2", "stack"),
    Flashcard("fc-queue-1", "queue"),
    Flashcard("fc-bt-1", "binary-tree"),
    Flashcard("fc-bt-2", "binary-tree"),
    Flashcard("fc-bt-3", "binary-tree"),
    Flashcard("fc-heap-1", "heap"),
    Flashcard("fc-heap-2", "heap"),
    Flashcard("fc-graph-1", "graph"),
    Flashcard("fc-graph-2", "graph"),
    Flashcard("fc-dp-1", "dynamic-programming"),
    Flashcard("fc-dp-2", "dynamic-programming"),
    Flashcard("fc-tp-1", "two-pointers"),
    Flashcard("fc-bs-1", "binary-search"),
    Flashcard("fc-bs-2", "binary-search"),
    Flashcard("fc-sort-1", "sorting"),
    Flashcard("fc-bt-1", "backtracking"),
    Flashcard("fc-sw-1", "sliding-window")
  ]

  /** Two different cards of the table as written share an id, so a set of card
      ids (the deck's known cards) cannot tell them apart. */
  lemma DuplicateCardId()
    ensures FlashcardTableAsWritten[9] != FlashcardTableAsWritten[22]
    ensures FlashcardTableAsWritten[9].id == FlashcardTableAsWritten[22].id == "fc-bt-1"
  {
  }

  /** The table with the backtracking card under an id of its own, as the
      corrected half of the duplicate-id finding. */
  const FlashcardTable: seq<Flashcard> := [
    Flashcard("fc-arr-1", "arrays"),
    Flashcard("fc-arr-2", "arrays"),
    Flashcard("fc-hash-1", "hash-table"),
    Flashcard("fc-hash-2", "hash-table"),
    Flashcard("fc-ll-1", "linked-list"),
    Flashcard("fc-ll-2", "linked-list"),
    Flashcard("fc-stack-1", "stack"),
    Flashcard("fc-stack-2", "stack"),
    Flashcard("fc-queue-1", "queue"),
    Flashcard("fc-bt-1", "binary-tree"),
    Flashcard("fc-bt-2", "binary-tree"),
    Flashcard("fc-bt-3", "binary-tree"),
    Flashcard("fc-heap-1", "heap"),
    Flashcard("fc-heap-2", "heap"),
    Flashcard("fc-graph-1", "graph"),
    Flashcard("fc-graph-2", "graph"),
    Flashcard("fc-dp-1", "dynamic-programming"),
    Flashcard("fc-dp-2", "dynamic-programming"),
    Flashcard("fc-tp-1", "two-pointers"),
    Flashcard("fc-bs-1", "binary-search"),
    Flashcard("fc-bs-2", "binary-search"),
    Flashcard("fc-sort-1", "sorting"),
    Flashcard("fc-backtracking-1", "backtracking"),
    Flashcard("fc-sw-1", "sliding-window")
  ]

  /** In the corrected table every card has its own id; nothing else differs. */
  lemma FlashcardIdsDistinct()
    ensures |FlashcardTable| == |FlashcardTableAsWritten| == 24
    ensures FlashcardTable == FlashcardTableAsWritten[22 := Flashcard("fc-backtracking-1", "backtracking")]
    ensures forall i, j :: 0 <= i < j < |FlashcardTable| ==> FlashcardTable[i].id != FlashcardTable[j].id
  {
  }

  /** `getFlashcardsByTopic`: the cards on that topic, in table order. The
      program reads `FlashcardTableAsWritten`; the table is a parameter so that
      the corrected table can be drawn from too. */
  function GetFlashcardsByTopic(table: seq<Flashcard>, topic: string): (r: seq<Flashcard>)
    ensures IsSubsequence(r, table)
    ensures forall c :: c in r <==> c in table && c.topic == topic
  {
    Keep(table, (c: Flashcard) => c.topic == topic)
  }

  /** A topic without cards gives an empty pool. */
  lemma TopicWithoutCards(table: seq<Flashcard>, topic: string)
    requires forall c :: c in table ==> c.topic != topic
    ensures GetFlashcardsByTopic(table, topic) == []
  {
  }

  /** The table has no card on strings. */
  lemma NoStringCards()
    ensures forall c :: c in FlashcardTableAsWritten ==> c.topic != "strings"
  {
    forall i | 0 <= i < |FlashcardTableAsWritten| ensures FlashcardTableAsWritten[i].topic != "strings" {
    }
  }

  /** The card pool `getRandomFlashcards` draws from: the topic's cards for a
      non-empty topic, otherwise the whole table. */
  function FlashcardPool(table: seq<Flashcard>, topic: Option<string>): (r: seq<Flashcard>)
    ensures forall c :: c in r ==> c in table && (topic.Some? && topic.value != "" ==> c.topic == topic.value)
    ensures (topic.None? || topic.value == "") ==> r == table
  {
    if topic.Some? && topic.value != "" then GetFlashcardsByTopic(table, topic.value) else table
  }

  /** `getRandomFlashcards(count = 10, topic?)`, given the shuffled pool:
      `min(count, |pool|)` cards, each from a different position of the pool. */
  function GetRandomFlashcards(table: seq<Flashcard>, shuffled: seq<Flashcard>, count: int := 10,
                               topic: Option<string> := None)
    : (r: seq<Flashcard>)
    requires multiset(shuffled) == multiset(FlashcardPool(table, topic))
    ensures count >= 0 ==> |r| == if count < |FlashcardPool(table, topic)| then count else |FlashcardPool(table, topic)|
    ensures multiset(r) <= multiset(FlashcardPool(table, topic))
    ensures forall c :: c in r ==> c in table && (topic.Some? && topic.value != "" ==> c.topic == topic.value)
  {
    var r := Sample(FlashcardPool(table, topic), shuffled, count);
    assert forall c :: c in r ==> c in multiset(FlashcardPool(table, topic));
    r
  }
}

=== FILE: progress.dfy ===
/** Study-progress bookkeeping (src/lib/progress.ts): the per-problem records, the
    attempted/completed counters overall and per topic, the day streak, the hint
    levels used, the daily activity log and the views computed from them.

    Dates are day numbers: a "YYYY-MM-DD" string is the day it names, the empty
    string is `None`, and the difference of two dates in whole days is their
    difference. The browser store is the object itself (the class below) or a
    value passed in: reading and writing it is not part of this model. */
module Progress {
  import opened Common

  type Day = int

  datatype ProblemStatus = NotStarted | InProgress | Completed | Revisit

  datatype ProblemProgress = ProblemProgress(
    problemId: string,
    status: ProblemStatus,
    attempts: int,
    lastAttempted: Day,
    notes: Option<string>,
    hintsUsed: seq<nat>,
    completedAt: Option<Day>)

  /** `Partial<ProblemProgress>`: each field is either supplied or absent. */
  datatype Updates = Updates(
    problemId: Option<string>,
    status: Option<ProblemStatus>,
    attempts: Option<int>,
    lastAttempted: Option<Day>,
    notes: Option<string>,
    hintsUsed: Option<seq<nat>>,
    completedAt: Option<Day>)

  datatype TopicCounts = TopicCounts(attempted: nat, completed: nat)

  function Or<T>(o: Option<T>, default: T): T {
    if o.Some? then o.value else default
  }

  // ---------------------------------------------------------------------------
  // The record written by updateProblemProgress
  // ---------------------------------------------------------------------------

  /** The record `updateProblemProgress` stores: defaults (status in progress,
      no attempts, no hints, last attempted today), then the old record's status,
      attempts and hints, then every supplied update; on a first completion the
      completion day is today whatever the updates say. */
  function NewEntry(problemId: string, existing: Option<ProblemProgress>, updates: Updates,
                    today: Day, newCompletion: bool): ProblemProgress
  {
    var status := if existing.Some? then existing.value.status else InProgress;
    var attempts := if existing.Some? then existing.value.attempts else 0;
    var hints := if existing.Some? then existing.value.hintsUsed else [];
    var merged := ProblemProgress(
      Or(updates.problemId, problemId), Or(updates.status, status), Or(updates.attempts, attempts),
      Or(updates.lastAttempted, today), updates.notes, Or(updates.hintsUsed, hints),
      updates.completedAt);
    if newCompletion then merged.(completedAt := Some(today)) else merged
  }

  /** The old record contributes only its status, attempts and hint levels:
      records that agree on those give the same new record. */
  lemma NewEntryUsesOnlyStatusAttemptsHints(problemId: string, e1: ProblemProgress, e2: ProblemProgress,
                                            updates: Updates, today: Day, newCompletion: bool)
    requires e1.status == e2.status && e1.attempts == e2.attempts && e1.hintsUsed == e2.hintsUsed
    ensures NewEntry(problemId, Some(e1), updates, today, newCompletion)
         == NewEntry(problemId, Some(e2), updates, today, newCompletion)
  {
  }

  /** Supplied fields win; old notes and completion days are dropped unless
      supplied again; a first completion is dated today. */
  lemma NewEntryFields(problemId: string, existing: Option<ProblemProgress>, updates: Updates,
                       today: Day, newCompletion: bool)
    ensures var e := NewEntry(problemId, existing, updates, today, newCompletion);
      (updates.status.Some? ==> e.status == updates.status.value)
      && (updates.status.None? && existing.None? ==> e.status == InProgress)
      && (updates.attempts.None? && existing.None? ==> e.attempts == 0)
      && (updates.hintsUsed.None? && existing.None? ==> e.hintsUsed == [])
      && (updates.lastAttempted.None? ==> e.lastAttempted == today)
      && e.notes == updates.notes
      && (newCompletion ==> e.completedAt == Some(today))
      && (!newCompletion ==> e.completedAt == updates.completedAt)
  {
  }

  // ---------------------------------------------------------------------------
  // Topic counters
  // ---------------------------------------------------------------------------

  function CountsOf(tp: map<string, TopicCounts>, topic: string): TopicCounts {
    if topic in tp then tp[topic] else TopicCounts(0, 0)
  }

  /** One turn of the `topics.forEach` loop. */
  function BumpTopic(tp: map<string, TopicCounts>, topic: string, attempted: bool, completed: bool)
    : map<string, TopicCounts>
  {
    var c := CountsOf(tp, topic);
    tp[topic := TopicCounts(c.attempted + (if attempted then 1 else 0),
                            c.completed + (if completed then 1 else 0))]
  }

  /** The whole `topics.forEach` loop, one topic after another. */
  function BumpTopics(tp: map<string, TopicCounts>, topics: seq<string>, attempted: bool, completed: bool)
    : map<string, TopicCounts>
    decreases |topics|
  {
    if topics == [] then tp
    else BumpTopic(BumpTopics(tp, topics[..|topics| - 1], attempted, completed),
                   topics[|topics| - 1], attempted, completed)
  }

  /** Every listed topic gets an entry whose counters rise once per occurrence in
      the list under the two conditions; every other topic keeps its entry. */
  lemma BumpTopicsEffect(tp: map<string, TopicCounts>, topics: seq<string>,
                          attempted: bool, completed: bool)
    ensures var r := BumpTopics(tp, topics, attempted, completed);
      (forall t :: t in r <==> t in tp || t in topics)
      && (forall t :: t in topics ==>
            r[t] == TopicCounts(
              CountsOf(tp, t).attempted + (if attempted then multiset(topics)[t] else 0),
              CountsOf(tp, t).completed + (if completed then multiset(topics)[t] else 0)))
      && (forall t :: t in tp && t !in topics ==> r[t] == tp[t])
  {
    var r := BumpTopics(tp, topics, attempted, completed);
    forall t ensures (t in r <==> t in tp || t in topics) && CountsOf(r, t) == TopicCounts(
        CountsOf(tp, t).attempted + (if attempted then multiset(topics)[t] else 0),
        CountsOf(tp, t).completed + (if completed then multiset(topics)[t] else 0))
    {
      BumpTopicsAt(tp, topics, attempted, completed, t);
      assert t in topics <==> t in multiset(topics);
    }
  }

  /** The loop's effect on one topic: it has an entry afterwards exactly when it
      had one or is listed, and its counters rise once per occurrence. */
  lemma {:induction false} BumpTopicsAt(tp: map<string, TopicCounts>, topics: seq<string>,
                                        attempted: bool, completed: bool, t: string)
    ensures var r := BumpTopics(tp, topics, attempted, completed);
      (t in r <==> t in tp || multiset(topics)[t] > 0)
      && CountsOf(r, t) == TopicCounts(
        CountsOf(tp, t).attempted + (if attempted then multiset(topics)[t] else 0),
        CountsOf(tp, t).completed + (if completed then multiset(topics)[t] else 0))
    decreases |topics|
  {
    if topics != [] {
      var init := topics[..|topics| - 1];
      var last := topics[|topics| - 1];
      BumpTopicsAt(tp, init, attempted, completed, t);
      assert topics == init + [last];
      assert multiset(topics) == multiset(init) + multiset{last};
    }
  }

  // ---------------------------------------------------------------------------
  // Day streak
  // ---------------------------------------------------------------------------

  /** The streak `updateStreak` leaves: 1 with no previous day, unchanged on the
      same day, one more on the next day, and 1 after any other gap (including
      a day in the past). */
  function NextStreak(streak: int, lastActive: Option<Day>, today: Day): int {
    if lastActive.None? then 1
    else if today - lastActive.value == 0 then streak
    else if today - lastActive.value == 1 then streak + 1
    else 1
  }

  /** The streak after activity on each of `days` in turn. */
  function StreakAfter(streak: int, lastActive: Option<Day>, days: seq<Day>): int
    decreases |days|
  {
    if days == [] then streak
    else StreakAfter(NextStreak(streak, lastActive, days[0]), Some(days[0]), days[1..])
  }

  /** Activity on k consecutive days, from a streak of s ending the day before
      the first, gives s + k. */
  lemma {:induction false} ConsecutiveDaysExtendStreak(streak: int, first: Day, k: nat)
    ensures StreakAfter(streak, Some(first - 1), seq(k, i => first + i)) == streak + k
    decreases k
  {
    if k > 0 {
      var days := seq(k, i => first + i);
      assert days[1..] == seq(k - 1, i => (first + 1) + i);
      ConsecutiveDaysExtendStreak(streak + 1, first + 1, k - 1);
    }
  }

  /** From a fresh record, activity on k >= 1 consecutive days gives a streak of k. */
  lemma FreshConsecutiveDays(first: Day, k: nat)
    requires k >= 1
    ensures StreakAfter(0, None, seq(k, i => first + i)) == k
  {
    var days := seq(k, i => first + i);
    assert days[1..] == seq(k - 1, i => (first + 1) + i);
    ConsecutiveDaysExtendStreak(1, first + 1, k - 1);
  }

  /** Further activity on the same day changes nothing. */
  lemma SameDayIdempotent(streak: int, lastActive: Option<Day>, today: Day)
    ensures NextStreak(NextStreak(streak, lastActive, today), Some(today), today)
         == NextStreak(streak, lastActive, today)
  {
  }

  // ---------------------------------------------------------------------------
  // Hint levels, kept in the order of the default (string) sort
  // ---------------------------------------------------------------------------

  /** `a <= b` on strings: UTF-16 code-unit order, a prefix before its extensions. */
  predicate LexLeq(a: string, b: string)
    decreases |a|
  {
    a == [] || (b != [] && (a[0] < b[0] || (a[0] == b[0] && LexLeq(a[1..], b[1..]))))
  }

  lemma {:induction false} LexTotal(a: string, b: string)
    ensures LexLeq(a, b) || LexLeq(b, a)
    decreases |a|
  {
    if a != [] && b != [] && a[0] == b[0] {
      LexTotal(a[1..], b[1..]);
    }
  }

  /** Consecutive values are in order of their decimal strings. */
  predicate DecimalOrdered(s: seq<nat>) {
    forall i :: 0 <= i < |s| - 1 ==> LexLeq(NatToString(s[i]), NatToString(s[i + 1]))
  }

  function InsertDecimal(x: nat, s: seq<nat>): (r: seq<nat>)
    requires DecimalOrdered(s)
    ensures DecimalOrdered(r) && multiset(r) == multiset(s) + multiset{x} && |r| == |s| + 1
    ensures r[0] == x || (s != [] && r[0] == s[0])
    decreases |s|
  {
    if s == [] || LexLeq(NatToString(x), NatToString(s[0])) then [x] + s
    else
      LexTotal(NatToString(x), NatToString(s[0]));
      assert s == [s[0]] + s[1..];
      [s[0]] + InsertDecimal(x, s[1..])
  }

  /** `levels.sort()` with no comparator: ordered by the decimal strings. */
  function SortDecimal(s: seq<nat>): (r: seq<nat>)
    ensures DecimalOrdered(r) && multiset(r) == multiset(s) && |r| == |s|
    decreases |s|
  {
    if s == [] then []
    else
      assert s == [s[0]] + s[1..];
      InsertDecimal(s[0], SortDecimal(s[1..]))
  }

  /** For single-digit levels the string order is the numeric order, so the
      sorted levels ascend. */
  lemma {:induction false} SingleDigitsAscend(s: seq<nat>)
    requires DecimalOrdered(s) && forall i :: 0 <= i < |s| ==> s[i] < 10
    ensures forall i, j :: 0 <= i < j < |s| ==> s[i] <= s[j]
    decreases |s|
  {
    if |s| > 1 {
      SingleDigitsAscend(s[1..]);
      assert NatToString(s[0]) == [DigitChar(s[0])];
      assert NatToString(s[1]) == [DigitChar(s[1])];
      assert s[0] <= s[1];
    }
  }

  /** A level added to levels without repeats leaves them without repeats. */
  lemma NoRepeatsAfterAdding(levels: seq<nat>, level: nat)
    requires forall i, j :: 0 <= i < j < |levels| ==> levels[i] != levels[j]
    requires level !in levels
    ensures var r := SortDecimal(levels + [level]);
      forall i, j :: 0 <= i < j < |r| ==> r[i] != r[j]
  {
    var s := levels + [level];
    var r := SortDecimal(s);
    forall x ensures multiset(s)[x] <= 1 {
      if multiset(s)[x] > 1 {
        MultiplicityTwo(s, x);
      }
    }
    forall i, j | 0 <= i < j < |r| ensures r[i] != r[j] {
      if r[i] == r[j] {
        TwoPositions(r, i, j);
      }
    }
  }

  // ---------------------------------------------------------------------------
  // The progress record
  // ---------------------------------------------------------------------------

  class UserProgress {
    var dayStreak: int
    var lastActiveDate: Option<Day>
    var totalProblemsAttempted: int
    var totalProblemsCompleted: int
    var problems: map<string, ProblemProgress>
    var topicProgress: map<string, TopicCounts>

    /** The problems whose record says completed. */
    ghost function CompletedIds(): set<string>
      reads this`problems
    {
      set id | id in problems && problems[id].status == Completed
    }

    /** What holds of every record built from the default by the operations below:
        one attempt counted per problem record, at least one completion counted
        per completed record, and a streak of at least one day once a day is
        recorded. */
    ghost predicate Valid()
      reads this`totalProblemsAttempted, this`totalProblemsCompleted, this`problems, this`lastActiveDate, this`dayStreak
    {
      totalProblemsAttempted == |problems|
      && totalProblemsCompleted >= |CompletedIds()|
      && (lastActiveDate.None? ==> dayStreak == 0)
      && (lastActiveDate.Some? ==> dayStreak >= 1)
    }

    /** `getDefaultProgress`. */
    constructor ()
      ensures dayStreak == 0 && lastActiveDate == None
      ensures totalProblemsAttempted == 0 && totalProblemsCompleted == 0
      ensures problems == map[] && topicProgress == map[]
      ensures Valid()
    {
      dayStreak := 0;
      lastActiveDate := None;
      totalProblemsAttempted := 0;
      totalProblemsCompleted := 0;
      problems := map[];
      topicProgress := map[];
    }

    /** `getProblemProgress`. */
    function ProblemProgressOf(problemId: string): (r: Option<ProblemProgress>)
      reads this
      ensures r.Some? <==> problemId in problems
      ensures r.Some? ==> r.value == problems[problemId]
    {
      if problemId in problems then Some(problems[problemId]) else None
    }

    /** `updateStreak`. */
    method UpdateStreak(today: Day)
      modifies this
      ensures dayStreak == NextStreak(old(dayStreak), old(lastActiveDate), today)
      ensures lastActiveDate == Some(today)
      ensures totalProblemsAttempted == old(totalProblemsAttempted)
      ensures totalProblemsCompleted == old(totalProblemsCompleted)
      ensures problems == old(problems) && topicProgress == old(topicProgress)
      ensures old(Valid()) ==> Valid()
    {
      if lastActiveDate.None? {
        dayStreak := 1;
      } else {
        var diffDays := today - lastActiveDate.value;
        if diffDays == 0 {
        } else if diffDays == 1 {
          dayStreak := dayStreak + 1;
        } else {
          dayStreak := 1;
        }
      }
      lastActiveDate := Some(today);
    }

    /** `updateProblemProgress`: stores the new record under `problemId`, counts a
        first attempt when there was no record and a first completion when the
        updates complete a problem that was not completed, bumps the listed
        topics under the same conditions and updates the streak. The two
        conditions are returned, as they are passed on to the activity log. */
    method UpdateProblemProgress(problemId: string, updates: Updates, topics: seq<string>, today: Day)
      returns (isNewAttempt: bool, isNewCompletion: bool)
      modifies this
      ensures isNewAttempt <==> problemId !in old(problems)
      ensures isNewCompletion <==>
        updates.status == Some(Completed)
        && (problemId !in old(problems) || old(problems)[problemId].status != Completed)
      ensures problems == old(problems)[problemId :=
        NewEntry(problemId, old(ProblemProgressOf(problemId)), updates, today, isNewCompletion)]
      ensures totalProblemsAttempted == old(totalProblemsAttempted) + (if isNewAttempt then 1 else 0)
      ensures totalProblemsCompleted == old(totalProblemsCompleted) + (if isNewCompletion then 1 else 0)
      ensures topicProgress == BumpTopics(old(topicProgress), topics, isNewAttempt, isNewCompletion)
      ensures dayStreak == NextStreak(old(dayStreak), old(lastActiveDate), today)
      ensures lastActiveDate == Some(today)
      ensures old(Valid()) ==> Valid()
    {
      isNewAttempt, isNewCompletion := RecordProblem(problemId, updates, today);
      BumpTopicsFor(topics, isNewAttempt, isNewCompletion);
      UpdateStreak(today);
    }

    /** The record and counter part of `updateProblemProgress`. */
    method RecordProblem(problemId: string, updates: Updates, today: Day)
      returns (isNewAttempt: bool, isNewCompletion: bool)
      modifies this`problems, this`totalProblemsAttempted, this`totalProblemsCompleted
      ensures isNewAttempt <==> problemId !in old(problems)
      ensures isNewCompletion <==>
        updates.status == Some(Completed)
        && (problemId !in old(problems) || old(problems)[problemId].status != Completed)
      ensures problems == old(problems)[problemId :=
        NewEntry(problemId, old(ProblemProgressOf(problemId)), updates, today, isNewCompletion)]
      ensures totalProblemsAttempted == old(totalProblemsAttempted) + (if isNewAttempt then 1 else 0)
      ensures totalProblemsCompleted == old(totalProblemsCompleted) + (if isNewCompletion then 1 else 0)
      ensures old(Valid()) ==> Valid()
    {
      ghost var oldCompleted := CompletedIds();
      var existing := ProblemProgressOf(problemId);
      isNewAttempt := existing.None?;
      isNewCompletion := updates.status == Some(Completed)
        && (existing.None? || existing.value.status != Completed);
      problems := problems[problemId := NewEntry(problemId, existing, updates, today, isNewCompletion)];
      if isNewAttempt {
        totalProblemsAttempted := totalProblemsAttempted + 1;
      }
      if isNewCompletion {
        totalProblemsCompleted := totalProblemsCompleted + 1;
      }
      assert CompletedIds() - {problemId} <= oldCompleted by {
        forall x | x in CompletedIds() - {problemId} ensures x in oldCompleted {
          assert problems[x] == old(problems)[x];
        }
      }
      CompletedAfterUpdate(oldCompleted, CompletedIds(), problemId, isNewCompletion);
    }

    /** The topic loop of `updateProblemProgress`. */
    method BumpTopicsFor(topics: seq<string>, isNewAttempt: bool, isNewCompletion: bool)
      modifies this`topicProgress
      ensures topicProgress == BumpTopics(old(topicProgress), topics, isNewAttempt, isNewCompletion)
    {
      var tp := topicProgress;
      var k := 0;
      while k < |topics|
        invariant 0 <= k <= |topics|
        invariant tp == BumpTopics(topicProgress, topics[..k], isNewAttempt, isNewCompletion)
      {
        assert topics[..k + 1][..k] == topics[..k];
        tp := BumpTopic(tp, topics[k], isNewAttempt, isNewCompletion);
        k := k + 1;
      }
      assert topics[..k] == topics;
      topicProgress := tp;
    }

    /** `markHintUsed`: with no record, or with the level already recorded,
        nothing changes; otherwise the level is added and the levels re-sorted. */
    method MarkHintUsed(problemId: string, hintLevel: nat)
      modifies this
      ensures problemId !in old(problems) || hintLevel in old(problems)[problemId].hintsUsed
        ==> problems == old(problems)
      ensures problemId in old(problems) && hintLevel !in old(problems)[problemId].hintsUsed
        ==> problems == old(problems)[problemId := old(problems)[problemId].(hintsUsed :=
              SortDecimal(old(problems)[problemId].hintsUsed + [hintLevel]))]
      ensures dayStreak == old(dayStreak) && lastActiveDate == old(lastActiveDate)
      ensures totalProblemsAttempted == old(totalProblemsAttempted)
      ensures totalProblemsCompleted == old(totalProblemsCompleted)
      ensures topicProgress == old(topicProgress)
      ensures old(Valid()) ==> Valid()
    {
      if problemId in problems && hintLevel !in problems[problemId].hintsUsed {
        var entry := problems[problemId];
        ghost var before := CompletedIds();
        problems := problems[problemId := entry.(hintsUsed := SortDecimal(entry.hintsUsed + [hintLevel]))];
        assert CompletedIds() == before;
      }
    }
  }

  /** A record update changes the completed set only at its own key, and adds
      that key only on a first completion. */
  lemma CompletedAfterUpdate(before: set<string>, after: set<string>, id: string, newCompletion: bool)
    requires after - {id} <= before
    requires id in after && id !in before ==> newCompletion
    ensures |after| <= |before| + (if newCompletion then 1 else 0)
  {
    if id in after && id !in before {
      assert after <= before + {id};
      SubsetCard(after, before + {id});
    } else if id in after {
      assert after <= before;
      SubsetCard(after, before);
    } else {
      assert after <= before;
      SubsetCard(after, before);
    }
  }

  /** Marking a problem complete, back in progress and complete again counts two
      completions for one attempted problem, so the dashboard's completion rate
      can exceed 100 percent. */
  method CompletedTwiceAttemptedOnce() returns (attempted: int, completed: int)
    ensures attempted == 1 && completed == 2
  {
    var p := new UserProgress();
    var none := Updates(None, None, None, None, None, None, None);
    var a, c := p.UpdateProblemProgress("two-sum", none.(status := Some(Completed)), [], 0);
    a, c := p.UpdateProblemProgress("two-sum", none.(status := Some(InProgress)), [], 0);
    a, c := p.UpdateProblemProgress("two-sum", none.(status := Some(Completed)), [], 0);
    attempted, completed := p.totalProblemsAttempted, p.totalProblemsCompleted;
  }

  // ---------------------------------------------------------------------------
  // Daily activity
  // ---------------------------------------------------------------------------

  datatype DailyActivity = DailyActivity(date: Day, problemsAttempted: int, problemsCompleted: int)

  /** At most one entry per date. */
  predicate DatesDistinct(acts: seq<DailyActivity>) {
    forall i, j :: 0 <= i < j < |acts| ==> acts[i].date != acts[j].date
  }

  /** `activities.find((a) => a.date === today)`, as the index of the first match. */
  function FindDate(acts: seq<DailyActivity>, date: Day): (r: Option<nat>)
    ensures r.Some? ==>
      r.value < |acts| && acts[r.value].date == date
      && forall k :: 0 <= k < r.value ==> acts[k].date != date
    ensures r.None? ==> forall k :: 0 <= k < |acts| ==> acts[k].date != date
    decreases |acts|
  {
    if acts == [] then None
    else if acts[0].date == date then Some(0)
    else
      var r := FindDate(acts[1..], date);
      if r.Some? then Some(r.value + 1) else None
  }

  /** The activity log kept beside the progress record. */
  class ActivityLog {
    var activities: seq<DailyActivity>

    constructor ()
      ensures activities == []
    {
      activities := [];
    }

    /** `updateDailyActivity` (without the 365-day pruning): today's entry is
        found or appended, and its counters rise by one per true flag; every
        other entry is left alone. */
    method UpdateDailyActivity(today: Day, attempted: bool, completed: bool)
      modifies this
      ensures var i := FindDate(old(activities), today);
        if i.Some? then
          activities == old(activities)[i.value := old(activities)[i.value].(
            problemsAttempted := old(activities)[i.value].problemsAttempted + (if attempted then 1 else 0),
            problemsCompleted := old(activities)[i.value].problemsCompleted + (if completed then 1 else 0))]
        else
          activities == old(activities) + [DailyActivity(today, if attempted then 1 else 0, if completed then 1 else 0)]
      ensures DatesDistinct(old(activities)) ==> DatesDistinct(activities)
      ensures exists k :: 0 <= k < |activities| && activities[k].date == today
    {
      var found := FindDate(activities, today);
      var entry := if found.Some? then activities[found.value] else DailyActivity(today, 0, 0);
      if attempted {
        entry := entry.(problemsAttempted := entry.problemsAttempted + 1);
      }
      if completed {
        entry := entry.(problemsCompleted := entry.problemsCompleted + 1);
      }
      if found.Some? {
        activities := activities[found.value := entry];
        assert activities[found.value].date == today;
      } else {
        activities := activities + [entry];
        assert activities[|activities| - 1].date == today;
      }
    }
  }

  /** What `new Map(activities.map((a) => [a.date, a.problemsCompleted])).get(date) || 0`
      gives: the completions of the last entry for the date (later entries
      overwrite earlier ones in the map), or 0. */
  function CompletedOn(acts: seq<DailyActivity>, date: Day): int
    decreases |acts|
  {
    if acts == [] then 0
    else if acts[|acts| - 1].date == date then acts[|acts| - 1].problemsCompleted
    else CompletedOn(acts[..|acts| - 1], date)
  }

  /** With one entry per date, the count is that entry's completions, or 0 for
      a date without an entry. */
  lemma {:induction false} CompletedOnDistinct(acts: seq<DailyActivity>, date: Day)
    requires DatesDistinct(acts)
    ensures FindDate(acts, date).Some? ==>
      CompletedOn(acts, date) == acts[FindDate(acts, date).value].problemsCompleted
    ensures FindDate(acts, date).None? ==> CompletedOn(acts, date) == 0
    decreases |acts|
  {
    if acts != [] {
      var init := acts[..|acts| - 1];
      assert DatesDistinct(init);
      CompletedOnDistinct(init, date);
      if acts[|acts| - 1].date != date {
        assert FindDate(acts, date) == FindDate(init, date) by {
          FindDateOfPrefix(acts, date);
        }
      }
    }
  }

  /** Dropping a last entry of another date does not change where a date is found. */
  lemma FindDateOfPrefix(acts: seq<DailyActivity>, date: Day)
    requires acts != [] && acts[|acts| - 1].date != date
    ensures FindDate(acts, date) == FindDate(acts[..|acts| - 1], date)
  {
    var init := acts[..|acts| - 1];
    var r := FindDate(acts, date);
    var q := FindDate(init, date);
    assert forall k :: 0 <= k < |init| ==> init[k] == acts[k];
    if r.Some? {
      assert r.value < |init|;
      assert q.Some? && q.value == r.value;
    } else {
      assert q.None?;
    }
  }

  datatype CalendarDay = CalendarDay(date: Day, count: int)

  /** `getStreakCalendar(days)`: one entry per day of the `days` days ending
      today, oldest first, each with that day's completions. */
  method GetStreakCalendar(acts: seq<DailyActivity>, today: Day, days: int := 30)
    returns (result: seq<CalendarDay>)
    ensures |result| == if days > 0 then days else 0
    ensures forall k :: 0 <= k < |result| ==> result[k].date == today - (|result| - 1 - k)
    ensures forall k :: 0 <= k < |result| ==> result[k].count == CompletedOn(acts, result[k].date)
  {
    result := [];
    var i := days - 1;
    while i >= 0
      invariant (days > 0 ==> -1 <= i <= days - 1) && (days <= 0 ==> i == days - 1)
      invariant |result| == (if days > 0 then days - 1 - i else 0)
      invariant forall k :: 0 <= k < |result| ==> result[k].date == today - (days - 1 - k)
      invariant forall k :: 0 <= k < |result| ==> result[k].count == CompletedOn(acts, result[k].date)
    {
      var date := today - i;
      result := result + [CalendarDay(date, CompletedOn(acts, date))];
      i := i - 1;
    }
  }

  // ---------------------------------------------------------------------------
  // Topic statistics
  // ---------------------------------------------------------------------------

  datatype TopicStat = TopicStat(topic: string, attempted: nat, completed: nat, percentage: nat)

  /** One row of `getTopicProgressStats`: the counters and the rounded completion
      percentage, 0 when nothing was attempted. */
  function StatOf(entry: (string, TopicCounts)): (s: TopicStat)
    ensures s.topic == entry.0 && s.attempted == entry.1.attempted && s.completed == entry.1.completed
    ensures s.attempted == 0 ==> s.percentage == 0
    ensures s.attempted > 0 ==>
      s.attempted * (2 * s.percentage - 1) <= 200 * s.completed < s.attempted * (2 * s.percentage + 1)
    ensures s.completed <= s.attempted ==> s.percentage <= 100
  {
    var c := entry.1;
    TopicStat(entry.0, c.attempted, c.completed,
              if c.attempted > 0 then RoundPercent(c.completed, c.attempted) else 0)
  }

  function AttemptedKey(s: TopicStat): int { s.attempted }

  /** The rows of `getTopicProgressStats` before sorting, in entry order. */
  function TopicRows(entries: seq<(string, TopicCounts)>): (r: seq<TopicStat>)
    ensures |r| == |entries| && forall i :: 0 <= i < |entries| ==> r[i] == StatOf(entries[i])
  {
    seq(|entries|, i requires 0 <= i < |entries| => StatOf(entries[i]))
  }

  /** `getTopicProgressStats`, given the topic entries in their stored order:
      one row per entry, ordered by attempts, most first; rows with the same
      number of attempts keep the order of their entries. */
  function GetTopicProgressStats(entries: seq<(string, TopicCounts)>): (r: seq<TopicStat>)
    ensures |r| == |entries|
    ensures NonIncreasing(r, AttemptedKey)
    ensures multiset(r) == multiset(TopicRows(entries))
    ensures forall k :: WithKey(r, AttemptedKey, k) == WithKey(TopicRows(entries), AttemptedKey, k)
  {
    var rows := TopicRows(entries);
    forall k ensures WithKey(SortDesc(rows, AttemptedKey), AttemptedKey, k) == WithKey(rows, AttemptedKey, k) {
      SortDescStable(rows, AttemptedKey, k);
    }
    SortDesc(rows, AttemptedKey)
  }
}

=== FILE: quiz_card.dfy ===
/** One quiz question on the study site (src/components/quiz/QuizCard.tsx): the
    card remembers the option picked, accepts one pick only, and colours the
    options once answered. Rendering is left out. */
module QuizCard {
  import opened Common
  import opened Quizzes

  /** How `getOptionStyle` shows an option. */
  datatype OptionStyle = Hoverable | CorrectOption | WrongChoice | Dimmed

  class Card {
    /** The `question` prop; a re-render may pass a different one. */
    var question: QuizQuestion
    /** The `selected` state; absent is `null`. */
    var selected: Option<int>

    /** `useState(selectedAnswer ?? null)` on mounting. */
    constructor(question: QuizQuestion, selectedAnswer: Option<int>)
      ensures this.question == question && selected == selectedAnswer
    {
      this.question := question;
      selected := selectedAnswer;
    }

    /** A re-render with new props: the state survives, so the old selection stays. */
    method Rerender(question: QuizQuestion)
      modifies this
      ensures this.question == question && selected == old(selected)
    {
      this.question := question;
    }

    predicate HasAnswered()
      reads this
    {
      selected.Some?
    }

    /** `isCorrect`: the selected option is the correct one. */
    predicate IsCorrect()
      reads this
    {
      selected == Some(question.correctAnswer)
    }

    /** `handleSelect(index)`: the first pick is kept and reported through
        `onAnswer` (the returned value); any later pick is ignored. */
    method HandleSelect(index: int) returns (onAnswer: Option<int>)
      modifies this
      ensures old(selected).Some? ==> onAnswer.None? && selected == old(selected)
      ensures old(selected).None? ==> onAnswer == Some(index) && selected == Some(index)
      ensures question == old(question)
    {
      if selected.Some? {
        return None;
      }
      selected := Some(index);
      onAnswer := Some(index);
    }

    /** `getOptionStyle(index)`. */
    function StyleOf(index: int): (s: OptionStyle)
      reads this
      ensures s == Hoverable <==> !HasAnswered()
      ensures s == CorrectOption <==> HasAnswered() && index == question.correctAnswer
      ensures s == WrongChoice <==> HasAnswered() && selected == Some(index) && index != question.correctAnswer
    {
      if selected.None? then Hoverable
      else if index == question.correctAnswer then CorrectOption
      else if selected == Some(index) then WrongChoice
      else Dimmed
    }

    /** Once answered, the correct option is the only green one, and a red option
        appears exactly when the pick was wrong, at the picked position. */
    lemma AnsweredStyles()
      requires HasAnswered()
      ensures forall i :: StyleOf(i) == CorrectOption <==> i == question.correctAnswer
      ensures forall i :: StyleOf(i) == WrongChoice ==> Some(i) == selected && !IsCorrect()
      ensures !IsCorrect() ==> StyleOf(selected.value) == WrongChoice
      ensures forall i :: StyleOf(i) != Hoverable
    {
    }
  }

  /** The letters in front of a question's options: A, B, C, ... in option order. */
  function OptionLetters(q: QuizQuestion): (r: seq<char>)
    requires q.optionCount < 0xD800 - 65
    ensures |r| == q.optionCount
    ensures forall i :: 0 <= i < |r| ==> r[i] as int == 65 + i
  {
    seq(q.optionCount, i requires 0 <= i < q.optionCount => OptionLetter(i))
  }
}

=== FILE: quiz_modal.dfy ===
/** The quiz dialog of the study site (src/components/quiz/QuizModal.tsx): it draws
    a quiz, keeps the answer given to each question, moves between questions and
    shows the score once every question is answered. The overlay, buttons and the
    `onClose` callback are rendering; the random draw is a parameter (the shuffled
    pool). Answers are `Some(option)`, and `None` is a hole of the answers array. */
module QuizModal {
  import opened Common
  import opened Quizzes
  import opened QuizCard

  /** `answers` after `newAnswers[index] = value`: an array written past its end
      grows, with holes between the old end and the index. */
  function WriteAnswer(answers: seq<Option<int>>, index: nat, value: int): (r: seq<Option<int>>)
    ensures |r| == if index < |answers| then |answers| else index + 1
    ensures r[index] == Some(value)
    ensures forall i :: 0 <= i < |r| && i != index ==> r[i] == if i < |answers| then answers[i] else None
  {
    if index < |answers| then answers[index := Some(value)]
    else answers + seq(index - |answers|, _ => None) + [Some(value)]
  }

  /** Every pick as a filled answer slot. */
  function Filled(picks: seq<int>): (r: seq<Option<int>>)
    ensures |r| == |picks|
    ensures forall i :: 0 <= i < |r| ==> r[i] == Some(picks[i])
  {
    seq(|picks|, i requires 0 <= i < |picks| => Some(picks[i]))
  }

  /** The quiz the dialog draws is `getRandomQuiz(questionCount, topic)`. */
  lemma DrawIsRandomQuiz(shuffled: seq<QuizQuestion>, questionCount: int, topic: Option<string>)
    requires multiset(shuffled) == multiset(QuizPool(topic))
    ensures Sample(QuizPool(topic), shuffled, questionCount) == GetRandomQuiz(shuffled, questionCount, topic)
  {
  }

  class Modal {
    /** The `questionCount` and `topic` props, and the question pool of the topic. */
    const questionCount: int
    const topic: Option<string>
    const pool: seq<QuizQuestion>
    var questions: seq<QuizQuestion>
    var currentIndex: int
    var answers: seq<Option<int>>
    var showResults: bool

    /** The index points at a question when there are any, the answers never
        outnumber the questions, and results are only shown with as many answers
        as questions. */
    predicate Valid()
      reads this
    {
      0 <= currentIndex
      && (questions == [] ==> currentIndex == 0)
      && (questions != [] ==> currentIndex < |questions|)
      && |answers| <= |questions|
      && (showResults ==> |answers| == |questions|)
    }

    /** No answer slot before the current question is a hole: the order in which
        the dialog lets questions be answered. */
    predicate Dense()
      reads this
    {
      0 <= currentIndex <= |answers|
      && forall i :: 0 <= i < |answers| ==> answers[i].Some?
    }

    /** `hasAnsweredCurrent`, which enables the Next button. */
    predicate NextEnabled()
      reads this
    {
      0 <= currentIndex < |answers| && answers[currentIndex].Some?
    }

    /** `allAnswered`: one slot per question and none of them empty. The
        spread in `handleAnswer` turns earlier holes into `undefined`, which
        `every` does test; a hole written by the last pick would be skipped,
        but the dialog never writes past the end (`Dense`). */
    predicate AllAnswered()
      reads this
    {
      |answers| == |questions| && forall i :: 0 <= i < |answers| ==> answers[i].Some?
    }

    /** The answer slot the card of the current question starts from. */
    function CurrentAnswer(): (r: Option<int>)
      reads this
      ensures r.Some? <==> NextEnabled()
      ensures r.Some? ==> r == answers[currentIndex]
    {
      if 0 <= currentIndex < |answers| then answers[currentIndex] else None
    }

    /** The dialog before its first draw. */
    constructor(questionCount: int, topic: Option<string>)
      ensures this.questionCount == questionCount && this.topic == topic && pool == QuizPool(topic)
      ensures questions == [] && currentIndex == 0 && answers == [] && !showResults
      ensures Valid() && Dense()
    {
      this.questionCount := questionCount;
      this.topic := topic;
      pool := QuizPool(topic);
      questions := [];
      currentIndex := 0;
      answers := [];
      showResults := false;
    }

    /** `initQuiz` (also `handleRetry`): a fresh quiz from the pool, at its first
        question, with no answers. */
    method InitQuiz(shuffled: seq<QuizQuestion>)
      requires multiset(shuffled) == multiset(pool)
      modifies this
      ensures questions == Sample(pool, shuffled, questionCount)
      ensures currentIndex == 0 && answers == [] && !showResults
      ensures Valid() && Dense()
    {
      questions := Sample(pool, shuffled, questionCount);
      currentIndex := 0;
      answers := [];
      showResults := false;
    }

    /** The dialog opened: a quiz is drawn when none is loaded. */
    method Open(shuffled: seq<QuizQuestion>)
      requires multiset(shuffled) == multiset(pool)
      modifies this
      ensures old(questions) == [] ==>
        questions == Sample(pool, shuffled, questionCount) && currentIndex == 0 && answers == [] && !showResults
      ensures old(questions) != [] ==> unchanged(this)
      ensures old(Valid()) ==> Valid()
      ensures old(Dense()) ==> Dense()
    {
      if questions == [] {
        InitQuiz(shuffled);
      }
    }

    /** `handleAnswer(answerIndex)`: the answer is written at the current question
        and nothing else changes. */
    method HandleAnswer(answerIndex: int)
      requires 0 <= currentIndex
      modifies this
      ensures questions == old(questions) && currentIndex == old(currentIndex) && showResults == old(showResults)
      ensures answers == WriteAnswer(old(answers), currentIndex, answerIndex)
      ensures NextEnabled()
      ensures old(Valid()) && questions != [] ==> Valid()
      ensures old(Dense()) ==> Dense()
    {
      answers := WriteAnswer(answers, currentIndex, answerIndex);
    }

    /** `handleNext`: to the following question when there is one; at the last
        question the results are shown once every question is answered. */
    method Next()
      modifies this
      ensures old(currentIndex) < |questions| - 1 ==> currentIndex == old(currentIndex) + 1 && showResults == old(showResults)
      ensures old(currentIndex) >= |questions| - 1 ==>
        currentIndex == old(currentIndex) && showResults == (old(showResults) || AllAnswered())
      ensures questions == old(questions) && answers == old(answers)
      ensures old(Valid()) ==> Valid()
      ensures old(Dense()) && old(NextEnabled()) ==> Dense()
    {
      if currentIndex < |questions| - 1 {
        currentIndex := currentIndex + 1;
      } else if AllAnswered() {
        showResults := true;
      }
    }

    /** `handlePrev`: back one question, if not at the first. */
    method Prev()
      modifies this
      ensures currentIndex == if old(currentIndex) > 0 then old(currentIndex) - 1 else old(currentIndex)
      ensures questions == old(questions) && answers == old(answers) && showResults == old(showResults)
      ensures old(Valid()) ==> Valid()
      ensures old(Dense()) ==> Dense()
    {
      if currentIndex > 0 {
        currentIndex := currentIndex - 1;
      }
    }

    /** `handleClose`: everything back to the unopened dialog. */
    method Close()
      modifies this
      ensures questions == [] && answers == [] && currentIndex == 0 && !showResults
      ensures Valid() && Dense()
    {
      questions := [];
      answers := [];
      currentIndex := 0;
      showResults := false;
    }

    /** `score`: computed only while the results are shown. */
    function CurrentScore(): (s: Option<Score>)
      reads this
      requires |answers| <= |questions|
      ensures s.Some? <==> showResults
      ensures s.Some? ==> s.value.total == |questions| && s.value.correct == |RightPositions(answers, questions)|
    {
      if showResults then Some(CalculateScore(answers, questions)) else None
    }
  }

  /** A new dialog for the props, opened: it holds `getRandomQuiz(questionCount, topic)`. */
  method Opened(questionCount: int, topic: Option<string>, shuffled: seq<QuizQuestion>) returns (m: Modal)
    requires multiset(shuffled) == multiset(QuizPool(topic))
    ensures fresh(m)
    ensures m.questions == GetRandomQuiz(shuffled, questionCount, topic)
    ensures m.currentIndex == 0 && m.answers == [] && !m.showResults
    ensures m.Valid() && m.Dense()
  {
    m := new Modal(questionCount, topic);
    m.Open(shuffled);
    DrawIsRandomQuiz(shuffled, questionCount, topic);
  }

  /** The dialog as written: one card instance serves every question, so its
      selection survives the move to the second question. After the first
      question is answered and Next pressed, no pick on the second question
      reaches the dialog: the Next button stays disabled and the results can
      never be shown. */
  method UnkeyedCardQuiz(questionCount: int, topic: Option<string>, shuffled: seq<QuizQuestion>, picks: seq<int>)
    returns (m: Modal, card: Card)
    requires multiset(shuffled) == multiset(QuizPool(topic))
    requires |GetRandomQuiz(shuffled, questionCount, topic)| >= 2
    requires |picks| >= 1
    ensures m.questions == GetRandomQuiz(shuffled, questionCount, topic)
    ensures m.currentIndex == 1 && m.answers == [Some(picks[0])]
    ensures !m.NextEnabled() && !m.showResults
    ensures card.question == m.questions[1] && card.selected == Some(picks[0])
  {
    m := Opened(questionCount, topic, shuffled);
    card := UnkeyedPicks(m, picks);
  }

  /** The unkeyed card on an opened dialog of at least two questions: the first
      pick answers the first question, Next moves on, and every later pick is
      swallowed by the card. */
  method UnkeyedPicks(m: Modal, picks: seq<int>) returns (card: Card)
    requires m.Valid() && m.Dense() && m.currentIndex == 0 && m.answers == [] && !m.showResults
    requires |m.questions| >= 2 && |picks| >= 1
    modifies m
    ensures m.questions == old(m.questions)
    ensures m.currentIndex == 1 && m.answers == [Some(picks[0])]
    ensures !m.NextEnabled() && !m.showResults
    ensures card.question == m.questions[1] && card.selected == Some(picks[0])
  {
    card := new Card(m.questions[0], m.CurrentAnswer());
    var fired := card.HandleSelect(picks[0]);
    m.HandleAnswer(fired.value);
    m.Next();
    card.Rerender(m.questions[1]);
    for k := 1 to |picks|
      invariant m.questions == old(m.questions)
      invariant m.currentIndex == 1 && m.answers == [Some(picks[0])] && !m.showResults
      invariant card.question == m.questions[1] && card.selected == Some(picks[0])
    {
      fired := card.HandleSelect(picks[k]);
      assert fired.None?;
    }
  }

  /** One question of the keyed dialog: a new card for the current question, one
      pick on it, and Next. */
  method KeyedStep(m: Modal, pick: int)
    requires m.Valid() && m.Dense() && !m.showResults && m.questions != [] && m.currentIndex == |m.answers|
    modifies m
    ensures m.questions == old(m.questions) && m.answers == old(m.answers) + [Some(pick)]
    ensures old(m.currentIndex) < |m.questions| - 1 ==> m.currentIndex == old(m.currentIndex) + 1 && !m.showResults
    ensures old(m.currentIndex) == |m.questions| - 1 ==> m.showResults
    ensures m.Valid() && m.Dense()
  {
    var card := new Card(m.questions[m.currentIndex], m.CurrentAnswer());
    var fired := card.HandleSelect(pick);
    m.HandleAnswer(fired.value);
    m.Next();
  }

  /** The keyed dialog from its first question: one pick per question, each
      followed by Next, ends on the results with exactly the picks as answers. */
  method KeyedAnswers(m: Modal, picks: seq<int>)
    requires m.Valid() && m.Dense() && m.currentIndex == 0 && m.answers == [] && !m.showResults
    requires |picks| == |m.questions| > 0
    modifies m
    ensures m.questions == old(m.questions)
    ensures m.answers == Filled(picks) && m.showResults && m.Valid() && m.Dense()
  {
    var n := |m.questions|;
    var k := 0;
    while k < n
      invariant 0 <= k <= n
      invariant m.questions == old(m.questions)
      invariant m.Valid() && m.Dense()
      invariant |m.answers| == k && forall i :: 0 <= i < k ==> m.answers[i] == Some(picks[i])
      invariant k < n ==> m.currentIndex == k && !m.showResults
      invariant k == n ==> m.showResults
    {
      KeyedStep(m, picks[k]);
      k := k + 1;
    }
    assert m.answers == Filled(picks);
  }

  /** The dialog with its card keyed by the question index: every question gets a
      new card starting from that question's answer slot. Picking one option per
      question and pressing Next each time reaches the results, with exactly the
      picks as answers and their score. */
  method KeyedCardQuiz(questionCount: int, topic: Option<string>, shuffled: seq<QuizQuestion>, picks: seq<int>)
    returns (m: Modal)
    requires multiset(shuffled) == multiset(QuizPool(topic))
    requires |picks| == |GetRandomQuiz(shuffled, questionCount, topic)| > 0
    ensures m.questions == GetRandomQuiz(shuffled, questionCount, topic)
    ensures m.answers == Filled(picks) && m.showResults
    ensures m.Valid() && m.CurrentScore() == Some(CalculateScore(Filled(picks), m.questions))
  {
    m := Opened(questionCount, topic, shuffled);
    KeyedAnswers(m, picks);
  }
}

=== FILE: quiz_results.dfy ===
/** The results panel of a quiz (src/components/quiz/QuizResults.tsx): a message
    chosen by score band and a ring whose colour and filled arc follow the
    percentage. The percentage is `None` when it is NaN (a quiz without
    questions), and every comparison with NaN is false. */
module QuizResults {
  import opened Common
  import opened Quizzes

  datatype Message = Excellent | GreatJob | GoodEffort | KeepPracticing

  datatype RingColour = Green | Yellow | Red

  function MessageText(m: Message): string {
    match m
    case Excellent => "Excellent!"
    case GreatJob => "Great job!"
    case GoodEffort => "Good effort!"
    case KeepPracticing => "Keep practicing!"
  }

  /** The bands from the top: 0 for the best message. */
  function Rank(m: Message): nat {
    match m
    case Excellent => 0
    case GreatJob => 1
    case GoodEffort => 2
    case KeepPracticing => 3
  }

  /** `getMessage()`: 90 and up, 70 and up, 50 and up, the rest. */
  function MessageFor(percentage: Option<int>): (m: Message)
    ensures m == Excellent <==> percentage.Some? && percentage.value >= 90
    ensures m == GreatJob <==> percentage.Some? && 70 <= percentage.value < 90
    ensures m == GoodEffort <==> percentage.Some? && 50 <= percentage.value < 70
    ensures m == KeepPracticing <==> percentage.None? || percentage.value < 50
  {
    if percentage.Some? && percentage.value >= 90 then Excellent
    else if percentage.Some? && percentage.value >= 70 then GreatJob
    else if percentage.Some? && percentage.value >= 50 then GoodEffort
    else KeepPracticing
  }

  /** The ring's colour: green from 70, yellow from 50, red below. */
  function RingColourFor(percentage: Option<int>): (c: RingColour)
    ensures c == Green <==> percentage.Some? && percentage.value >= 70
    ensures c == Yellow <==> percentage.Some? && 50 <= percentage.value < 70
    ensures c == Red <==> percentage.None? || percentage.value < 50
  {
    if percentage.Some? && percentage.value >= 70 then Green
    else if percentage.Some? && percentage.value >= 50 then Yellow
    else Red
  }

  /** A higher percentage never gets a lower message. */
  lemma MessageMonotone(p: int, q: int)
    requires p <= q
    ensures Rank(MessageFor(Some(q))) <= Rank(MessageFor(Some(p)))
  {
  }

  /** The ring's colour coarsens the message: green for the two top messages,
      yellow for the third, red for the last. */
  lemma RingMatchesMessage(percentage: Option<int>)
    ensures RingColourFor(percentage) == Green <==> Rank(MessageFor(percentage)) <= 1
    ensures RingColourFor(percentage) == Yellow <==> MessageFor(percentage) == GoodEffort
    ensures RingColourFor(percentage) == Red <==> MessageFor(percentage) == KeepPracticing
  {
  }

  /** The filled arc, `percentage * 3.52` of a 352-unit circumference. */
  function ArcLength(percentage: nat): (r: real)
    ensures r >= 0.0
    ensures percentage <= 100 ==> r <= 352.0
    ensures r * 100.0 == 352.0 * percentage as real
  {
    percentage as real * 3.52
  }

  /** A quiz answered entirely right gets the top message and a full ring; one
      with no right answer gets the last message. */
  lemma ScoreExtremes(answers: seq<Option<int>>, questions: seq<QuizQuestion>)
    requires |answers| <= |questions| && questions != []
    ensures var s := CalculateScore(answers, questions);
      (s.correct == s.total ==> MessageFor(s.percentage) == Excellent && ArcLength(s.percentage.value) == 352.0)
      && (s.correct == 0 ==> MessageFor(s.percentage) == KeepPracticing)
  {
  }
}

=== FILE: quizzes.dfy ===
/** The quiz bank of the study site (src/data/quizzes.ts): the question table, the
    per-topic lookup, random quizzes and scoring. Question text, option text and
    explanations are prose; a question keeps its id, topic, number of options and
    the index of its correct option. */
module Quizzes {
  import opened Common

  datatype QuizQuestion = QuizQuestion(id: string, topic: string, optionCount: nat, correctAnswer: int)

  /** The `quizQuestions` table. */
  const QuizTable: seq<QuizQuestion> := [
    QuizQuestion("arr-1", "arrays", 4, 0),
    QuizQuestion("arr-2", "arrays", 4, 1),
    QuizQuestion("arr-3", "arrays", 2, 1),
    QuizQuestion("hash-1", "hash-table", 4, 0),
    QuizQuestion("hash-2", "hash-table", 4, 1),
    QuizQuestion("hash-3", "hash-table", 2, 1),
    QuizQuestion("ll-1", "linked-list", 4, 0),
    QuizQuestion("ll-2", "linked-list", 4, 2),
    QuizQuestion("ll-3", "linked-list", 2, 1),
    QuizQuestion("stack-1", "stack", 4, 1),
    QuizQuestion("stack-2", "stack", 4, 1),
    QuizQuestion("bt-1", "binary-tree", 4, 2),
    QuizQuestion("bt-2", "binary-tree", 4, 2),
    QuizQuestion("bt-3", "binary-tree", 4, 1),
    QuizQuestion("dp-1", "dynamic-programming", 4, 1),
    QuizQuestion("dp-2", "dynamic-programming", 4, 1),
    QuizQuestion("tp-1", "two-pointers", 4, 1),
    QuizQuestion("tp-2", "two-pointers", 4, 0),
    QuizQuestion("graph-1", "graph", 4, 1),
    QuizQuestion("graph-2", "graph", 4, 2),
    QuizQuestion("sort-1", "sorting", 4, 1),
    QuizQuestion("sort-2", "sorting", 4, 2),
    QuizQuestion("sort-3", "sorting", 2, 0)
  ]

  /** Every correct answer indexes one of its question's options. */
  predicate WellFormed(q: QuizQuestion) {
    0 <= q.correctAnswer < q.optionCount
  }

  /** The table's ids are distinct and every question is well formed. */
  lemma QuizTableShape()
    ensures |QuizTable| == 23
    ensures forall i, j :: 0 <= i < j < |QuizTable| ==> QuizTable[i].id != QuizTable[j].id
    ensures forall i :: 0 <= i < |QuizTable| ==> WellFormed(QuizTable[i])
  {
  }

  /** `getQuizzesByTopic`: the questions on that topic, in table order. */
  function GetQuizzesByTopic(topic: string): (r: seq<QuizQuestion>)
    ensures IsSubsequence(r, QuizTable)
    ensures forall q :: q in r <==> q in QuizTable && q.topic == topic
  {
    Keep(QuizTable, (q: QuizQuestion) => q.topic == topic)
  }

  /** The question pool `getRandomQuiz` draws from. */
  function QuizPool(topic: Option<string>): (r: seq<QuizQuestion>)
    ensures forall q :: q in r ==> q in QuizTable && (topic.Some? && topic.value != "" ==> q.topic == topic.value)
  {
    if topic.Some? && topic.value != "" then GetQuizzesByTopic(topic.value) else QuizTable
  }

  /** `getRandomQuiz(count = 5, topic?)`, given the shuffled pool: `min(count, |pool|)`
      questions, each taken from a different position of the pool. */
  function GetRandomQuiz(shuffled: seq<QuizQuestion>, count: int := 5, topic: Option<string> := None)
    : (r: seq<QuizQuestion>)
    requires multiset(shuffled) == multiset(QuizPool(topic))
    ensures count >= 0 ==> |r| == if count < |QuizPool(topic)| then count else |QuizPool(topic)|
    ensures multiset(r) <= multiset(QuizPool(topic))
    ensures forall q :: q in r ==> q in QuizTable && (topic.Some? && topic.value != "" ==> q.topic == topic.value)
  {
    var r := Sample(QuizPool(topic), shuffled, count);
    assert forall q :: q in r ==> q in multiset(QuizPool(topic));
    r
  }

  datatype Score = Score(correct: nat, total: nat, percentage: Option<nat>)

  /** The answer at position i is the question's correct option; an unanswered
      slot (a hole in the answers array, `None` here) never is. */
  predicate RightAt(answers: seq<Option<int>>, questions: seq<QuizQuestion>, i: int)
    requires 0 <= i < |answers| <= |questions|
  {
    answers[i] == Some(questions[i].correctAnswer)
  }

  /** `answers.filter((ans, i) => ans === questions[i].correctAnswer).length`. */
  function CountCorrect(answers: seq<Option<int>>, questions: seq<QuizQuestion>): (n: nat)
    requires |answers| <= |questions|
    ensures n <= |answers|
    decreases |answers|
  {
    if answers == [] then 0
    else CountCorrect(answers[..|answers| - 1], questions)
         + (if RightAt(answers, questions, |answers| - 1) then 1 else 0)
  }

  /** The positions answered correctly. */
  ghost function RightPositions(answers: seq<Option<int>>, questions: seq<QuizQuestion>): set<int>
    requires |answers| <= |questions|
  {
    set i | 0 <= i < |answers| && RightAt(answers, questions, i)
  }

  /** The count is the number of correctly answered positions. */
  lemma {:induction false} CountCorrectCounts(answers: seq<Option<int>>, questions: seq<QuizQuestion>)
    requires |answers| <= |questions|
    ensures CountCorrect(answers, questions) == |RightPositions(answers, questions)|
    decreases |answers|
  {
    if answers != [] {
      var init := answers[..|answers| - 1];
      var last := |answers| - 1;
      CountCorrectCounts(init, questions);
      var before := RightPositions(init, questions);
      var after := RightPositions(answers, questions);
      if RightAt(answers, questions, last) {
        assert after == before + {last};
      } else {
        assert after == before;
      }
    }
  }

  /** `calculateScore(answers, questions)`: the number right, the number of
      questions and the rounded percentage, which is NaN (absent) for no questions.
      Answers beyond the questions would make the source throw. */
  function CalculateScore(answers: seq<Option<int>>, questions: seq<QuizQuestion>): (s: Score)
    requires |answers| <= |questions|
    ensures s.correct <= s.total == |questions|
    ensures s.correct == |RightPositions(answers, questions)|
    ensures s.percentage.None? <==> questions == []
    ensures s.percentage.Some? ==> s.percentage == Some(RoundPercent(s.correct, s.total))
    ensures s.percentage.Some? ==> var p := s.percentage.value;
      s.total * (2 * p - 1) <= 200 * s.correct < s.total * (2 * p + 1)
    ensures s.percentage.Some? ==> s.percentage.value <= 100
    ensures s.percentage.Some? && s.correct == s.total ==> s.percentage == Some(100)
    ensures s.percentage.Some? && s.correct == 0 ==> s.percentage == Some(0)
  {
    var correct := CountCorrect(answers, questions);
    CountCorrectCounts(answers, questions);
    Score(correct, |questions|, if questions == [] then None else Some(RoundPercent(correct, |questions|)))
  }
}

=== FILE: streak_calendar.dfy ===
/** The activity calendar card (src/components/progress/StreakCalendar.tsx): one
    square per day, shaded by the number of problems completed that day, with a
    tooltip. The calendar itself comes from `getStreakCalendar`. */
module StreakCalendar {
  import opened Common

  /** The four shades of a square, lightest first. */
  datatype Intensity = Muted | LightGreen | MiddleGreen | DarkGreen

  function Level(i: Intensity): nat {
    match i
    case Muted => 0
    case LightGreen => 1
    case MiddleGreen => 2
    case DarkGreen => 3
  }

  /** `getIntensity(count)`: 0 muted, 1 light, 2 middle, 3 and more dark; a
      negative count falls through to muted. */
  function GetIntensity(count: int): (i: Intensity)
    ensures i == Muted <==> count <= 0
    ensures i == LightGreen <==> count == 1
    ensures i == MiddleGreen <==> count == 2
    ensures i == DarkGreen <==> count >= 3
  {
    if count == 0 then Muted
    else if count == 1 then LightGreen
    else if count == 2 then MiddleGreen
    else if count >= 3 then DarkGreen
    else Muted
  }

  /** More completions never give a lighter square. */
  lemma IntensityMonotone(count: int, more: int)
    requires 0 <= count <= more
    ensures Level(GetIntensity(count)) <= Level(GetIntensity(more))
  {
  }

  /** For counts from 0 the shade level is the count, capped at 3. */
  lemma IntensityCaps(count: nat)
    ensures Level(GetIntensity(count)) == if count < 3 then count else 3
  {
  }

  /** The noun of the tooltip: singular exactly for one problem. */
  function ProblemNoun(count: int): (s: string)
    ensures s == "problem" <==> count == 1
    ensures s == "problem" || s == "problems"
  {
    if count != 1 then "problems" else "problem"
  }
}

=== FILE: theme_toggle.dfy ===
/** The theme button (src/components/theme-toggle.tsx): each click moves the
    theme light, dark, system, light again; the icon and label show the theme.
    The theme provider and its storage are not part of this model: the theme is
    the one field the button changes. */
module ThemeToggle {
  datatype Icon = Sun | Moon

  /** `toggleTheme`'s choice: light to dark, dark to system, anything else to light. */
  function NextTheme(theme: string): (t: string)
    ensures theme == "light" ==> t == "dark"
    ensures theme == "dark" ==> t == "system"
    ensures theme != "light" && theme != "dark" ==> t == "light"
  {
    if theme == "light" then "dark" else if theme == "dark" then "system" else "light"
  }

  /** `getIcon`: the moon exactly for the dark theme. */
  function IconOf(theme: string): (i: Icon)
    ensures i == Moon <==> theme == "dark"
  {
    if theme == "dark" then Moon else Sun
  }

  /** `getLabel`: System, Dark, and Light for every other value. */
  function LabelOf(theme: string): (l: string)
    ensures theme == "system" ==> l == "System"
    ensures theme == "dark" ==> l == "Dark"
    ensures theme != "system" && theme != "dark" ==> l == "Light"
  {
    if theme == "system" then "System" else if theme == "dark" then "Dark" else "Light"
  }

  /** Three clicks from any of the three themes come back to it; from any other
      value one click reaches light and the cycle from there. */
  lemma ThreeClicksCycle(theme: string)
    ensures theme in {"light", "dark", "system"} ==> NextTheme(NextTheme(NextTheme(theme))) == theme
    ensures NextTheme(theme) in {"light", "dark", "system"}
  {
    if theme == "light" {
      assert NextTheme(theme) == "dark";
      assert NextTheme("dark") == "system";
      assert NextTheme("system") == "light";
    } else if theme == "dark" {
      assert NextTheme(theme) == "system";
      assert NextTheme("system") == "light";
      assert NextTheme("light") == "dark";
    } else if theme == "system" {
      assert NextTheme(theme) == "light";
      assert NextTheme("light") == "dark";
      assert NextTheme("dark") == "system";
    }
  }

  /** The label names the theme a click has left: after light comes "Dark", after
      dark "System", and after anything else "Light", whose icon is the sun. */
  lemma LabelAfterClick(theme: string)
    ensures LabelOf(NextTheme(theme)) == if theme == "light" then "Dark" else if theme == "dark" then "System" else "Light"
    ensures IconOf(NextTheme(theme)) == if theme == "light" then Moon else Sun
  {
  }

  /** The button's view of the theme. */
  class Toggle {
    var theme: string

    constructor(theme: string)
      ensures this.theme == theme
    {
      this.theme := theme;
    }

    /** A click: `toggleTheme`. */
    method Click()
      modifies this
      ensures theme == NextTheme(old(theme))
      ensures theme in {"light", "dark", "system"}
    {
      ThreeClicksCycle(theme);
      theme := NextTheme(theme);
    }
  }

  /** Three clicks on a button showing light, dark or system leave it as it was. */
  method ThreeClicks(start: string) returns (t: Toggle)
    requires start in {"light", "dark", "system"}
    ensures t.theme == start
  {
    t := new Toggle(start);
    t.Click();
    t.Click();
    t.Click();
    ThreeClicksCycle(start);
  }
}

=== FILE: topics.dfy ===
/** The topic table of the study site (src/data/topics.ts): one entry per topic
    slug, lookups by slug and the three topic categories. Descriptions and icons
    are prose and are left out. */
module Topics {
  import opened Common

  datatype Topic = Topic(slug: string, name: string)

  /** The `TopicSlug` union type, member by member. */
  const TopicSlugs: seq<string> := [
    "arrays", "strings", "hash-table", "linked-list", "stack", "queue",
    "tree", "binary-tree", "binary-search-tree", "heap", "graph",
    "dynamic-programming", "greedy", "backtracking", "recursion",
    "binary-search", "two-pointers", "sliding-window", "sorting", "math",
    "bit-manipulation", "trie", "union-find", "divide-and-conquer"
  ]

  /** The `topics` table. */
  const TopicTable: seq<Topic> := [
    Topic("arrays", "Arrays"),
    Topic("strings", "Strings"),
    Topic("hash-table", "Hash Table"),
    Topic("linked-list", "Linked List"),
    Topic("stack", "Stack"),
    Topic("queue", "Queue"),
    Topic("tree", "Tree"),
    Topic("binary-tree", "Binary Tree"),
    Topic("binary-search-tree", "Binary Search Tree"),
    Topic("heap", "Heap"),
    Topic("graph", "Graph"),
    Topic("dynamic-programming", "Dynamic Programming"),
    Topic("greedy", "Greedy"),
    Topic("backtracking", "Backtracking"),
    Topic("recursion", "Recursion"),
    Topic("binary-search", "Binary Search"),
    Topic("two-pointers", "Two Pointers"),
    Topic("sliding-window", "Sliding Window"),
    Topic("sorting", "Sorting"),
    Topic("math", "Math"),
    Topic("bit-manipulation", "Bit Manipulation"),
    Topic("trie", "Trie"),
    Topic("union-find", "Union Find"),
    Topic("divide-and-conquer", "Divide and Conquer")
  ]

  /** The table lists every slug of the union type exactly once, in the order the
      type declares them. */
  lemma TopicTableShape()
    ensures |TopicTable| == |TopicSlugs| == 24
    ensures forall i :: 0 <= i < |TopicTable| ==> TopicTable[i].slug == TopicSlugs[i]
    ensures Distinct(TopicSlugs)
  {
    TopicTableSlugs();
    SlugsDistinctFrom0();
    SlugsDistinctFrom3();
    SlugsDistinctFrom6();
    SlugsDistinctFrom12();
    SlugsDistinctFrom18();
  }

  lemma TopicTableSlugs()
    ensures |TopicTable| == |TopicSlugs| == 24
    ensures forall i :: 0 <= i < |TopicTable| ==> TopicTable[i].slug == TopicSlugs[i]
  {
  }

  // The distinctness of the slugs, a few rows of pairs at a time.

  lemma SlugsDistinctFrom0()
    ensures forall i, j :: 0 <= i < 3 && i < j < |TopicSlugs| ==> TopicSlugs[i] != TopicSlugs[j]
  {
  }

  lemma SlugsDistinctFrom3()
    ensures forall i, j :: 3 <= i < 6 && i < j < |TopicSlugs| ==> TopicSlugs[i] != TopicSlugs[j]
  {
  }

  lemma SlugsDistinctFrom6()
    ensures forall i, j :: 6 <= i < 12 && i < j < |TopicSlugs| ==> TopicSlugs[i] != TopicSlugs[j]
  {
  }

  lemma SlugsDistinctFrom12()
    ensures forall i, j :: 12 <= i < 18 && i < j < |TopicSlugs| ==> TopicSlugs[i] != TopicSlugs[j]
  {
  }

  lemma SlugsDistinctFrom18()
    ensures forall i, j :: 18 <= i < j < |TopicSlugs| ==> TopicSlugs[i] != TopicSlugs[j]
  {
  }

  /** `getTopicBySlug`: the table entry with that slug, absent for any other string. */
  function GetTopicBySlug(slug: string): (r: Option<Topic>)
    ensures r.None? <==> slug !in TopicSlugs
    ensures r.Some? ==> r.value in TopicTable && r.value.slug == slug
  {
    TopicTableSlugs();
    Find(TopicTable, (t: Topic) => t.slug == slug)
  }

  /** Every table entry is what its own slug looks up. */
  lemma GetTopicBySlugFindsEntry(i: nat)
    requires i < |TopicTable|
    ensures GetTopicBySlug(TopicTable[i].slug) == Some(TopicTable[i])
  {
    TopicTableShape();
    var r := GetTopicBySlug(TopicTable[i].slug);
    var k :| 0 <= k < |TopicTable| && TopicTable[k] == r.value && TopicTable[k].slug == TopicTable[i].slug;
    assert TopicSlugs[k] == TopicSlugs[i];
  }

  datatype Category = DataStructures | AlgorithmsCategory | Techniques

  /** The slugs listed for each category. */
  function CategorySlugs(c: Category): seq<string> {
    match c
    case DataStructures =>
      ["arrays", "strings", "hash-table", "linked-list", "stack", "queue",
       "tree", "binary-tree", "binary-search-tree", "heap", "graph", "trie"]
    case AlgorithmsCategory =>
      ["sorting", "binary-search", "dynamic-programming", "greedy", "backtracking"]
    case Techniques =>
      ["two-pointers", "sliding-window", "recursion", "bit-manipulation",
       "union-find", "divide-and-conquer", "math"]
  }

  /** `getTopicsByCategory`: in table order, exactly the topics listed for the category. */
  function GetTopicsByCategory(c: Category): (r: seq<Topic>)
    ensures IsSubsequence(r, TopicTable)
    ensures forall t :: t in r <==> t in TopicTable && t.slug in CategorySlugs(c)
  {
    Keep(TopicTable, (t: Topic) => t.slug in CategorySlugs(c))
  }

  predicate ExactlyOne(a: bool, b: bool, c: bool) {
    (a && !b && !c) || (!a && b && !c) || (!a && !b && c)
  }

  /** Every topic of the table belongs to exactly one category. */
  lemma CategoriesPartitionTopics()
    ensures forall s :: s in TopicSlugs ==>
      ExactlyOne(s in CategorySlugs(DataStructures), s in CategorySlugs(AlgorithmsCategory),
                 s in CategorySlugs(Techniques))
    ensures forall c: Category, s :: s in CategorySlugs(c) ==> s in TopicSlugs
  {
  }
}

=== FILE: visualizer_types.dfy ===
/** The records the algorithm visualizer exchanges (src/components/visualizer/types.ts):
    the snapshot a step generator yields, the table of available algorithms and the
    random input generator. */
module VisualizerTypes {
  import opened Common

  /** The caption of a step. The template literals of the generators are kept as
      constructors carrying the numbers they interpolate, in the order they appear. */
  datatype Description =
    | Comparing(a: int, b: int)
    | Swapping(a: int, b: int)
    | FindingMinimum(a: int, b: int)
    | SwappingToPosition(v: int, pos: int)
    | Inserting(key: int)
    | ComparingGreater(a: int, key: int)
    | ShiftingRight(v: int)
    | PivotSelected(pivot: int)
    | ComparingWithPivot(a: int, pivot: int)
    | PlacingPivot(pivot: int)
    | MergingSubarrays(left: seq<int>, right: seq<int>)
    | Merged(run: seq<int>)
    | SearchingSorted(target: int)
    | CheckingMiddle(v: int)
    | FoundAt(target: int, index: int)
    | SearchingRightHalf(target: int, v: int)
    | SearchingLeftHalf(target: int, v: int)
    | NotFound(target: int)
    | Searching(target: int)
    | CheckingIndex(index: int, v: int)
    | ArraySorted

  /** One yielded snapshot (`values` is the `array` field). An absent optional index list is the empty list: every
      reader of a step (the bar colouring) treats the two alike. */
  datatype AlgorithmStep = AlgorithmStep(
    values: seq<int>,
    comparing: seq<int>,
    swapping: seq<int>,
    sorted: seq<int>,
    pivot: Option<int>,
    found: Option<int>,
    description: Description)

  datatype AlgorithmType = SortingKind | SearchingKind | GraphKind | TreeKind

  /** An entry of the algorithm table; complexity strings and prose are left out. */
  datatype Algorithm = Algorithm(id: string, name: string, kind: AlgorithmType, stable: bool)

  const AlgorithmTable: seq<Algorithm> := [
    Algorithm("bubble-sort", "Bubble Sort", SortingKind, true),
    Algorithm("selection-sort", "Selection Sort", SortingKind, false),
    Algorithm("insertion-sort", "Insertion Sort", SortingKind, true),
    Algorithm("quick-sort", "Quick Sort", SortingKind, false),
    Algorithm("merge-sort", "Merge Sort", SortingKind, true),
    Algorithm("binary-search", "Binary Search", SearchingKind, true),
    Algorithm("linear-search", "Linear Search", SearchingKind, true)
  ]

  /** `ALGORITHMS.find((a) => a.id === id)`. */
  function FindAlgorithm(id: string): (r: Option<Algorithm>)
    ensures r.Some? ==> r.value in AlgorithmTable && r.value.id == id
    ensures r.None? <==> forall k :: 0 <= k < |AlgorithmTable| ==> AlgorithmTable[k].id != id
  {
    if exists k :: 0 <= k < |AlgorithmTable| && AlgorithmTable[k].id == id
    then
      var k :| 0 <= k < |AlgorithmTable| && AlgorithmTable[k].id == id;
      Some(AlgorithmTable[k])
    else None
  }

  /** The table lists seven algorithms under distinct ids: five sorts, then two searches. */
  lemma AlgorithmTableShape()
    ensures |AlgorithmTable| == 7
    ensures forall i, j :: 0 <= i < j < |AlgorithmTable| ==> AlgorithmTable[i].id != AlgorithmTable[j].id
    ensures forall i :: 0 <= i < 5 ==> AlgorithmTable[i].kind == SortingKind
    ensures forall i :: 5 <= i < 7 ==> AlgorithmTable[i].kind == SearchingKind
  {
  }

  /** `Math.floor(draw * (max - min + 1)) + min` for one random draw. */
  function RandomValue(draw: real, min: int, max: int): int {
    (draw * ((max - min + 1) as real)).Floor + min
  }

  /** `generateRandomArray(size, min = 5, max = 100)`; `draws` are the successive
      `Math.random()` results, each in [0, 1). */
  function GenerateRandomArray(size: nat, draws: seq<real>, min: int := 5, max: int := 100): (r: seq<int>)
    requires |draws| == size
    requires forall i :: 0 <= i < size ==> 0.0 <= draws[i] < 1.0
    ensures |r| == size
    ensures min <= max ==> forall i :: 0 <= i < size ==> min <= r[i] <= max
  {
    var r := seq(size, i requires 0 <= i < size => RandomValue(draws[i], min, max));
    assert min <= max ==> forall i :: 0 <= i < size ==> min <= r[i] <= max by {
      if min <= max {
        forall i | 0 <= i < size ensures min <= r[i] <= max {
          RandomValueInBounds(draws[i], min, max);
        }
      }
    }
    r
  }

  /** A draw in [0, 1) lands in [min, max]. */
  lemma RandomValueInBounds(draw: real, min: int, max: int)
    requires 0.0 <= draw < 1.0 && min <= max
    ensures min <= RandomValue(draw, min, max) <= max
  {
    var w := (max - min + 1) as real;
    assert 0.0 <= draw * w < w;
    var f := (draw * w).Floor;
    assert (f as real) <= draw * w < (f as real) + 1.0;
    assert 0 <= f;
    assert (f as real) < w;
  }
}
